=== FILE: README.md ===
# Record search, write-back and change notification, in Dafny

This project models the core of a desktop record-management application
for a law office. The application keeps persons, cases and documents in
SQLite. Four pieces of it are modelled:

- **The search-query compiler** (`common/search_engine.py`). It turns
  what the user types in the search box (`user[first_name]:smith & case:x`)
  into `(groups, sql, params, return specs)` entries. The grammar's regular
  expressions are not modelled. Their matches are inputs: sequences of
  `(start, end, groups)` records. Everything after the matching is modelled:
  - the consumption checks;
  - the parse;
  - the single-column and relevance statement builders;
  - the clause-by-clause dispatch, with fan-out and `&`-joins;
  - the restricted variant.
- **The database layer's pure parts** (`common/db.py`):
  - the `REGEXP` function's choice of match mode;
  - which tables a write statement touches, and the markers appended to
    the change log for them;
  - the `update_*` statement builders;
  - the ordering of `get_persons`, `get_cases` and `get_documents`;
  - the rows `add_case` inserts;
  - the post-processing of `search` and `restricted_search`.

  SQL execution is a parameter: a function from statement to rows.
  Statements are either literal text or a `Select` value naming the query.
- **The record objects** (`common/db_obj.py`). A `Record` class holds:
  - the snapshot, as ordered keys plus a map;
  - the edit-mode flag;
  - the lock-acquired flag.

  The class has the getters, the setters, `update`, `edit`, `_callback`
  and `finalize_edit`.
- **The main window's bookkeeping** (`common/main_gui.py`):
  - the change-log cursor of `DataNotifier`;
  - the reconciliation of the cached objects against the database
    (`update_data` and `update_dict_if_absent`);
  - the history stack behind the back button.

Modules follow the source: `Wrappers`, `Text` and `Values` are shared
vocabulary. Then:

- `Schema`, `QueryParse`, `QueryBuilder`, `RelevanceMarks`, `QueryCompiler`
  and `SearchProperties` model the search engine;
- `RegexpFunction`, `ChangeLog`, `DbUpdates`, `DbReads` and `DbSearch`
  model the database layer;
- `Records` models the record objects, and `MainGui` the main window.

Methods with loops are proved equal to a specification function, and
the properties are lemmas about those functions.

## Model

| member | source | states |
|---|---|---|
| Schema.GroupNamed | common/search_engine.py:10-14 | Only `user`, `case` and `docu` name a group; each name resolves to its own group. |
| Schema.TableColumns | common/search_engine.py:15-23 | Each group's tables are paired with their own column tuples, in table order, and there is at least one table. |
| Schema.SchemaColumnsDisjoint | common/search_engine.py:15-23 | No column name is declared by two tables of the same group. |
| Schema.FindTable | common/search_engine.py:172-175 | The loop resolving a column's table gives the last table that declares it, or the empty name. |
| Schema.TableOfDeclaring | common/search_engine.py:172-175 | With disjoint columns, a column resolves to the one table that declares it. |
| Schema.TableOfUndeclared | common/search_engine.py:172-175 | A column no table declares resolves to the empty table name. |
| Schema.JoinPathChains | common/search_engine.py:29-42 | Every pair of different groups has a join path, and it links the first group to the second; a group has none onto itself. |
| QueryParse.ContiguousIffTiling | common/search_engine.py:57-64 | The consumption walk succeeds exactly when the spans start at 0, each starts where the previous one ended, and the last ends at the input's length. |
| QueryParse.SpansConsumed | common/search_engine.py:77-84 | The loop over the spans decides exactly that contiguity, stopping at the first gap. |
| QueryParse.CheckConsumedString | common/search_engine.py:49-64 | Returns every match's groups, and reports consumed exactly for a gap-free tiling; no match at all is not consumed. |
| QueryParse.CheckConsumedSubstring | common/search_engine.py:67-84 | Same as above, except that with no match the empty sub-term text counts as consumed and any other does not. |
| QueryParse.ParseUserInput | common/search_engine.py:86-111 | The parse loop computes the parse function: `None` on unconsumed input, otherwise one entry per re-matching main match. |
| QueryParse.ParseClausesRejects | common/search_engine.py:101-105 | One clause whose sub-term text is not consumed makes the whole parse fail. |
| QueryParse.ParseClausesAccepts | common/search_engine.py:101-109 | The clauses parse exactly when none of them is rejected. |
| QueryParse.ParseSucceedsIff | common/search_engine.py:86-111 | The input parses exactly when the main matches consume it all and every clause's sub-term text is a short `\|` section or is consumed. |
| QueryParse.ParseNeedsMatches | common/search_engine.py:53-54 | Without any main match, as for the empty input, nothing parses. |
| QueryParse.ParseClausesKept | common/search_engine.py:93-109 | One parsed clause per main match that re-matches; a short `\|` section gives a clause without sub-terms. |
| QueryBuilder.CondsUntilBare | common/search_engine.py:185-187 | The sub-terms used are the longest prefix without a bare combinator, and the next one, if any, is bare. |
| QueryBuilder.ParamsLength | common/search_engine.py:177-211 | Without a bare combinator, there is one condition and one parameter for the clause and one of each per sub-term. |
| QueryBuilder.GenerateQuery | common/search_engine.py:152-216 | The single-column builder computes the statement and parameters of the specification function. |
| QueryBuilder.FromWithJoins | common/search_engine.py:159-166 | The FROM clause names the first table and LEFT JOINs every further one. |
| QueryBuilder.ConditionsUntilBare | common/search_engine.py:185-211 | The loop gives one condition and one stripped value per sub-term, in order, up to the first bare combinator. |
| QueryBuilder.SubTerm | common/search_engine.py:188-211 | A sub-term's condition is its connective and its column's comparison; its parameter is its stripped value. |
| QueryBuilder.QueryIgnoresAfterBare | common/search_engine.py:186-187 | Whatever follows the first bare combinator does not change the statement. |
| QueryBuilder.QueryPlaceholders | common/search_engine.py:177-214 | The single-column statement has exactly as many `?` as parameters. |
| QueryBuilder.QueryParamsCount | common/search_engine.py:177-214 | It has one parameter for the clause plus one per sub-term before the first bare combinator. |
| QueryBuilder.Put | common/search_engine.py:305-308 | Assigning a dictionary key keeps an existing key in place with the new value; a new key goes last; keys stay distinct. |
| QueryBuilder.NormalizedExtraKeys | common/search_engine.py:305-308 | The additional terms are keyed by column: each column named by a sub-term appears exactly once. |
| QueryBuilder.NormalizedExtraSize | common/search_engine.py:305-308 | There is one additional term per distinct column. |
| QueryBuilder.NormalizedExtraLast | common/search_engine.py:305-308 | Each column's entry comes from the last sub-term naming it. |
| QueryBuilder.ArmsAt | common/search_engine.py:233-246 | Column `k` has the exact arm weighted `n + 2 - k` at position `2k`, then the regex arm weighted `n - k`. |
| QueryBuilder.ArmWeight | common/search_engine.py:237-241 | Every column's weights, the last column's included, are positive, and its exact arm outweighs its regex arm by two. |
| QueryBuilder.ArmWeights | common/search_engine.py:237-241 | An earlier column outweighs a later one in both kinds of arm, whose weights are positive and two apart. |
| QueryBuilder.GenerateFullQuery | common/search_engine.py:219-277 | The relevance builder computes the statement and parameters of the specification function. |
| QueryBuilder.FromExcept | common/search_engine.py:221-227 | The FROM clause names the first table and LEFT JOINs every other table of the map. |
| QueryBuilder.CaseConditions | common/search_engine.py:233-246 | The nested loops give the two arms of every column, table by table, with a running column index. |
| QueryBuilder.TableArms | common/search_engine.py:234-245 | One table's loop appends the arms of its columns and advances the index by its column count. |
| QueryBuilder.ColumnArms | common/search_engine.py:236-245 | One column adds its exact arm, then its regex arm. |
| QueryBuilder.AnyColumnConditions | common/search_engine.py:249-253 | The vague term is compared with every column of every table. |
| QueryBuilder.AdditionalConditions | common/search_engine.py:256-272 | One condition and one value per additional term, in dictionary order. |
| RelevanceMarks.CaseStatementPlaceholders | common/search_engine.py:233-246 | The CASE expression holds two `?` per column. |
| RelevanceMarks.AnyPlaceholders | common/search_engine.py:249-253 | The vague-term conditions hold one `?` per column. |
| RelevanceMarks.AdditionalPlaceholders | common/search_engine.py:256-272 | The additional conditions hold one `?` per additional term. |
| RelevanceMarks.WhereClausePlaceholders | common/search_engine.py:249-272 | The WHERE clause holds `N + k` placeholders for `N` columns and `k` additional terms. |
| RelevanceMarks.FullQueryPlaceholders | common/search_engine.py:219-277 | The relevance statement has as many `?` as parameters, and there are `3N + k` of them. |
| RelevanceMarks.FullParamsShape | common/search_engine.py:274-277 | The first `3N` parameters are the wrapped vague term `.*term.*`; the rest are the additional values, in order. |
| RelevanceMarks.SchemaFullQueryPlaceholders | common/search_engine.py:219-277 | This balance holds for every group of the schema. |
| QueryCompiler.JoinPathUnmarked | common/search_engine.py:29-42 | The join paths hold no `?`. |
| QueryCompiler.GenerateClause | common/search_engine.py:313-324 | A clause naming a column gets the single-column statement, otherwise the relevance statement. |
| QueryCompiler.FanOutEntries | common/search_engine.py:310-318 | A clause without a group gives, for each group in order, the entry of that group (corrected, see Findings). |
| QueryCompiler.ClauseEntry | common/search_engine.py:318 | An entry names its one group and one return spec and holds its clause's statement. |
| QueryCompiler.FanOutEntryFor | common/search_engine.py:311-318 | One iteration of the fan-out loop builds that group's entry (corrected, see Findings). |
| QueryCompiler.FanOutClause | common/search_engine.py:310-318 | The fan-out loop computes the fan-out function: an entry per group, or `KeyError` when a column is named (corrected, see Findings). |
| QueryCompiler.JoinClauseTerms | common/search_engine.py:329-346 | The join loop gives one condition and one value per term that is not a bare combinator, in order (corrected, see Findings). |
| QueryCompiler.RunFailureSticks | common/search_engine.py:301-362 | Once a clause fails, the later clauses do not change the outcome. |
| QueryCompiler.ClauseStep | common/search_engine.py:301-362 | One iteration of the dispatch loop computes the step function (corrected, see Findings). |
| QueryCompiler.JoinClause | common/search_engine.py:326-357 | Joining a clause onto the previous entry computes the join step function (corrected, see Findings). |
| QueryCompiler.GetSqlQuery | common/search_engine.py:279-364 | The whole dispatch computes the compile function of the input (corrected, see Findings). |
| SearchProperties.FanOutShape | common/search_engine.py:310-318 | A clause without a group gives exactly one entry per group, in order, each selecting from its own group, unless it names a column (`KeyError`) (corrected, see Findings). |
| SearchProperties.StepCount | common/search_engine.py:301-362 | A clause adds one entry per group in a fan-out, one entry for a group, or none when it joins; earlier entries are untouched; a trailing `&` sets the join flag. |
| SearchProperties.StepConsistent | common/search_engine.py:301-362 | Each step keeps every entry well formed (as many return specs as groups) and a pending join's target present. |
| SearchProperties.RunConsistent | common/search_engine.py:279-364 | Every entry of a successful compilation, joined or not, names one return spec per group. |
| SearchProperties.StepFailure | common/search_engine.py:310-357 | A step fails exactly on a fan-out naming a column or a join onto a statement already selecting from that group, always with `KeyError`. |
| SearchProperties.RunFailsOnKeysOnly | common/search_engine.py:301-362 | The loop never raises anything but `KeyError`. |
| SearchProperties.CompileFailsOnKeysOnly | common/search_engine.py:279-364 | The compilation never raises anything but `KeyError`. |
| SearchProperties.CompileUnparsed | common/search_engine.py:283-298 | The empty input gives the one select-all entry for all three groups with their default specs; other unparsed input gives an empty entry with three empty specs. |
| SearchProperties.CondTermsMembers | common/search_engine.py:331-343 | The joined terms are exactly the sub-terms that are not bare combinators. |
| SearchProperties.NextChain | common/search_engine.py:326 | A clause with a group, while a join is pending, is joined onto the last entry. |
| SearchProperties.JoinShape | common/search_engine.py:348-357 | A join replaces the last entry: it gains the group, its default spec, and the clause's values after the old parameters. |
| SearchProperties.JoinConditionAgrees | common/search_engine.py:338-341 | The corrected join condition is the condition the single-column builder writes. |
| SearchProperties.JoinConditionAsWrittenIgnoresEquality | common/search_engine.py:338-341 | As written, every joined condition is a regex match, so an `=` term's condition differs from the intended one. |
| SearchProperties.FanOutReturnsAsWrittenSplitsGroup | common/search_engine.py:312 | As written, `x[name]:smith` returns `["x"]` instead of `["name"]`. |
| SearchProperties.FanOutReturnsAgree | common/search_engine.py:304-312 | With the correction, a fan-out clause's bracket list is its return spec, as for a clause naming a group. |
| SearchProperties.ClauseStatementBalanced | common/search_engine.py:313-324 | A clause's statement has one `?` per parameter. |
| SearchProperties.StepBalanced | common/search_engine.py:301-362 | Every step keeps one `?` per parameter in every entry, joins included. |
| SearchProperties.RunBalanced | common/search_engine.py:301-362 | After the whole loop every entry has one `?` per parameter. |
| SearchProperties.CompileBalanced | common/search_engine.py:279-364 | Every entry the search returns, parsed or not, has one `?` per parameter. |
| SearchProperties.RestrictedRejects | common/search_engine.py:371-391 | A restricted search answers `("", (), ())` for several clauses, for another group's clause, or for unparsed non-empty input; the empty input selects every number of the group. |
| SearchProperties.RestrictedFailures | common/search_engine.py:369-379 | A restricted search fails exactly on no clause at all or on an unknown group name. |
| SearchProperties.RestrictedSingle | common/search_engine.py:378-389 | One clause for the restricted group, or for no group, compiles that clause for the group. |
| SearchProperties.CompileSingle | common/search_engine.py:319-359 | One clause for a group gives exactly one entry, that clause compiled for the group. |
| SearchProperties.RestrictedAgrees | common/search_engine.py:380-389 | The restricted and unrestricted searches give the same statement, parameters and return spec for such a clause. |
| RegexpFunction.Regexp | common/db.py:118-134 | `NULL` never matches, an engine error gives false instead of raising, and otherwise the value matches exactly when the engine says yes in the chosen mode. |
| RegexpFunction.WrappedMode | common/db.py:124-128 | A `.*X.*` pattern is a whole match of X unquoted when X is quoted, otherwise a case-insensitive search for X. |
| RegexpFunction.QuotedMode | common/db.py:129-130 | A quoted pattern is a whole match of its inside. |
| RegexpFunction.RelevanceParamsMode | common/db.py:124-128 | Every vague-term parameter of the relevance statement selects a case-insensitive search, or a whole match when the user quoted the term. |
| ChangeLog.SearchCapture | common/db.py:183-195 | A pattern's capture is a non-empty run of token characters. |
| ChangeLog.SearchLeftmost | common/db.py:183-195 | The capture comes from the leftmost match; no capture means no match anywhere. |
| ChangeLog.SearchAtStart | common/db.py:183-195 | A statement starting with a match yields that match's table name. |
| ChangeLog.AffectedTables | common/db.py:174-197 | At most three table names, each a non-empty token without white space. |
| ChangeLog.MarkersIff | common/db.py:205-208 | Tab exactly for the case tables, newline exactly for `Persons`, space exactly for `Documents`; nothing else, and no marker twice. |
| ChangeLog.LogChanges | common/db.py:200-208 | The log grows by the markers of the statement's affected tables. |
| ChangeLog.AppendMarkers | common/db.py:205-208 | The loop appends the markers in the order tab, newline, space. |
| DbUpdates.InsertRows | common/db.py:418-419 | One INSERT per item, stopping with `TypeError` at an item that cannot be unpacked. |
| DbUpdates.RelationRows | common/db.py:350-355 | A relation argument first DELETEs the existing links, then INSERTs the new ones, and can only fail with `TypeError`. |
| DbUpdates.InsertRowsStuck | common/db.py:418-419 | After a failing item, later items change nothing. |
| DbUpdates.InsertRowsComplete | common/db.py:425-426 | When every item unpacks, each gets its INSERT and nothing fails. |
| DbUpdates.InsertAll | common/db.py:354-355 | The insertion loop computes the insertion function. |
| DbUpdates.ReplaceRelation | common/db.py:414-426 | The relation branch computes the DELETE-then-INSERT function. |
| DbUpdates.AcceptArgument | common/db.py:346-357 | One keyword argument: a SET item, the relation statements, or `ValueError`. |
| DbUpdates.UpdateRecord | common/db.py:341-362 | `update_*` computes the plan: the loop, then the UPDATE when there is a SET item. |
| DbUpdates.ColumnArgs | common/db.py:347-349 | The column arguments are allowed columns, no more than the arguments. |
| DbUpdates.ColumnArgsMembers | common/db.py:347-349 | An argument is among the column arguments exactly when it names an allowed column. |
| DbUpdates.ColumnArgsAppend | common/db.py:347-349 | The column arguments keep argument order: those of two runs of arguments are the first run's followed by the second's. |
| DbUpdates.PendingAccepted | common/db.py:346-357 | For accepted arguments, the loop's state is the SET items, values and relation statements of the arguments so far. |
| DbUpdates.UpdatePlanAccepted | common/db.py:406-433 | An accepted call runs its relation statements, then one UPDATE listing the column arguments in order as `col = ?`, with their values and then the number. |
| DbUpdates.UpdatePlanRejects | common/db.py:427-428 | An unknown key raises `ValueError` after only the statements before it; no UPDATE is issued. |
| DbUpdates.KnownKeysAccepted | common/db.py:473-493 | A call with only known keys never raises `ValueError`. |
| DbUpdates.NoUpdateWithoutColumns | common/db.py:490-493 | Without a column argument no UPDATE is issued. |
| DbUpdates.ScalarDocumentWrapped | common/db.py:424 | A non-list documents value is linked as the single document. |
| DbUpdates.UpdateStatementBalanced | common/db.py:359-362 | The UPDATE has one `?` per SET item plus one for the number. |
| DbUpdates.AddCase | common/db.py:435-451 | `add_case` inserts the case, one row per party, one per document, and returns the new number; a missing list counts as empty. |
| DbUpdates.AddCaseFlags | common/db.py:443-446 | Each party row has the case number, a side of 0 or 1 that is 1 exactly when the side is truthy, no external lawyer, and self-representation 1 exactly when person and lawyer coincide. |
| DbReads.IndexOf | common/db.py:325 | `list.index` gives the first position of the value. |
| DbReads.Insert | common/db.py:337 | `list.insert` puts the value at the position, or at the end when the position is past it; the elements before it and after it keep their order, and nothing else is added or lost. |
| DbReads.ColumnsRequested | common/db.py:322-326 | The columns read are the attributes without their first `cases`. |
| DbReads.FetchPersons | common/db.py:321-339 | `get_persons` computes the specification function. |
| DbReads.GetPersonsOrder | common/db.py:321-339 | The result follows the requested order: the cases at the position of `cases`, every other value at its attribute's position. |
| DbReads.Parties | common/db.py:394-395 | The persons of a case can be built exactly when every person row has a value and every lawyer row has two; each is then `(person, lawyer, side)` from the rows at its position, and otherwise `IndexError`. |
| DbReads.CaseFieldOf | common/db.py:383-401 | Only the three columns, `persons` and `documents` are known to `get_cases`. |
| DbReads.CaseAttribute | common/db.py:382-403 | An attribute raises `ValueError` exactly when it is unknown. |
| DbReads.FetchCases | common/db.py:380-404 | `get_cases` computes the specification function. |
| DbReads.ReadAttribute | common/db.py:382-403 | One iteration reads one attribute, or raises `ValueError` for an unknown one. |
| DbReads.GetCasesShape | common/db.py:380-404 | A successful `get_cases` has one value per requested attribute, in order. |
| DbReads.GetCasesRejects | common/db.py:402-403 | An unknown attribute makes `get_cases` fail, with `ValueError` when nothing before it failed. |
| DbReads.PartiesMismatch | common/db.py:394-398 | When the two person queries disagree in length, the persons are `()`. |
| DbReads.DocumentAttribute | common/db.py:462-470 | An attribute raises `ValueError` exactly when `get_documents` does not know it. |
| DbReads.FetchDocuments | common/db.py:460-471 | `get_documents` computes the specification function. |
| DbReads.GetDocumentsShape | common/db.py:460-471 | A successful `get_documents` has one value per requested attribute, in order. |
| DbSearch.Column | common/db.py:517-522 | The distinct values of a column are exactly the values the rows hold there, at most one per row; `IndexError` exactly when a row is too short. |
| DbSearch.CollectHits | common/db.py:519-523 | The loop over an entry's groups computes its hits. |
| DbSearch.Search | common/db.py:509-525 | `search` computes the hits of every entry, skipping entries without rows. |
| DbSearch.EntryHitsSound | common/db.py:519-523 | No hit is for documents, and each hit holds the distinct values of its group's column. |
| DbSearch.SearchHitsSound | common/db.py:509-525 | Every hit of a search comes from an entry that returned rows, for a group other than documents, with the distinct numbers of its column. |
| DbSearch.RestrictedResults | common/db.py:527-533 | No rows give `([], ())`; otherwise the result is the distinct numbers of the first column with the return fields exactly when every row has a first column, and `IndexError` when one does not. |
| Records.InitialDistinct | common/db_obj.py:46-53 | A record's initial snapshot has distinct keys. |
| Records.Refreshed | common/db_obj.py:92-97 | The new snapshot pairs the keys with the fetched values in order, each unwrapped, and fails with `TypeError` exactly when a value cannot be unwrapped (corrected, see Findings). |
| Records.Exclude | common/db_obj.py:104-105 | Deleting the excluded keys can only fail with `KeyError`. |
| Records.JoinNotesAsWritten | common/db_obj.py:106 | `'\n'.join` gives a string or fails with `TypeError`. |
| Records.Shipped | common/db_obj.py:99-107 | The written-back copy can only fail with `KeyError` or `TypeError`. |
| Records.Record.constructor | common/db_obj.py:9-16 | A new record has the kind's initial snapshot, in order, with both flags cleared. |
| Records.Record.EditValue | common/db_obj.py:23-27 | Outside edit mode, `ValueError` and nothing changes; inside, exactly that key is set. |
| Records.Record.Refresh | common/db_obj.py:91-97 | `update` replaces the snapshot with the refreshed one, or raises the fetch's exception and changes nothing; the flags are kept (corrected, see Findings). |
| Records.Record.GetValue | common/db_obj.py:18-21 | A stored value other than `""` is returned unchanged; `""` triggers a refresh first; a missing key is `KeyError` (corrected, see Findings). |
| Records.Record.Callback | common/db_obj.py:32-33 | Sets the lock flag and nothing else. |
| Records.Record.Edit | common/db_obj.py:35-40 | Engages edit mode and ends with the lock acquired, the snapshot untouched. |
| Records.Record.FinalizeEdit | common/db_obj.py:99-108 | Leaves edit mode, writes back the filtered copy, clears the lock flag unless an exception stopped it, and leaves the snapshot unchanged (corrected, see Findings). |
| Records.Record.CanBeLawyer | common/db_obj.py:278-280 | The getter reports whether the stored flag is 1; with an empty flag it refreshes the snapshot first, and it fails with the refresh's exception or `KeyError` as `_get_value` does. |
| Records.Record.SetCanBeLawyer | common/db_obj.py:282-284 | In edit mode the setter stores 1 or 0, which the getter reads back as the value set, and the key keeps its place in the key order, or goes last when it is new; outside edit mode it raises `ValueError` and changes nothing. |
| Records.FilterMembers | common/db_obj.py:104-105 | The keys left are exactly the keys not excluded. |
| Records.FilterTwice | common/db_obj.py:104-105 | Deleting two lists of keys one after the other is deleting both at once, in the same order. |
| Records.ExcludeSucceeds | common/db_obj.py:104-105 | Deleting distinct present keys succeeds. |
| Records.ExcludeResult | common/db_obj.py:102-105 | The copy keeps the other keys in order, each with its stored value. |
| Records.ExcludeFails | common/db_obj.py:104-105 | Deleting a missing key raises `KeyError`. |
| Records.ShippedWhen | common/db_obj.py:99-107 | `finalize_edit` writes back exactly when every excluded key and the notes are present and the notes can be joined. |
| Records.ShippedShape | common/db_obj.py:99-107 | It writes back the non-excluded keys in snapshot order, each with its stored value, except the notes, which are joined (corrected, see Findings). |
| Records.InitialKnown | common/db_obj.py:46-53 | Every initial non-excluded key is one the record's `update_*` method accepts. |
| Records.FinalizeAccepted | common/db_obj.py:302-311 | A record with only its initial keys is never stopped by `ValueError` in `finalize_edit`. |
| Records.NotesJoinedTwice | common/db_obj.py:106 | As written, notes held as the text `ab` are written back as `a\nb`. |
| Records.NotesRoundTrip | common/db_obj.py:186 | With the correction, notes read by a refresh are written back unchanged, and split lines join back to their text. |
| Records.SinglePartyAsWritten | common/db_obj.py:171-177 | As written, a case with one person has its persons unwrapped to the bare triple, and writing that back fails with `TypeError` right after the DELETE. |
| Records.PartiesReinserted | common/db_obj.py:171-177 | With the correction, the persons read back are kept and re-inserted one link each, without error. |
| MainGui.Unread | common/main_gui.py:30-31 | A read from the cursor returns the text that, after what was already read, makes up the log; nothing past its end. |
| MainGui.Cursor | common/main_gui.py:32 | After the read, the cursor is at the end of the log, or stays where it was past the end. |
| MainGui.DataNotifier.constructor | common/main_gui.py:22-25 | A notifier starts at position 0. |
| MainGui.DataNotifier.Poll | common/main_gui.py:27-35 | Without the log file nothing changes; otherwise the cursor moves to where the read stopped and the distinct characters read are emitted, if any. |
| MainGui.EmittedIff | common/main_gui.py:33-35 | A poll emits exactly when the log grew past the cursor, and then exactly the characters appended since. |
| MainGui.PollAgain | common/main_gui.py:30-35 | A second poll with nothing appended emits nothing and leaves the cursor in place. |
| MainGui.PollSeesLoggedMarkers | common/main_gui.py:27-35 | After a statement's markers are appended to a fully read log, the next poll emits exactly those markers. |
| MainGui.CacheOf | common/main_gui.py:454-461 | Tab refreshes the cases, newline the persons, space the documents; any other character refreshes nothing. |
| MainGui.DispatchMirrorsMarkers | common/main_gui.py:454-461 | The caches refreshed for a statement's markers are exactly those whose tables the statement touched. |
| MainGui.Reconciled | common/main_gui.py:444-453 | After reconciliation the cached keys are exactly the current keys. |
| MainGui.ReconciledKeeps | common/main_gui.py:448-453 | A key cached before keeps its cached object; a new key gets the new object. |
| MainGui.ReconciledTwice | common/main_gui.py:444-453 | Reconciling twice against the same data is reconciling once. |
| MainGui.ObjectCache.Reconcile | common/main_gui.py:444-453 | In place, the cache becomes the reconciled map; the keys whose objects are kept (and updated) are the old keys still present. |
| MainGui.ObjectCache.DropStale | common/main_gui.py:445-447 | The first loop deletes exactly the keys no longer present. |
| MainGui.ObjectCache.AddCurrent | common/main_gui.py:448-453 | The second loop keeps every cached object and adds each new key's object. |
| MainGui.Caches.UpdateData | common/main_gui.py:443-461 | Each cache is reconciled exactly when its marker is among the changes; the others are unchanged. |
| MainGui.Back | common/main_gui.py:433-436 | Going back leaves a prefix of the history, one frame shorter while more than one remains, and never empties it. |
| MainGui.BackStepsKeepsFirst | common/main_gui.py:433-441 | However often the button is pressed, a non-empty history keeps at least its first frame, and loses one frame per press. |
| MainGui.Navigator.constructor | common/main_gui.py:245 | The history starts empty. |
| MainGui.Navigator.Open | common/main_gui.py:381-382 | Showing a record's information makes the history the main frame and that frame, and enables going back. |
| MainGui.Navigator.OpenRelated | common/main_gui.py:402 | A related frame is pushed onto the history. |
| MainGui.Navigator.GoBack | common/main_gui.py:433-441 | Going back drops the last frame while more than one remains, shows the new last frame, and disables the button at one frame. |

## Left out

- The grammar's regular expressions and Python's `re` engine are not modelled.
  - Match records are inputs.
  - In `_regexp` the engine is a parameter, and an exception is its `None` outcome.
- Unicode case folding: `IGNORECASE` keywords are compared in ASCII lower case.
- `_join_query`'s text surgery is not modelled (common/search_engine.py:113-150). A join is the value `Joined(base, group, path, conditions)`. Only the bookkeeping is proved: groups, return specs, parameters, `?` count.
- SQL execution (`_query`, `_execute`) is not modelled. It is a parameter mapping a statement to rows. Database reads are abstracted as the `Select` datatype naming the query, not its f-string text.
- The edit-lock manager, its threads and the busy-wait in `edit` are not modelled. `Record.Edit` calls `Callback` directly, as the lock manager eventually does.
- The unbounded `PermissionError` retry in `_log_changes` is not modelled, nor the file write itself. The log is a string the method appends to.
- Python sets are modelled as sets:
  - the order of the numbers `search` and `restricted_search` return;
  - the order of the markers `poll_for_changes` emits.
- `MainGui.Unread`: the log is counted in characters, not the positions `tell()` reports. They can differ: in text mode on Windows each `'\n'` marker is written as the two bytes `"\r\n"`, so `tell()` runs ahead of a character count. `read()` translates the pair back to `'\n'`, so the set of markers emitted is the same.
- `MainGui.Caches.UpdateData`: the `update()` call on each kept object is not executed. `Reconcile` returns the set of keys it is called for. `None` values in the new data are not distinguished.
- The values `get_all_*_objs` returns are parameters of `UpdateData`.
- `QueryCompiler.GetSqlQuery`: computes the corrected compile function. A joined `=` term compares with `= ?`, where the source compares every joined term with `REGEXP ?`; the as-written condition is `QueryCompiler.JoinConditionAsWritten`.
- `QueryCompiler.ClauseStep`: one step of the corrected compile function, with the corrected join condition.
- `QueryCompiler.JoinClause`: the corrected join step, with `= ?` for an `=` term where the source writes `REGEXP ?`.
- `QueryCompiler.JoinClauseTerms`: writes the corrected join condition, `= ?` for an `=` term, where the source writes `REGEXP ?`.
- `QueryCompiler.FanOutClause`: uses the corrected return spec, split from the bracket list, where the source splits the group name; the as-written spec is `QueryCompiler.FanOutReturnsAsWritten`.
- `Records.Refreshed`: keeps a case's one-person `persons` tuple as read, where the source unwraps it to the bare triple; the as-written unwrap is `Records.UnwrapAsWritten`.
- `Records.Record.Refresh`: installs the snapshot of `Records.Refreshed`, so a case's one-person `persons` tuple stays a tuple.
- `Records.Record.FinalizeEdit`: ships notes already held as one text unchanged, where the source joins their characters with `\n`; the as-written join is `Records.JoinNotesAsWritten`.
- `QueryCompiler.FanOutEntries`: gives each group's entry the corrected return spec split from the bracket list, where the source splits the group name (`("x",)` for `x[name]:smith`); the as-written spec is `QueryCompiler.FanOutReturnsAsWritten`.
- `QueryCompiler.FanOutEntryFor`: is given the corrected return spec, not the group-name split the source computes; the as-written spec is `QueryCompiler.FanOutReturnsAsWritten`.
- `SearchProperties.FanOutShape`: states the corrected return spec for every fan-out entry, where the source splits the group name; the as-written spec is `QueryCompiler.FanOutReturnsAsWritten`.
- `Records.Record.GetValue`: when it refreshes, installs the snapshot of `Records.Refreshed`, so a case's one-person `persons` tuple stays a tuple where the source stores the bare triple; the as-written unwrap is `Records.UnwrapAsWritten`.
- `Records.ShippedShape`: states the notes shipped through the corrected join, so notes held as the text `ab` go out unchanged where the source ships `a\nb`; the as-written join is `Records.JoinNotesAsWritten`.
- Printing, floats and blobs passed to `_regexp` are not modelled. Cells are `NULL`, integers or text.
- Not modelled, as database plumbing or GUI: `delete_*`, `add_person`, `add_document` (file copy), `Document.new`/`Case.new`, user registration and authentication, the schema setup, and the widgets, including the selection clearing in `go_back` and `display_info`'s rendering.

## Findings

| source | as written | input that shows it | evidently intended | confidence | as-written member | corrected member |
|---|---|---|---|---|---|---|
| common/search_engine.py:338-341 | `if regex_flag:` tests the `:` or `=` character, and both are truthy, so every joined condition is `REGEXP ?` | `user:a & case{name}=x`: the joined `=` term is compared with `REGEXP` | `=` terms compare with `= ?` | not executed | SearchProperties.JoinConditionAsWrittenIgnoresEquality | SearchProperties.JoinConditionAgrees |
| common/search_engine.py:312 | the fan-out branch splits `main[0]` (the group name) instead of `main[1]` (the bracket list) | `x[name]:smith` returns the spec `("x",)` | `("name",)`, as line 304 does | not executed | SearchProperties.FanOutReturnsAsWrittenSplitsGroup | SearchProperties.FanOutReturnsAgree |
| common/db_obj.py:106 | `'\n'.join(notes)` is applied to notes that `update` has already unwrapped to one string | notes stored as `ab` are written back as `a\nb` | the stored text is written back unchanged | not executed | Records.NotesJoinedTwice | Records.NotesRoundTrip |
| common/db_obj.py:171-177 | `v[0] if len(v) == 1` unwraps a case's one-person tuple to the bare triple | a case with one person `(1, 2, 0)`: `update_cases` DELETEs the links, then fails unpacking `1` | the persons stay a tuple of triples | not executed | Records.SinglePartyAsWritten | Records.PartiesReinserted |

=== FILE: change_log.dfy ===
/**
 * Change notification: which tables a write statement touches
 * (`_get_affected_tables`) and the one-character markers appended to the
 * change log for them (`_log_changes`).
 *
 * The three patterns are `INSERT\s+INTO\s+([^\s(]+)`, `UPDATE\s+(\S+)` and
 * `DELETE\s+FROM\s+(\S+)`, searched for ignoring case. Each is a sequence of
 * keywords, each followed by at least one whitespace character, and then a
 * captured token; because neither a keyword nor a token can start with
 * whitespace, every `\s+` takes the whole run of whitespace and the token
 * the whole run of token characters, so a match at a position is unique.
 */
module ChangeLog {
  import opened Wrappers
  import opened Text

  /** The keyword `kw` (in lower case) appears at position `i` of `s`, ignoring case. */
  predicate KeywordAt(s: string, i: nat, kw: string) {
    i + |kw| <= |s| && Lower(s[i..i + |kw|]) == kw
  }

  /** A character of the captured table name; `(` is excluded only for INSERT. */
  predicate TokenChar(c: char, paren: bool) {
    !IsSpace(c) && !(paren && c == '(')
  }

  /** The end of the run of whitespace starting at `i`. */
  function SpaceEnd(s: string, i: nat): (j: nat)
    requires i <= |s|
    ensures i <= j <= |s|
    ensures forall k :: i <= k < j ==> IsSpace(s[k])
    ensures j < |s| ==> !IsSpace(s[j])
    decreases |s| - i
  {
    if i < |s| && IsSpace(s[i]) then SpaceEnd(s, i + 1) else i
  }

  /** The end of the run of token characters starting at `i`. */
  function TokenEnd(s: string, i: nat, paren: bool): (j: nat)
    requires i <= |s|
    ensures i <= j <= |s|
    ensures forall k :: i <= k < j ==> TokenChar(s[k], paren)
    ensures j < |s| ==> !TokenChar(s[j], paren)
    decreases |s| - i
  {
    if i < |s| && TokenChar(s[i], paren) then TokenEnd(s, i + 1, paren) else i
  }

  /** The table name captured by a match of the keywords `kws` starting exactly at `i`, if there is one. */
  function MatchAt(s: string, i: nat, kws: seq<string>, paren: bool): (r: Option<string>)
    requires i <= |s|
    ensures r.Some? ==> r.value != [] && forall k :: 0 <= k < |r.value| ==> TokenChar(r.value[k], paren)
    decreases |kws|
  {
    if kws == [] then
      var e := TokenEnd(s, i, paren);
      if e > i then Some(s[i..e]) else None
    else if KeywordAt(s, i, kws[0]) then
      var j := SpaceEnd(s, i + |kws[0]|);
      if j > i + |kws[0]| then MatchAt(s, j, kws[1..], paren) else None
    else None
  }

  /**
   * The leftmost position at or after `i` where the pattern matches, or
   * `|s| + 1` when it matches nowhere.
   */
  function MatchPos(s: string, i: nat, kws: seq<string>, paren: bool): (p: nat)
    requires i <= |s|
    ensures i <= p <= |s| + 1
    ensures p <= |s| ==> MatchAt(s, p, kws, paren).Some?
    ensures forall q :: i <= q < p && q <= |s| ==> MatchAt(s, q, kws, paren).None?
    decreases |s| - i
  {
    if MatchAt(s, i, kws, paren).Some? then i
    else if i == |s| then |s| + 1
    else MatchPos(s, i + 1, kws, paren)
  }

  /** `pattern.search(s)`: the table name captured by the leftmost match, if any. */
  function SearchCapture(s: string, kws: seq<string>, paren: bool): (r: Option<string>)
    ensures r.Some? ==> r.value != [] && forall k :: 0 <= k < |r.value| ==> TokenChar(r.value[k], paren)
  {
    var p := MatchPos(s, 0, kws, paren);
    if p <= |s| then MatchAt(s, p, kws, paren) else None
  }

  /** The capture comes from a match at some position with no match before it; no capture means no match anywhere. */
  lemma SearchLeftmost(s: string, kws: seq<string>, paren: bool)
    ensures SearchCapture(s, kws, paren).Some? ==>
              exists p :: 0 <= p <= |s| && MatchAt(s, p, kws, paren) == SearchCapture(s, kws, paren) &&
                          forall q :: 0 <= q < p ==> MatchAt(s, q, kws, paren).None?
    ensures SearchCapture(s, kws, paren).None? ==> forall p :: 0 <= p <= |s| ==> MatchAt(s, p, kws, paren).None?
  {
    var p := MatchPos(s, 0, kws, paren);
    if p <= |s| {
      assert MatchAt(s, p, kws, paren) == SearchCapture(s, kws, paren);
    }
  }

  /** A statement that starts with a match of the pattern yields that match's table name. */
  lemma SearchAtStart(s: string, kws: seq<string>, paren: bool)
    requires MatchAt(s, 0, kws, paren).Some?
    ensures SearchCapture(s, kws, paren) == MatchAt(s, 0, kws, paren)
  {
    assert MatchPos(s, 0, kws, paren) == 0;
  }

  const InsertKeywords: seq<string> := ["insert", "into"]
  const UpdateKeywords: seq<string> := ["update"]
  const DeleteKeywords: seq<string> := ["delete", "from"]

  /** The captured name of a pattern, as a set of at most one table. */
  function Found(s: string, kws: seq<string>, paren: bool): (f: set<string>)
    ensures |f| <= 1
    ensures forall t :: t in f ==> t != [] && forall k :: 0 <= k < |t| ==> !IsSpace(t[k])
  {
    var r := SearchCapture(s, kws, paren);
    if r.Some? then {r.value} else {}
  }

  /** `_get_affected_tables(query)`: the names captured by the INSERT, UPDATE and DELETE patterns. */
  function AffectedTables(query: string): (tables: set<string>)
    ensures |tables| <= 3
    ensures forall t :: t in tables ==> t != [] && forall k :: 0 <= k < |t| ==> !IsSpace(t[k])
  {
    var ins := Found(query, InsertKeywords, true);
    var upd := Found(query, UpdateKeywords, false);
    var del := Found(query, DeleteKeywords, false);
    assert |ins + upd| <= 2;
    ins + upd + del
  }

  /** The tables whose change is logged with a tab: a case and its links to persons and documents. */
  const CaseTables: set<string> := {"Cases", "CasePeople", "CaseDocuments"}

  /**
   * The markers `_log_changes` appends for a set of affected tables: a tab
   * for the case tables, a newline for `Persons`, a space for `Documents`,
   * in that order.
   */
  function Markers(tables: set<string>): string {
    (if tables * CaseTables != {} then "\t" else "") +
    (if "Persons" in tables then "\n" else "") +
    (if "Documents" in tables then " " else "")
  }

  /** Each marker is written exactly when a table of its kind is affected, at most once, and nothing else is written. */
  lemma MarkersIff(tables: set<string>)
    ensures '\t' in Markers(tables) <==> tables * CaseTables != {}
    ensures '\n' in Markers(tables) <==> "Persons" in tables
    ensures ' ' in Markers(tables) <==> "Documents" in tables
    ensures forall c :: c in Markers(tables) ==> c in {'\t', '\n', ' '}
    ensures forall i, j :: 0 <= i < j < |Markers(tables)| ==> Markers(tables)[i] != Markers(tables)[j]
  {
    var a := if tables * CaseTables != {} then "\t" else "";
    var b := if "Persons" in tables then "\n" else "";
    var c := if "Documents" in tables then " " else "";
    assert Markers(tables) == a + b + c;
  }

  /** The kinds of table, in the order `_log_changes` visits them. */
  const MarkerTables: seq<(char, set<string>)> := [('\t', CaseTables), ('\n', {"Persons"}), (' ', {"Documents"})]

  /** The markers of the first `n` kinds. */
  function MarkersUpTo(tables: set<string>, n: nat): string
    requires n <= 3
  {
    if n == 0 then ""
    else MarkersUpTo(tables, n - 1) + MarkerFor(tables, MarkerTables[n - 1])
  }

  /** The marker of one kind of table, when the statement affects a table of that kind. */
  function MarkerFor(tables: set<string>, kind: (char, set<string>)): string {
    if tables * kind.1 != {} then [kind.0] else ""
  }

  /**
   * `_log_changes(sql, params)`: the change log after appending the
   * markers of the tables the statement affects.
   */
  method LogChanges(log: string, sql: string) returns (updated: string)
    ensures updated == log + Markers(AffectedTables(sql))
  {
    updated := AppendMarkers(log, AffectedTables(sql));
  }

  /** The loop of `_log_changes` over the three kinds of table. */
  method AppendMarkers(log: string, tables: set<string>) returns (updated: string)
    ensures updated == log + Markers(tables)
  {
    updated := log;
    for i := 0 to 3
      invariant updated == log + MarkersUpTo(tables, i)
    {
      var kind := MarkerTables[i];
      if tables * kind.1 != {} {
        updated := updated + [kind.0];
      }
    }
    MarkersInOrder(tables);
  }

  lemma MarkersInOrder(tables: set<string>)
    ensures MarkersUpTo(tables, 3) == Markers(tables)
  {
    assert MarkersUpTo(tables, 1) == MarkerFor(tables, ('\t', CaseTables));
    assert MarkersUpTo(tables, 2) == MarkersUpTo(tables, 1) + MarkerFor(tables, ('\n', {"Persons"}));
    assert MarkersUpTo(tables, 3) == MarkersUpTo(tables, 2) + MarkerFor(tables, (' ', {"Documents"}));
    assert "Persons" in tables ==> "Persons" in tables * {"Persons"};
    assert "Documents" in tables ==> "Documents" in tables * {"Documents"};
  }
}

=== FILE: db_reads.dfy ===
/**
 * The reading side of the database layer: `get_persons`, `get_cases` and
 * `get_documents`.
 * The database is a parameter mapping a statement to the rows it returns.
 */
module DbReads {
  import opened Wrappers
  import opened Text
  import opened Values

  /** The statements the reading methods run, each rendered by `SelectText`. */
  datatype Select =
    | PersonColumns(columns: seq<string>, number: int)
    | CasesOfPerson(number: int)
    | CaseColumnOf(attr: string, number: int)
    | PartiesOf(number: int)
    | LawyersOf(number: int)
    | DocumentsOf(number: int)
    | DocumentColumnOf(attr: string, number: int)
    | CasesOfDocument(number: int)

  /** The text of each statement; the numbers are formatted into it. */
  function SelectText(q: Select): string {
    match q
    case PersonColumns(columns, number) =>
      "SELECT " + Join(", ", seq(|columns|, i requires 0 <= i < |columns| => "p." + columns[i])) +
      " FROM Persons p WHERE p.nb = " + IntToString(number)
    case CasesOfPerson(number) =>
      "SELECT cp.case_nb FROM CasePeople cp WHERE cp.person_nb = " + IntToString(number)
    case CaseColumnOf(attr, number) =>
      "SELECT c." + attr + " FROM Cases c WHERE c.nb = " + IntToString(number)
    case PartiesOf(number) =>
      "SELECT cp.person_nb FROM CasePeople cp WHERE cp.case_nb = " + IntToString(number)
    case LawyersOf(number) =>
      "SELECT cp.lawyer_nb, cp.side FROM CasePeople cp WHERE cp.case_nb = " + IntToString(number)
    case DocumentsOf(number) =>
      "SELECT cd.document_nb FROM CaseDocuments cd WHERE cd.case_nb = " + IntToString(number)
    case DocumentColumnOf(attr, number) =>
      "SELECT d." + attr + " FROM Documents d WHERE d.nb = " + IntToString(number)
    case CasesOfDocument(number) =>
      "SELECT cd.case_nb FROM CaseDocuments cd WHERE cd.document_nb = " + IntToString(number)
  }

  /** `_query(sql)`: the rows the database returns for a statement. */
  type Reader = Select -> seq<seq<Value>>

  /** The first value of every row, `[x[0] for x in rows]`, which fails on an empty row. */
  function Firsts(rows: seq<seq<Value>>): (r: Result<seq<Value>>)
    ensures r.Ok? <==> forall i :: 0 <= i < |rows| ==> |rows[i]| > 0
    ensures r.Ok? ==> |r.value| == |rows| && forall i :: 0 <= i < |rows| ==> r.value[i] == rows[i][0]
    ensures r.Err? ==> r.error == IndexError
  {
    if forall i :: 0 <= i < |rows| ==> |rows[i]| > 0 then Ok(seq(|rows|, i requires 0 <= i < |rows| => rows[i][0]))
    else Err(IndexError)
  }

  // get_persons

  /** The position of the first occurrence of `x`, or `|xs|` when there is none. */
  function IndexOf(xs: seq<string>, x: string): (i: nat)
    ensures i <= |xs|
    ensures i < |xs| ==> xs[i] == x
    ensures forall j :: 0 <= j < i ==> xs[j] != x
  {
    if xs == [] then 0 else if xs[0] == x then 0 else 1 + IndexOf(xs[1..], x)
  }

  /** `list.insert(i, x)`, which appends when `i` is past the end. */
  function Insert<T>(xs: seq<T>, i: nat, x: T): (r: seq<T>)
    ensures |r| == |xs| + 1 && multiset(r) == multiset(xs) + multiset{x}
    ensures i <= |xs| ==> r[i] == x && r[..i] == xs[..i] && r[i + 1..] == xs[i..]
    ensures i > |xs| ==> r[|xs|] == x && r[..|xs|] == xs
  {
    if i <= |xs| then
      assert xs == xs[..i] + xs[i..];
      xs[..i] + [x] + xs[i..]
    else xs + [x]
  }

  /** The attributes `get_persons` reads from the person's row: all but the first `cases`. */
  function ColumnsRequested(attrs: seq<string>): (columns: seq<string>)
    ensures IndexOf(attrs, "cases") == |attrs| ==> columns == attrs
    ensures IndexOf(attrs, "cases") < |attrs| ==> |columns| == |attrs| - 1
  {
    var index := IndexOf(attrs, "cases");
    if index < |attrs| then attrs[..index] + attrs[index + 1..] else attrs
  }

  /** Each value of a row as a one-element tuple. */
  function Singles(row: seq<Value>): (r: seq<Value>)
    ensures |r| == |row| && forall i :: 0 <= i < |row| ==> r[i] == List([row[i]])
  {
    seq(|row|, i requires 0 <= i < |row| => List([row[i]]))
  }

  /** The row of a person's columns, when any are requested: `IndexError` when the person does not exist. */
  function PersonRow(read: Reader, number: int, columns: seq<string>): Result<seq<Value>> {
    if columns == [] then Ok([])
    else
      var rows := read(PersonColumns(columns, number));
      if rows == [] then Err(IndexError) else Ok(rows[0])
  }

  /**
   * `get_persons(number, *attrs)`: one single-value tuple per requested
   * column, with the list of the person's cases inserted, as a tuple of one
   * list, where `cases` was requested.
   */
  function GetPersons(read: Reader, number: int, attrs: seq<string>): Result<seq<Value>> {
    var index := IndexOf(attrs, "cases");
    var row := PersonRow(read, number, ColumnsRequested(attrs));
    if row.Err? then Err(row.error)
    else if index == |attrs| then Ok(Singles(row.value))
    else
      var cases := Firsts(read(CasesOfPerson(number)));
      if cases.Err? then Err(cases.error)
      else Ok(Insert(Singles(row.value), index, List([List(cases.value)])))
  }

  /** `get_persons`: removes `cases` from the requested list, queries the columns, and inserts the cases back. */
  method FetchPersons(read: Reader, number: int, attrs: seq<string>) returns (r: Result<seq<Value>>)
    ensures r == GetPersons(read, number, attrs)
  {
    var requested := attrs;
    var index: Option<nat> := None;
    if "cases" in requested {
      var i := IndexOf(requested, "cases");
      index := Some(i);
      requested := requested[..i] + requested[i + 1..];
    }
    var acc: seq<Value> := [];
    if requested != [] {
      var rows := read(PersonColumns(requested, number));
      if rows == [] {
        return Err(IndexError);
      }
      acc := Singles(rows[0]);
    }
    if index.Some? {
      var cases := Firsts(read(CasesOfPerson(number)));
      if cases.Err? {
        return Err(cases.error);
      }
      acc := Insert(acc, index.value, List([List(cases.value)]));
    }
    return Ok(acc);
  }

  /** The position an element at `j` had before the element at `index` was removed or inserted. */
  function Shifted(index: nat, j: nat): nat
    requires j != index
  {
    if j < index then j else j - 1
  }

  /** Removing the element at `index` shifts every later element down by one. */
  lemma RemovedAt(attrs: seq<string>, index: nat, j: nat)
    requires index < |attrs| && j < |attrs| && j != index
    ensures Shifted(index, j) < |attrs| - 1 && (attrs[..index] + attrs[index + 1..])[Shifted(index, j)] == attrs[j]
  {
    if j < index {
      assert (attrs[..index] + attrs[index + 1..])[j] == attrs[..index][j];
    } else {
      assert (attrs[..index] + attrs[index + 1..])[j - 1] == attrs[index + 1..][j - 1 - index];
    }
  }

  /** Inserting at `index` shifts every later element up by one. */
  lemma InsertedAt<T>(xs: seq<T>, index: nat, x: T, j: nat)
    requires index <= |xs| && j <= |xs| && j != index
    ensures Shifted(index, j) < |xs| && Insert(xs, index, x)[j] == xs[Shifted(index, j)]
  {
    if j < index {
      assert Insert(xs, index, x)[j] == xs[..index][j];
    } else {
      assert Insert(xs, index, x)[j] == xs[index..][j - 1 - index];
    }
  }

  /**
   * When the database returns one value per requested column, the result
   * follows the requested order: the cases at the position of `cases`, and
   * every other attribute's value at its own position.
   */
  lemma GetPersonsOrder(read: Reader, number: int, attrs: seq<string>, row: seq<Value>)
    requires PersonRow(read, number, ColumnsRequested(attrs)) == Ok(row)
    requires |row| == |ColumnsRequested(attrs)|
    requires GetPersons(read, number, attrs).Ok?
    ensures var vals := GetPersons(read, number, attrs).value;
            var index := IndexOf(attrs, "cases");
            |vals| == |attrs| &&
            (index < |attrs| ==> exists cases :: vals[index] == List([List(cases)])) &&
            forall j :: 0 <= j < |attrs| && j != index ==>
              Shifted(index, j) < |row| && ColumnsRequested(attrs)[Shifted(index, j)] == attrs[j] &&
              vals[j] == List([row[Shifted(index, j)]])
  {
    var index := IndexOf(attrs, "cases");
    var vals := GetPersons(read, number, attrs).value;
    var singles := Singles(row);
    if index < |attrs| {
      var cases := Firsts(read(CasesOfPerson(number))).value;
      assert vals == Insert(singles, index, List([List(cases)]));
      assert vals[index] == List([List(cases)]);
      forall j | 0 <= j < |attrs| && j != index
        ensures Shifted(index, j) < |row| && ColumnsRequested(attrs)[Shifted(index, j)] == attrs[j] &&
                vals[j] == List([row[Shifted(index, j)]])
      {
        RemovedAt(attrs, index, j);
        InsertedAt(singles, index, List([List(cases)]), j);
      }
    } else {
      assert vals == singles;
    }
  }

  // get_cases

  /** The attributes of a case kept in its own row. */
  const CaseColumns: set<string> := {"name", "description", "notes"}

  /** The persons of a case as `(person, lawyer, side)` triples, pairing the rows of the two queries in order. */
  function Parties(persons: seq<seq<Value>>, lawyers: seq<seq<Value>>): (r: Result<Value>)
    requires |persons| == |lawyers|
    ensures r.Ok? <==> forall i :: 0 <= i < |persons| ==> |persons[i]| >= 1 && |lawyers[i]| >= 2
    ensures r.Ok? ==> r.value.List? && |r.value.items| == |persons|
    ensures r.Ok? ==> forall i :: 0 <= i < |persons| ==>
                        |persons[i]| >= 1 && |lawyers[i]| >= 2 &&
                        r.value.items[i] == List([persons[i][0], lawyers[i][0], lawyers[i][1]])
    ensures r.Err? ==> r.error == IndexError
  {
    if forall i :: 0 <= i < |persons| ==> |persons[i]| >= 1 && |lawyers[i]| >= 2 then
      Ok(List(seq(|persons|, i requires 0 <= i < |persons| => List([persons[i][0], lawyers[i][0], lawyers[i][1]]))))
    else Err(IndexError)
  }

  /** The attributes `get_cases` knows: a column of the case's row, its persons or its documents. */
  datatype CaseField = RowColumn | PersonsField | DocumentsField

  function CaseFieldOf(attr: string): (f: Option<CaseField>)
    ensures f == Some(RowColumn) <==> attr in CaseColumns
    ensures f == Some(PersonsField) <==> attr == "persons"
    ensures f == Some(DocumentsField) <==> attr == "documents"
  {
    if attr in CaseColumns then Some(RowColumn)
    else if attr == "persons" then Some(PersonsField)
    else if attr == "documents" then Some(DocumentsField)
    else None
  }

  predicate CaseAttributeKnown(attr: string) {
    CaseFieldOf(attr).Some?
  }

  /** A column of the case's own row, as the tuple of that row's values; `IndexError` when the case does not exist. */
  function CaseColumn(read: Reader, number: int, attr: string): (r: Result<Value>)
    ensures r.Err? ==> r.error == IndexError
  {
    var rows := read(CaseColumnOf(attr, number));
    if rows == [] then Err(IndexError) else Ok(List(rows[0]))
  }

  /** The persons of a case; no persons when the two queries disagree in length. */
  function CaseParties(read: Reader, number: int): (r: Result<Value>)
    ensures r.Err? ==> r.error == IndexError
  {
    var persons := read(PartiesOf(number));
    var lawyers := read(LawyersOf(number));
    if |persons| == |lawyers| then Parties(persons, lawyers) else Ok(List([]))
  }

  /** The documents of a case, as a list of numbers. */
  function CaseDocumentList(read: Reader, number: int): (r: Result<Value>)
    ensures r.Err? ==> r.error == IndexError
  {
    match Firsts(read(DocumentsOf(number)))
    case Ok(documents) => Ok(List(documents))
    case Err(e) => Err(e)
  }

  /** One requested attribute of `get_cases`; an attribute it does not know raises `ValueError`. */
  function CaseAttribute(read: Reader, number: int, attr: string): (r: Result<Value>)
    ensures r == Err(ValueError) <==> !CaseAttributeKnown(attr)
  {
    match CaseFieldOf(attr)
    case Some(RowColumn) => CaseColumn(read, number, attr)
    case Some(PersonsField) => CaseParties(read, number)
    case Some(DocumentsField) => CaseDocumentList(read, number)
    case None => Err(ValueError)
  }

  /** The values of the first `n` outcomes, or the first error among them. */
  function Collect<T>(rs: seq<Result<T>>, n: nat): Result<seq<T>>
    requires n <= |rs|
  {
    if n == 0 then Ok([])
    else
      match Collect(rs, n - 1)
      case Err(e) => Err(e)
      case Ok(vs) =>
        match rs[n - 1]
        case Err(e) => Err(e)
        case Ok(v) => Ok(vs + [v])
  }

  lemma CollectStuck<T>(rs: seq<Result<T>>, n: nat, m: nat)
    requires n <= m <= |rs| && Collect(rs, n).Err?
    ensures Collect(rs, m) == Collect(rs, n)
    decreases m - n
  {
    if m > n {
      CollectStuck(rs, n, m - 1);
    }
  }

  /** A collection without error holds every outcome's value, in order. */
  lemma {:induction false} CollectOk<T>(rs: seq<Result<T>>, n: nat)
    requires n <= |rs| && Collect(rs, n).Ok?
    ensures |Collect(rs, n).value| == n
    ensures forall j :: 0 <= j < n ==> rs[j] == Ok(Collect(rs, n).value[j])
  {
    if n > 0 {
      var prev := Collect(rs, n - 1);
      CollectOk(rs, n - 1);
      assert Collect(rs, n).value == prev.value + [rs[n - 1].value];
    }
  }

  lemma CollectNext<T>(rs: seq<Result<T>>, n: nat, vs: seq<T>)
    requires n < |rs| && Collect(rs, n) == Ok(vs)
    ensures rs[n].Ok? ==> Collect(rs, n + 1) == Ok(vs + [rs[n].value])
    ensures rs[n].Err? ==> Collect(rs, |rs|) == Err(rs[n].error)
  {
    if rs[n].Err? {
      CollectStuck(rs, n + 1, |rs|);
    }
  }

  /** The outcome of every requested attribute, in order. */
  function CaseAttributes(read: Reader, number: int, attrs: seq<string>): (rs: seq<Result<Value>>)
    ensures |rs| == |attrs|
  {
    seq(|attrs|, i requires 0 <= i < |attrs| => CaseAttribute(read, number, attrs[i]))
  }

  /** `get_cases(number, *attrs)`: the first exception ends the loop. */
  function GetCases(read: Reader, number: int, attrs: seq<string>): Result<seq<Value>> {
    Collect(CaseAttributes(read, number, attrs), |attrs|)
  }

  /** `get_cases`: the loop over the requested attributes. */
  method FetchCases(read: Reader, number: int, attrs: seq<string>) returns (r: Result<seq<Value>>)
    ensures r == GetCases(read, number, attrs)
  {
    ghost var rs := CaseAttributes(read, number, attrs);
    var acc: seq<Value> := [];
    var i := 0;
    while i < |attrs|
      invariant i <= |attrs| && Collect(rs, i) == Ok(acc)
    {
      var v := ReadAttribute(read, number, attrs, i);
      CollectNext(rs, i, acc);
      if v.Err? {
        r := Err(v.error);
        return;
      }
      acc := acc + [v.value];
      i := i + 1;
    }
    r := Ok(acc);
  }

  /** One iteration of `get_cases`: the outcome of the `i`-th requested attribute. */
  method ReadAttribute(read: Reader, number: int, attrs: seq<string>, i: nat) returns (v: Result<Value>)
    requires i < |attrs|
    ensures v == CaseAttributes(read, number, attrs)[i]
    ensures v == Err(ValueError) <==> !CaseAttributeKnown(attrs[i])
  {
    v := CaseAttribute(read, number, attrs[i]);
  }

  /** A successful `get_cases` has one value per requested attribute, each a known attribute, in order. */
  lemma GetCasesShape(read: Reader, number: int, attrs: seq<string>)
    requires GetCases(read, number, attrs).Ok?
    ensures var vs := GetCases(read, number, attrs).value;
            |vs| == |attrs| &&
            forall j :: 0 <= j < |attrs| ==> CaseAttributeKnown(attrs[j]) && CaseAttribute(read, number, attrs[j]) == Ok(vs[j])
  {
    var rs := CaseAttributes(read, number, attrs);
    CollectOk(rs, |attrs|);
    forall j | 0 <= j < |attrs|
      ensures CaseAttributeKnown(attrs[j])
    {
      assert rs[j] == CaseAttribute(read, number, attrs[j]);
    }
  }

  /** An unknown attribute makes `get_cases` fail, with `ValueError` when the attributes before it were read. */
  lemma GetCasesRejects(read: Reader, number: int, attrs: seq<string>, j: nat)
    requires j < |attrs| && !CaseAttributeKnown(attrs[j])
    ensures GetCases(read, number, attrs).Err?
    ensures Collect(CaseAttributes(read, number, attrs), j).Ok? ==> GetCases(read, number, attrs) == Err(ValueError)
  {
    var rs := CaseAttributes(read, number, attrs);
    assert rs[j] == Err(ValueError);
    CollectStuck(rs, j + 1, |attrs|);
  }

  /** When the two queries about a case's persons disagree in length, its persons are the empty tuple. */
  lemma PartiesMismatch(read: Reader, number: int)
    requires |read(PartiesOf(number))| != |read(LawyersOf(number))|
    ensures CaseAttribute(read, number, "persons") == Ok(List([]))
  {
    assert CaseFieldOf("persons") == Some(PersonsField);
  }

  // get_documents

  /** The attributes of a document kept in its own row. */
  const DocumentColumns: set<string> := {"name", "description", "notes", "path"}

  /** The attributes `get_documents` knows: a column of the document's row, or its cases. */
  datatype DocumentField = DocumentRowColumn | CasesField

  function DocumentFieldOf(attr: string): (f: Option<DocumentField>)
    ensures f == Some(DocumentRowColumn) <==> attr in DocumentColumns
    ensures f == Some(CasesField) <==> attr == "cases"
  {
    if attr in DocumentColumns then Some(DocumentRowColumn)
    else if attr == "cases" then Some(CasesField)
    else None
  }

  /** One requested attribute of `get_documents`; an attribute it does not know raises `ValueError`. */
  function DocumentAttribute(read: Reader, number: int, attr: string): (r: Result<Value>)
    ensures r == Err(ValueError) <==> DocumentFieldOf(attr).None?
  {
    match DocumentFieldOf(attr)
    case Some(DocumentRowColumn) =>
      var rows := read(DocumentColumnOf(attr, number));
      if rows == [] then Err(IndexError) else Ok(List(rows[0]))
    case Some(CasesField) =>
      (match Firsts(read(CasesOfDocument(number)))
       case Ok(cases) => Ok(List(cases))
       case Err(e) => Err(e))
    case None => Err(ValueError)
  }

  function DocumentAttributes(read: Reader, number: int, attrs: seq<string>): (rs: seq<Result<Value>>)
    ensures |rs| == |attrs|
  {
    seq(|attrs|, i requires 0 <= i < |attrs| => DocumentAttribute(read, number, attrs[i]))
  }

  /** `get_documents(number, *attrs)`: the first exception ends the loop. */
  function GetDocuments(read: Reader, number: int, attrs: seq<string>): Result<seq<Value>> {
    Collect(DocumentAttributes(read, number, attrs), |attrs|)
  }

  method ReadDocumentAttribute(read: Reader, number: int, attrs: seq<string>, i: nat) returns (v: Result<Value>)
    requires i < |attrs|
    ensures v == DocumentAttributes(read, number, attrs)[i]
    ensures v == Err(ValueError) <==> DocumentFieldOf(attrs[i]).None?
  {
    v := DocumentAttribute(read, number, attrs[i]);
  }

  /** `get_documents`: the loop over the requested attributes. */
  method FetchDocuments(read: Reader, number: int, attrs: seq<string>) returns (r: Result<seq<Value>>)
    ensures r == GetDocuments(read, number, attrs)
  {
    ghost var rs := DocumentAttributes(read, number, attrs);
    var acc: seq<Value> := [];
    var i := 0;
    while i < |attrs|
      invariant i <= |attrs| && Collect(rs, i) == Ok(acc)
    {
      var v := ReadDocumentAttribute(read, number, attrs, i);
      CollectNext(rs, i, acc);
      if v.Err? {
        r := Err(v.error);
        return;
      }
      acc := acc + [v.value];
      i := i + 1;
    }
    r := Ok(acc);
  }

  /** A successful `get_documents` has one value per requested attribute, each a known attribute, in order. */
  lemma GetDocumentsShape(read: Reader, number: int, attrs: seq<string>)
    requires GetDocuments(read, number, attrs).Ok?
    ensures var vs := GetDocuments(read, number, attrs).value;
            |vs| == |attrs| &&
            forall j :: 0 <= j < |attrs| ==> DocumentFieldOf(attrs[j]).Some? && DocumentAttribute(read, number, attrs[j]) == Ok(vs[j])
  {
    var rs := DocumentAttributes(read, number, attrs);
    CollectOk(rs, |attrs|);
    forall j | 0 <= j < |attrs|
      ensures DocumentFieldOf(attrs[j]).Some?
    {
      assert rs[j] == DocumentAttribute(read, number, attrs[j]);
    }
  }
}

=== FILE: db_search.dfy ===
/**
 * The post-processing of search results in `search` and
 * `restricted_search`: the compiled statements are run against a database
 * given as a parameter, and the numbers each one finds are grouped.
 */
module DbSearch {
  import opened Wrappers
  import opened Values
  import opened Schema
  import opened QueryCompiler

  /** A search statement's rows for its parameters. */
  type Db = (Sql, seq<string>) -> seq<seq<Value>>

  /** One search hit: the group, the distinct numbers found in its column, and the fields to show. */
  datatype Hit = Hit(group: Group, ids: set<Value>, specs: seq<string>)

  /** The distinct values of column `i`: `set(list(zip(*rows))[i])`, which fails when a row is too short. */
  function Column(rows: seq<seq<Value>>, i: nat): (r: Result<set<Value>>)
    ensures r.Ok? <==> forall k :: 0 <= k < |rows| ==> i < |rows[k]|
    ensures r.Ok? ==> forall v :: v in r.value <==> exists k :: 0 <= k < |rows| && rows[k][i] == v
    ensures r.Ok? ==> |r.value| <= |rows|
    ensures r.Err? ==> r.error == IndexError
  {
    if forall k :: 0 <= k < |rows| ==> i < |rows[k]| then
      ColumnValuesBound(rows, i);
      Ok(ColumnValues(rows, i))
    else Err(IndexError)
  }

  function ColumnValues(rows: seq<seq<Value>>, i: nat): set<Value>
    requires forall k :: 0 <= k < |rows| ==> i < |rows[k]|
  {
    set k | 0 <= k < |rows| :: rows[k][i]
  }

  /** A column has at most one distinct value per row. */
  lemma {:induction false} ColumnValuesBound(rows: seq<seq<Value>>, i: nat)
    requires forall k :: 0 <= k < |rows| ==> i < |rows[k]|
    ensures |ColumnValues(rows, i)| <= |rows|
  {
    if rows != [] {
      var init := rows[..|rows| - 1];
      ColumnValuesBound(init, i);
      assert ColumnValues(rows, i) == ColumnValues(init, i) + {rows[|rows| - 1][i]} by {
        forall v | v in ColumnValues(rows, i)
          ensures v in ColumnValues(init, i) + {rows[|rows| - 1][i]}
        {
          var k :| 0 <= k < |rows| && rows[k][i] == v;
          if k < |rows| - 1 {
            assert init[k][i] == v;
          }
        }
        forall v | v in ColumnValues(init, i)
          ensures v in ColumnValues(rows, i)
        {
          var k :| 0 <= k < |init| && init[k][i] == v;
          assert rows[k][i] == v;
        }
      }
    }
  }

  /** The hits of one entry's first `n` (group, return fields) pairs; the documents group is skipped. */
  function EntryHits(e: Entry, rows: seq<seq<Value>>, n: nat): Result<seq<Hit>>
    requires n <= |e.groups| && n <= |e.specs|
  {
    if n == 0 then Ok([])
    else
      match EntryHits(e, rows, n - 1)
      case Err(err) => Err(err)
      case Ok(hits) =>
        if e.groups[n - 1] == Docu then Ok(hits)
        else
          match Column(rows, n - 1)
          case Err(err) => Err(err)
          case Ok(ids) => Ok(hits + [Hit(e.groups[n - 1], ids, e.specs[n - 1])])
  }

  function Pairs(e: Entry): nat {
    if |e.groups| <= |e.specs| then |e.groups| else |e.specs|
  }

  /** The hits of the first `n` entries; an entry whose statement returns no rows is skipped. */
  function SearchHits(db: Db, entries: seq<Entry>, n: nat): Result<seq<Hit>>
    requires n <= |entries|
  {
    if n == 0 then Ok([])
    else
      match SearchHits(db, entries, n - 1)
      case Err(err) => Err(err)
      case Ok(hits) =>
        var e := entries[n - 1];
        var rows := db(e.sql, e.params);
        if rows == [] then Ok(hits)
        else
          match EntryHits(e, rows, Pairs(e))
          case Err(err) => Err(err)
          case Ok(more) => Ok(hits + more)
  }

  lemma EntryHitsStuck(e: Entry, rows: seq<seq<Value>>, n: nat, m: nat)
    requires n <= m <= Pairs(e) && EntryHits(e, rows, n).Err?
    ensures EntryHits(e, rows, m) == EntryHits(e, rows, n)
    decreases m - n
  {
    if m > n {
      EntryHitsStuck(e, rows, n, m - 1);
    }
  }

  lemma SearchHitsStuck(db: Db, entries: seq<Entry>, n: nat, m: nat)
    requires n <= m <= |entries| && SearchHits(db, entries, n).Err?
    ensures SearchHits(db, entries, m) == SearchHits(db, entries, n)
    decreases m - n
  {
    if m > n {
      SearchHitsStuck(db, entries, n, m - 1);
    }
  }

  /** The loop over one entry's groups and return fields. */
  method CollectHits(e: Entry, rows: seq<seq<Value>>) returns (r: Result<seq<Hit>>)
    ensures r == EntryHits(e, rows, Pairs(e))
  {
    var hits: seq<Hit> := [];
    for i := 0 to Pairs(e)
      invariant EntryHits(e, rows, i) == Ok(hits)
    {
      if e.groups[i] == Docu {
        continue;
      }
      var ids := Column(rows, i);
      if ids.Err? {
        EntryHitsStuck(e, rows, i + 1, Pairs(e));
        return Err(ids.error);
      }
      hits := hits + [Hit(e.groups[i], ids.value, e.specs[i])];
    }
    return Ok(hits);
  }

  /** `search`: runs each compiled entry and collects its hits. */
  method Search(db: Db, entries: seq<Entry>) returns (r: Result<seq<Hit>>)
    ensures r == SearchHits(db, entries, |entries|)
  {
    var hits: seq<Hit> := [];
    for i := 0 to |entries|
      invariant SearchHits(db, entries, i) == Ok(hits)
    {
      var rows := db(entries[i].sql, entries[i].params);
      if rows == [] {
        continue;
      }
      var more := CollectHits(entries[i], rows);
      if more.Err? {
        SearchHitsStuck(db, entries, i + 1, |entries|);
        return Err(more.error);
      }
      hits := hits + more.value;
    }
    return Ok(hits);
  }

  /** No hit is ever for the documents group, and each hit's numbers are the values of its group's column. */
  lemma {:induction false} EntryHitsSound(e: Entry, rows: seq<seq<Value>>, n: nat)
    requires n <= |e.groups| && n <= |e.specs| && EntryHits(e, rows, n).Ok?
    ensures forall h :: h in EntryHits(e, rows, n).value ==>
              h.group != Docu &&
              exists i :: 0 <= i < n && h.group == e.groups[i] && h.specs == e.specs[i] && Column(rows, i) == Ok(h.ids)
  {
    if n > 0 {
      EntryHitsSound(e, rows, n - 1);
    }
  }

  /** Every hit of a search names a group other than documents, with the numbers of a column of an entry that returned rows. */
  lemma {:induction false} SearchHitsSound(db: Db, entries: seq<Entry>, n: nat)
    requires n <= |entries| && SearchHits(db, entries, n).Ok?
    ensures forall h :: h in SearchHits(db, entries, n).value ==>
              h.group != Docu &&
              exists j, i :: 0 <= j < n && 0 <= i < |entries[j].groups| && i < |entries[j].specs| &&
                             db(entries[j].sql, entries[j].params) != [] &&
                             h.group == entries[j].groups[i] && h.specs == entries[j].specs[i] &&
                             Column(db(entries[j].sql, entries[j].params), i) == Ok(h.ids)
  {
    if n > 0 {
      SearchHitsSound(db, entries, n - 1);
      var e := entries[n - 1];
      var rows := db(e.sql, e.params);
      if rows != [] {
        EntryHitsSound(e, rows, Pairs(e));
      }
    }
  }

  /** Rows for a restricted search's statement and parameters. */
  type RestrictedDb = (string, seq<string>) -> seq<seq<Value>>

  /**
   * `restricted_search`: no rows give no numbers and no fields; otherwise
   * the distinct numbers of the first column, with the return fields.
   */
  function RestrictedResults(db: RestrictedDb, s: Search): (r: Result<(set<Value>, seq<string>)>)
    ensures db(s.0, s.1) == [] ==> r == Ok(({}, []))
    ensures r.Ok? <==> forall k :: 0 <= k < |db(s.0, s.1)| ==> |db(s.0, s.1)[k]| > 0
    ensures r.Err? ==> r.error == IndexError
    ensures db(s.0, s.1) != [] && r.Ok? ==>
              r.value.1 == s.2 && forall v :: v in r.value.0 <==> exists k :: 0 <= k < |db(s.0, s.1)| && |db(s.0, s.1)[k]| > 0 && db(s.0, s.1)[k][0] == v
  {
    var rows := db(s.0, s.1);
    if rows == [] then Ok(({}, []))
    else
      match Column(rows, 0)
      case Err(e) => Err(e)
      case Ok(ids) => Ok((ids, s.2))
  }
}

=== FILE: db_updates.dfy ===
/**
 * The statements the database layer executes to write records:
 * `update_persons`, `update_cases`, `update_documents` and `add_case`.
 * Executing a statement is recorded, not performed: an operation yields the
 * statements it executes, in order, and the exception that stopped it.
 */
module DbUpdates {
  import opened Wrappers
  import opened Text
  import opened Values

  /** A statement executed with its parameters. */
  datatype Exec = Exec(sql: string, params: seq<Value>)

  /** The statements executed, and the exception raised after them, if any. */
  datatype Outcome = Outcome(executed: seq<Exec>, error: Option<Error>)

  /** The record tables an `update_*` method writes. */
  datatype Kind = PersonKind | CaseKind | DocumentKind

  function TableName(k: Kind): string {
    match k
    case PersonKind => "Persons"
    case CaseKind => "Cases"
    case DocumentKind => "Documents"
  }

  /** The keyword arguments written to the record's own row. */
  function AllowedColumns(k: Kind): set<string> {
    match k
    case PersonKind =>
      {"last_name", "first_name", "address", "birth_date", "contact_info", "gender", "description", "notes",
       "can_be_lawyer"}
    case CaseKind => {"name", "description", "notes"}
    case DocumentKind => {"name", "description", "notes", "path"}
  }

  /** The links a relation keyword argument replaces. */
  datatype Relation =
    | PersonCases     // `cases` of a person
    | CasePersons     // `persons` of a case
    | CaseDocuments   // `documents` of a case
    | DocumentCases   // `cases` of a document

  /** The keyword arguments that replace the rows linking the record to others. */
  function RelationOf(k: Kind, key: string): Option<Relation> {
    match k
    case PersonKind => if key == "cases" then Some(PersonCases) else None
    case CaseKind =>
      if key == "persons" then Some(CasePersons)
      else if key == "documents" then Some(CaseDocuments)
      else None
    case DocumentKind => if key == "cases" then Some(DocumentCases) else None
  }

  predicate Known(k: Kind, key: string) {
    key in AllowedColumns(k) || RelationOf(k, key).Some?
  }

  /** The table holding a relation's links. */
  function LinkTable(rel: Relation): string {
    if rel == PersonCases || rel == CasePersons then "CasePeople" else "CaseDocuments"
  }

  /** The column of a link naming the record being updated. */
  function OwnColumn(rel: Relation): string {
    match rel
    case PersonCases => "person_nb"
    case CasePersons => "case_nb"
    case CaseDocuments => "case_nb"
    case DocumentCases => "document_nb"
  }

  /** The statement removing the record's existing links. */
  function DeleteStatement(rel: Relation): string {
    "DELETE FROM " + LinkTable(rel) + " WHERE " + OwnColumn(rel) + " = ?"
  }

  /** The columns an INSERT of a link fills, and its placeholders. */
  function LinkColumns(rel: Relation): (string, string) {
    match rel
    case PersonCases => ("(case_nb, person_nb)", "(?, ?)")
    case CasePersons => ("(case_nb, person_nb, lawyer_nb, side)", "(?, ?, ?, ?)")
    case CaseDocuments => ("(case_nb, document_nb)", "(?, ?)")
    case DocumentCases => ("(case_nb, document_nb)", "(?, ?)")
  }

  /** The statement adding one link. */
  function InsertStatement(rel: Relation): string {
    "INSERT INTO " + LinkTable(rel) + " " + LinkColumns(rel).0 + " VALUES " + LinkColumns(rel).1
  }

  /**
   * The parameters of one link: the case number first. A person of a case
   * is unpacked after the case number, which fails when it is not iterable.
   */
  function InsertParams(rel: Relation, number: int, item: Value): Option<seq<Value>> {
    match rel
    case PersonCases => Some([item, Int(number)])
    case CasePersons =>
      (match Iterate(item)
       case Some(fields) => Some([Int(number)] + fields)
       case None => None)
    case CaseDocuments => Some([Int(number), item])
    case DocumentCases => Some([item, Int(number)])
  }

  /** The values a relation's loop visits; the documents of a case are wrapped in a tuple unless already a list. */
  function RelationItems(rel: Relation, value: Value): Option<seq<Value>> {
    if rel == CaseDocuments then
      if value.List? then Some(value.items) else Some([value])
    else Iterate(value)
  }

  /** One INSERT per item, in order, stopping with `TypeError` at an item that cannot be unpacked. */
  function InsertRows(rel: Relation, number: int, items: seq<Value>): (o: Outcome)
    ensures o.error.None? || o.error == Some(TypeError)
    ensures o.error.None? ==> |o.executed| == |items|
    ensures |o.executed| <= |items|
    ensures forall i :: 0 <= i < |o.executed| ==> o.executed[i].sql == InsertStatement(rel)
  {
    if items == [] then Outcome([], None)
    else
      var pre := InsertRows(rel, number, items[..|items| - 1]);
      if pre.error.Some? then pre
      else
        match InsertParams(rel, number, items[|items| - 1])
        case None => Outcome(pre.executed, Some(TypeError))
        case Some(ps) => Outcome(pre.executed + [Exec(InsertStatement(rel), ps)], None)
  }

  /** A relation keyword argument: the DELETE of the existing links, then one INSERT per item of the new value. */
  function RelationRows(rel: Relation, number: int, value: Value): (o: Outcome)
    ensures |o.executed| >= 1 && o.executed[0] == Exec(DeleteStatement(rel), [Int(number)])
    ensures forall i :: 1 <= i < |o.executed| ==> o.executed[i].sql == InsertStatement(rel)
    ensures o.error.None? || o.error == Some(TypeError)
  {
    var del := Exec(DeleteStatement(rel), [Int(number)]);
    match RelationItems(rel, value)
    case None => Outcome([del], Some(TypeError))
    case Some(items) =>
      var ins := InsertRows(rel, number, items);
      Outcome([del] + ins.executed, ins.error)
  }

  /** Once an item fails, the later items change nothing. */
  lemma {:induction false} InsertRowsStuck(rel: Relation, number: int, items: seq<Value>, n: nat)
    requires n <= |items| && InsertRows(rel, number, items[..n]).error.Some?
    ensures InsertRows(rel, number, items) == InsertRows(rel, number, items[..n])
    decreases |items| - n
  {
    if n < |items| {
      assert items[..n + 1][..n] == items[..n];
      InsertRowsStuck(rel, number, items, n + 1);
    } else {
      assert items[..n] == items;
    }
  }

  /** The rows of one more item, when the items before it went through. */
  lemma InsertRowsNext(rel: Relation, number: int, items: seq<Value>, n: nat)
    requires n < |items| && InsertRows(rel, number, items[..n]).error.None?
    ensures InsertParams(rel, number, items[n]).None? ==>
              InsertRows(rel, number, items[..n + 1]) == Outcome(InsertRows(rel, number, items[..n]).executed, Some(TypeError))
    ensures InsertParams(rel, number, items[n]).Some? ==>
              InsertRows(rel, number, items[..n + 1]) ==
              Outcome(InsertRows(rel, number, items[..n]).executed +
                      [Exec(InsertStatement(rel), InsertParams(rel, number, items[n]).value)], None)
  {
    assert items[..n + 1][..n] == items[..n];
  }

  /** When every item can be unpacked, each gets its INSERT and nothing fails. */
  lemma {:induction false} InsertRowsComplete(rel: Relation, number: int, items: seq<Value>)
    requires forall i :: 0 <= i < |items| ==> InsertParams(rel, number, items[i]).Some?
    ensures InsertRows(rel, number, items).error.None?
    ensures |InsertRows(rel, number, items).executed| == |items|
  {
    if items != [] {
      InsertRowsComplete(rel, number, items[..|items| - 1]);
    }
  }

  /** The loop inserting one link per item. */
  method InsertAll(rel: Relation, number: int, values: seq<Value>) returns (o: Outcome)
    ensures o == InsertRows(rel, number, values)
  {
    var inserted: seq<Exec> := [];
    for i := 0 to |values|
      invariant InsertRows(rel, number, values[..i]) == Outcome(inserted, None)
    {
      InsertRowsNext(rel, number, values, i);
      var ps := InsertParams(rel, number, values[i]);
      if ps.None? {
        InsertRowsStuck(rel, number, values, i + 1);
        return Outcome(inserted, Some(TypeError));
      }
      inserted := inserted + [Exec(InsertStatement(rel), ps.value)];
    }
    assert values[..|values|] == values;
    return Outcome(inserted, None);
  }

  /** The loop over a relation argument's new value: the DELETE, then the INSERTs. */
  method ReplaceRelation(rel: Relation, number: int, value: Value) returns (o: Outcome)
    ensures o == RelationRows(rel, number, value)
  {
    var del := Exec(DeleteStatement(rel), [Int(number)]);
    var items := RelationItems(rel, value);
    if items.None? {
      return Outcome([del], Some(TypeError));
    }
    var ins := InsertAll(rel, number, items.value);
    return Outcome([del] + ins.executed, ins.error);
  }

  /** The state of an `update_*` loop: the SET items, their parameters, the statements executed, the exception. */
  datatype Pending = Pending(updates: seq<string>, params: seq<Value>, executed: seq<Exec>, error: Option<Error>)

  /** One keyword argument of an `update_*` call. */
  function Accept(k: Kind, number: int, s: Pending, key: string, value: Value): Pending {
    if key in AllowedColumns(k) then Pending(s.updates + [key + " = ?"], s.params + [value], s.executed, None)
    else if RelationOf(k, key).Some? then
      var o := RelationRows(RelationOf(k, key).value, number, value);
      Pending(s.updates, s.params, s.executed + o.executed, o.error)
    else Pending(s.updates, s.params, s.executed, Some(ValueError))
  }

  /** The loop over the first `n` keyword arguments; an exception ends it. */
  function PendingAfter(k: Kind, number: int, kwargs: seq<(string, Value)>, n: nat): Pending
    requires n <= |kwargs|
  {
    if n == 0 then Pending([], [], [], None)
    else
      var s := PendingAfter(k, number, kwargs, n - 1);
      if s.error.Some? then s else Accept(k, number, s, kwargs[n - 1].0, kwargs[n - 1].1)
  }

  /** `UPDATE <table> SET <items> WHERE nb = ?`. */
  function UpdateStatement(k: Kind, updates: seq<string>): string {
    UpdateHead(k) + Join(", ", updates) + " WHERE nb = " + "?"
  }

  function UpdateHead(k: Kind): string {
    "UPDATE " + TableName(k) + " SET "
  }

  /** What `update_*(number, **kwargs)` executes: the loop, then the UPDATE when there is a SET item. */
  function UpdatePlan(k: Kind, number: int, kwargs: seq<(string, Value)>): Outcome {
    var s := PendingAfter(k, number, kwargs, |kwargs|);
    if s.error.Some? then Outcome(s.executed, s.error)
    else if s.updates == [] then Outcome(s.executed, None)
    else Outcome(s.executed + [Exec(UpdateStatement(k, s.updates), s.params + [Int(number)])], None)
  }

  lemma PendingStuck(k: Kind, number: int, kwargs: seq<(string, Value)>, n: nat, m: nat)
    requires n <= m <= |kwargs| && PendingAfter(k, number, kwargs, n).error.Some?
    ensures PendingAfter(k, number, kwargs, m) == PendingAfter(k, number, kwargs, n)
    decreases m - n
  {
    if m > n {
      PendingStuck(k, number, kwargs, n, m - 1);
    }
  }

  /** The body of the loop for one keyword argument. */
  method AcceptArgument(k: Kind, number: int, s: Pending, key: string, value: Value) returns (r: Pending)
    ensures r == Accept(k, number, s, key, value)
  {
    if key in AllowedColumns(k) {
      r := Pending(s.updates + [key + " = ?"], s.params + [value], s.executed, None);
    } else if RelationOf(k, key).Some? {
      var rows := ReplaceRelation(RelationOf(k, key).value, number, value);
      r := Pending(s.updates, s.params, s.executed + rows.executed, rows.error);
    } else {
      r := Pending(s.updates, s.params, s.executed, Some(ValueError));
    }
  }

  /** `update_persons`, `update_cases` and `update_documents`: the loop over the keyword arguments, then the UPDATE. */
  method UpdateRecord(k: Kind, number: int, kwargs: seq<(string, Value)>) returns (o: Outcome)
    ensures o == UpdatePlan(k, number, kwargs)
  {
    var updates: seq<string> := [];
    var params: seq<Value> := [];
    var executed: seq<Exec> := [];
    for i := 0 to |kwargs|
      invariant PendingAfter(k, number, kwargs, i) == Pending(updates, params, executed, None)
    {
      var s := AcceptArgument(k, number, Pending(updates, params, executed, None), kwargs[i].0, kwargs[i].1);
      assert PendingAfter(k, number, kwargs, i + 1) == s;
      if s.error.Some? {
        PendingStuck(k, number, kwargs, i + 1, |kwargs|);
        return Outcome(s.executed, s.error);
      }
      updates, params, executed := s.updates, s.params, s.executed;
    }
    if updates != [] {
      executed := executed + [Exec(UpdateStatement(k, updates), params + [Int(number)])];
    }
    return Outcome(executed, None);
  }

  // Reference definitions of what an accepted call writes, by filtering the keyword arguments.

  /** Every keyword argument is known and every relation value can be iterated. */
  predicate Accepted(k: Kind, number: int, kwargs: seq<(string, Value)>) {
    forall i :: 0 <= i < |kwargs| ==>
      Known(k, kwargs[i].0) &&
      (kwargs[i].0 !in AllowedColumns(k) ==> RelationRows(RelationOf(k, kwargs[i].0).value, number, kwargs[i].1).error.None?)
  }

  /** The keyword arguments naming columns, in argument order. */
  function ColumnArgs(k: Kind, kwargs: seq<(string, Value)>): (r: seq<(string, Value)>)
    ensures |r| <= |kwargs|
    ensures forall i :: 0 <= i < |r| ==> r[i].0 in AllowedColumns(k)
  {
    if kwargs == [] then []
    else
      var last := kwargs[|kwargs| - 1];
      ColumnArgs(k, kwargs[..|kwargs| - 1]) + (if last.0 in AllowedColumns(k) then [last] else [])
  }

  /** The column arguments are exactly the arguments naming an allowed column: none is dropped and none added. */
  lemma {:induction false} ColumnArgsMembers(k: Kind, kwargs: seq<(string, Value)>)
    ensures forall a :: a in ColumnArgs(k, kwargs) <==> a in kwargs && a.0 in AllowedColumns(k)
  {
    if kwargs != [] {
      var init := kwargs[..|kwargs| - 1];
      ColumnArgsMembers(k, init);
      assert kwargs == init + [kwargs[|kwargs| - 1]];
    }
  }

  /**
   * Selecting the column arguments keeps argument order: the column
   * arguments of two runs of arguments are those of the first run followed
   * by those of the second.
   */
  lemma {:induction false} ColumnArgsAppend(k: Kind, front: seq<(string, Value)>, back: seq<(string, Value)>)
    ensures ColumnArgs(k, front + back) == ColumnArgs(k, front) + ColumnArgs(k, back)
  {
    if back == [] {
      assert front + back == front;
    } else {
      var init := back[..|back| - 1];
      ColumnArgsAppend(k, front, init);
      assert (front + back)[..|front + back| - 1] == front + init;
    }
  }

  /** The statements the relation keyword arguments execute, in argument order. */
  function RelationExecs(k: Kind, number: int, kwargs: seq<(string, Value)>): seq<Exec> {
    if kwargs == [] then []
    else
      var last := kwargs[|kwargs| - 1];
      RelationExecs(k, number, kwargs[..|kwargs| - 1]) +
      (if last.0 !in AllowedColumns(k) && RelationOf(k, last.0).Some? then RelationRows(RelationOf(k, last.0).value, number, last.1).executed else [])
  }

  function SetItems(args: seq<(string, Value)>): (r: seq<string>)
    ensures |r| == |args|
    ensures forall i :: 0 <= i < |args| ==> r[i] == args[i].0 + " = ?"
  {
    seq(|args|, i requires 0 <= i < |args| => args[i].0 + " = ?")
  }

  function ArgValues(args: seq<(string, Value)>): (r: seq<Value>)
    ensures |r| == |args|
    ensures forall i :: 0 <= i < |args| ==> r[i] == args[i].1
  {
    seq(|args|, i requires 0 <= i < |args| => args[i].1)
  }

  lemma {:induction false} PendingAccepted(k: Kind, number: int, kwargs: seq<(string, Value)>, n: nat)
    requires n <= |kwargs| && Accepted(k, number, kwargs[..n])
    ensures PendingAfter(k, number, kwargs, n) ==
            Pending(SetItems(ColumnArgs(k, kwargs[..n])), ArgValues(ColumnArgs(k, kwargs[..n])),
                    RelationExecs(k, number, kwargs[..n]), None)
  {
    if n > 0 {
      var all := kwargs[..n];
      var pre := kwargs[..n - 1];
      var last := kwargs[n - 1];
      assert all[..n - 1] == pre && all[n - 1] == last;
      assert Accepted(k, number, pre) by {
        forall i | 0 <= i < |pre| ensures pre[i] == all[i] { }
      }
      PendingAccepted(k, number, kwargs, n - 1);
      var s := PendingAfter(k, number, kwargs, n - 1);
      assert PendingAfter(k, number, kwargs, n) == Accept(k, number, s, last.0, last.1);
      var cols := ColumnArgs(k, pre);
      if last.0 in AllowedColumns(k) {
        assert ColumnArgs(k, all) == cols + [last];
        assert RelationExecs(k, number, all) == RelationExecs(k, number, pre);
        assert SetItems(cols + [last]) == SetItems(cols) + [last.0 + " = ?"];
        assert ArgValues(cols + [last]) == ArgValues(cols) + [last.1];
      } else {
        assert ColumnArgs(k, all) == cols;
        assert RelationOf(k, last.0).Some?;
      }
    }
  }

  /**
   * An accepted call executes the statements of its relation arguments,
   * then, when it names a column, one UPDATE whose SET items are the
   * column arguments in order, each `<column> = ?`, with their values and
   * then the record number as parameters.
   */
  lemma UpdatePlanAccepted(k: Kind, number: int, kwargs: seq<(string, Value)>)
    requires Accepted(k, number, kwargs)
    ensures UpdatePlan(k, number, kwargs).error.None?
    ensures var cols := ColumnArgs(k, kwargs);
            UpdatePlan(k, number, kwargs).executed ==
            RelationExecs(k, number, kwargs) +
            (if cols == [] then [] else [Exec(UpdateStatement(k, SetItems(cols)), ArgValues(cols) + [Int(number)])])
  {
    assert kwargs[..|kwargs|] == kwargs;
    PendingAccepted(k, number, kwargs, |kwargs|);
  }

  /**
   * An unknown keyword argument raises `ValueError` once the ones before
   * it are accepted; only the relation statements before it have run and
   * no UPDATE is issued.
   */
  lemma UpdatePlanRejects(k: Kind, number: int, kwargs: seq<(string, Value)>, j: nat)
    requires j < |kwargs| && !Known(k, kwargs[j].0) && Accepted(k, number, kwargs[..j])
    ensures UpdatePlan(k, number, kwargs) == Outcome(RelationExecs(k, number, kwargs[..j]), Some(ValueError))
  {
    PendingAccepted(k, number, kwargs, j);
    PendingStuck(k, number, kwargs, j + 1, |kwargs|);
  }

  /** A statement that updates a record's own row. */
  predicate IsUpdate(e: Exec) {
    StartsWith(e.sql, "UPDATE ")
  }

  /** With every key known, the loop stops on nothing but the `TypeError` of a relation value. */
  lemma {:induction false} PendingKnown(k: Kind, number: int, kwargs: seq<(string, Value)>, n: nat)
    requires n <= |kwargs| && forall i :: 0 <= i < |kwargs| ==> Known(k, kwargs[i].0)
    ensures PendingAfter(k, number, kwargs, n).error.None? || PendingAfter(k, number, kwargs, n).error == Some(TypeError)
  {
    if n > 0 {
      PendingKnown(k, number, kwargs, n - 1);
    }
  }

  /** An `update_*` call whose keys are all known never raises `ValueError`. */
  lemma KnownKeysAccepted(k: Kind, number: int, kwargs: seq<(string, Value)>)
    requires forall i :: 0 <= i < |kwargs| ==> Known(k, kwargs[i].0)
    ensures UpdatePlan(k, number, kwargs).error != Some(ValueError)
  {
    PendingKnown(k, number, kwargs, |kwargs|);
  }

  lemma LinksAreNotUpdates(rel: Relation, ps: seq<Value>, qs: seq<Value>)
    ensures !IsUpdate(Exec(DeleteStatement(rel), ps)) && !IsUpdate(Exec(InsertStatement(rel), qs))
  {
    var d := DeleteStatement(rel);
    var i := InsertStatement(rel);
    assert d[0] == 'D' && i[0] == 'I';
  }

  lemma {:induction false} PendingWithoutColumns(k: Kind, number: int, kwargs: seq<(string, Value)>, n: nat)
    requires n <= |kwargs| && ColumnArgs(k, kwargs[..n]) == []
    ensures PendingAfter(k, number, kwargs, n).updates == []
    ensures forall e :: e in PendingAfter(k, number, kwargs, n).executed ==> !IsUpdate(e)
  {
    if n > 0 {
      var last := kwargs[n - 1];
      assert kwargs[..n][..n - 1] == kwargs[..n - 1] && kwargs[..n][n - 1] == last;
      assert ColumnArgs(k, kwargs[..n - 1]) == [] && last.0 !in AllowedColumns(k);
      PendingWithoutColumns(k, number, kwargs, n - 1);
      var s := PendingAfter(k, number, kwargs, n - 1);
      var t := PendingAfter(k, number, kwargs, n);
      if s.error.None? && RelationOf(k, last.0).Some? {
        var rel := RelationOf(k, last.0).value;
        var o := RelationRows(rel, number, last.1);
        assert t.executed == s.executed + o.executed;
        forall e | e in o.executed
          ensures !IsUpdate(e)
        {
          RowsAreNotUpdates(rel, o, e);
        }
      }
    }
  }

  /** The DELETE and the INSERTs of a relation argument are not UPDATEs. */
  lemma RowsAreNotUpdates(rel: Relation, o: Outcome, e: Exec)
    requires |o.executed| >= 1 && o.executed[0].sql == DeleteStatement(rel)
    requires forall i :: 1 <= i < |o.executed| ==> o.executed[i].sql == InsertStatement(rel)
    requires e in o.executed
    ensures !IsUpdate(e)
  {
    LinksAreNotUpdates(rel, e.params, e.params);
    var j :| 0 <= j < |o.executed| && o.executed[j] == e;
    assert e.sql == DeleteStatement(rel) || e.sql == InsertStatement(rel);
  }

  /** No UPDATE is issued by a call that names no column, whatever happens to its relation arguments. */
  lemma NoUpdateWithoutColumns(k: Kind, number: int, kwargs: seq<(string, Value)>)
    requires ColumnArgs(k, kwargs) == []
    ensures forall e :: e in UpdatePlan(k, number, kwargs).executed ==> !IsUpdate(e)
  {
    assert kwargs[..|kwargs|] == kwargs;
    PendingWithoutColumns(k, number, kwargs, |kwargs|);
  }

  /** A value that is not a list, given as the documents of a case, is linked as a single document. */
  lemma ScalarDocumentWrapped(number: int, value: Value)
    requires !value.List?
    ensures RelationOf(CaseKind, "documents") == Some(CaseDocuments)
    ensures RelationRows(CaseDocuments, number, value) ==
            Outcome([Exec(DeleteStatement(CaseDocuments), [Int(number)]), Exec(InsertDocument, [Int(number), value])], None)
  {
    assert [value][..0] == [];
    assert InsertRows(CaseDocuments, number, [value]) == Outcome([Exec(InsertDocument, [Int(number), value])], None);
  }

  /** A column name with no `?` in it. */
  lemma AllowedColumnsUnmarked(k: Kind, key: string)
    requires key in AllowedColumns(k)
    ensures Unmarked(key)
  {
  }

  lemma SetItemsPlaceholders(k: Kind, cols: seq<(string, Value)>)
    requires forall i :: 0 <= i < |cols| ==> cols[i].0 in AllowedColumns(k)
    ensures Placeholders(Join(", ", SetItems(cols))) == |cols|
  {
    var items := SetItems(cols);
    forall i | 0 <= i < |items| ensures Placeholders(items[i]) == 1 {
      AllowedColumnsUnmarked(k, cols[i].0);
      UnmarkedCount(cols[i].0);
      ConcatPlaceholders(cols[i].0, " = ?");
    }
    TotalPlaceholdersOnes(items);
    JoinPlaceholders(", ", items);
  }

  lemma UpdateHeadUnmarked(k: Kind)
    ensures Placeholders(UpdateHead(k)) == 0
  {
    UnmarkedCount(UpdateHead(k));
  }

  /** The UPDATE has one `?` per parameter: one per SET item and one for the record number. */
  lemma UpdateStatementBalanced(k: Kind, cols: seq<(string, Value)>)
    requires forall i :: 0 <= i < |cols| ==> cols[i].0 in AllowedColumns(k)
    ensures Placeholders(UpdateStatement(k, SetItems(cols))) == |cols| + 1
  {
    var set_ := Join(", ", SetItems(cols));
    SetItemsPlaceholders(k, cols);
    UpdateHeadUnmarked(k);
    var where := " WHERE nb = ";
    UnmarkedCount(where);
    ConcatPlaceholders(UpdateHead(k), set_);
    ConcatPlaceholders(UpdateHead(k) + set_, where);
    MarkedOnce("");
    ConcatPlaceholders(UpdateHead(k) + set_ + where, "?");
  }

  // add_case

  /** A person of a new case: the person, the lawyer, and the side. */
  datatype Party = Party(person: Value, lawyer: Value, side: Value)

  /** The row of one party: the side as 0 or 1, no external lawyer, and self-representation when person and lawyer coincide. */
  function PartyParams(caseNb: int, p: Party): seq<Value> {
    [Int(caseNb), p.person, p.lawyer, Int(if Truthy(p.side) then 1 else 0), Int(0),
     Int(if p.person == p.lawyer then 1 else 0)]
  }

  const InsertCase := "INSERT INTO Cases " + "(name, description, notes) VALUES (?, ?, ?)"
  const InsertParty := "INSERT INTO CasePeople " +
                       "(case_nb, person_nb, lawyer_nb, side, has_external_lawyer, self_represented) " +
                       "VALUES (?, ?, ?, ?, ?, ?)"
  const InsertDocument := InsertStatement(CaseDocuments)

  /** What `add_case` executes when the database assigns the new case the number `caseNb`; a missing list counts as empty. */
  function AddCaseRows(name: Value, description: Value, notes: Value, persons: Option<seq<Party>>,
                       documents: Option<seq<Value>>, caseNb: int): seq<Exec>
  {
    var ps := if persons.Some? then persons.value else [];
    var ds := if documents.Some? then documents.value else [];
    [Exec(InsertCase, [name, description, notes])] +
    seq(|ps|, i requires 0 <= i < |ps| => Exec(InsertParty, PartyParams(caseNb, ps[i]))) +
    seq(|ds|, i requires 0 <= i < |ds| => Exec(InsertDocument, [Int(caseNb), ds[i]]))
  }

  /** `add_case`: the statements it executes and the number it returns. */
  method AddCase(name: Value, description: Value, notes: Value, persons: Option<seq<Party>>,
                 documents: Option<seq<Value>>, caseNb: int) returns (executed: seq<Exec>, r: int)
    ensures executed == AddCaseRows(name, description, notes, persons, documents, caseNb)
    ensures r == caseNb
  {
    var ps := if persons.Some? then persons.value else [];
    var ds := if documents.Some? then documents.value else [];
    executed := [Exec(InsertCase, [name, description, notes])];
    for i := 0 to |ps|
      invariant executed == [Exec(InsertCase, [name, description, notes])] +
                            seq(i, j requires 0 <= j < i => Exec(InsertParty, PartyParams(caseNb, ps[j])))
    {
      executed := executed + [Exec(InsertParty, PartyParams(caseNb, ps[i]))];
    }
    var head := executed;
    for i := 0 to |ds|
      invariant executed == head + seq(i, j requires 0 <= j < i => Exec(InsertDocument, [Int(caseNb), ds[j]]))
    {
      executed := executed + [Exec(InsertDocument, [Int(caseNb), ds[i]])];
    }
    r := caseNb;
  }

  /**
   * Every party row carries the new case's number, a side of 0 or 1 that
   * is 1 exactly when the given side is truthy, no external lawyer, and a
   * self-representation flag of 1 exactly when person and lawyer are equal;
   * one row per party, before the document rows.
   */
  lemma AddCaseFlags(name: Value, description: Value, notes: Value, persons: seq<Party>,
                     documents: Option<seq<Value>>, caseNb: int, i: nat)
    requires i < |persons|
    ensures var rows := AddCaseRows(name, description, notes, Some(persons), documents, caseNb);
            1 + i < |rows| && rows[1 + i].sql == InsertParty &&
            var ps := rows[1 + i].params;
            |ps| == 6 && ps[0] == Int(caseNb) && ps[1] == persons[i].person && ps[2] == persons[i].lawyer &&
            (ps[3] == Int(0) || ps[3] == Int(1)) && (ps[3] == Int(1) <==> Truthy(persons[i].side)) &&
            ps[4] == Int(0) &&
            (ps[5] == Int(0) || ps[5] == Int(1)) && (ps[5] == Int(1) <==> persons[i].person == persons[i].lawyer)
  {
    var rows := AddCaseRows(name, description, notes, Some(persons), documents, caseNb);
    var parties := seq(|persons|, j requires 0 <= j < |persons| => Exec(InsertParty, PartyParams(caseNb, persons[j])));
    var ds := if documents.Some? then documents.value else [];
    var docs := seq(|ds|, j requires 0 <= j < |ds| => Exec(InsertDocument, [Int(caseNb), ds[j]]));
    assert rows == [Exec(InsertCase, [name, description, notes])] + parties + docs;
    assert rows[1 + i] == parties[i];
  }
}

=== FILE: main_gui.dfy ===
/**
 * The main window's side of change notification and navigation:
 * `DataNotifier.poll_for_changes` reads what other writers appended to the
 * change log, `update_data` refreshes the cached record objects the
 * markers name, and `go_back` walks the history of shown frames.
 *
 * The change log's contents and the records the database currently holds
 * are parameters; the cached objects and the frames are values of a type
 * parameter, since only which object is held for a number matters here.
 */
module MainGui {
  import opened Wrappers
  import opened ChangeLog

  // poll_for_changes

  /** What a read from `last` to the end of the log returns; reading past the end returns nothing. */
  function Unread(log: string, last: nat): (changes: string)
    ensures last <= |log| ==> log == log[..last] + changes
    ensures last > |log| ==> changes == ""
  {
    if last <= |log| then log[last..] else ""
  }

  /** The position `tell()` reports after that read: the end of the log, or the position sought past it. */
  function Cursor(log: string, last: nat): (p: nat)
    ensures p >= last && p >= |log|
    ensures p == last || p == |log|
  {
    if last <= |log| then |log| else last
  }

  /** The distinct markers emitted for a read, or nothing when nothing was read. */
  function Emitted(log: string, last: nat): Option<set<char>> {
    var changes := Unread(log, last);
    if changes != "" then Some(set c | c in changes) else None
  }

  /** The notifier and its cursor into the change log. */
  class DataNotifier {
    var lastPosition: nat

    constructor ()
      ensures lastPosition == 0
    {
      lastPosition := 0;
    }

    /**
     * One poll of the change log, `None` when the log file does not exist:
     * the markers read since the last poll, once each, and the cursor moved
     * to where the read stopped.
     */
    method Poll(log: Option<string>) returns (emitted: Option<set<char>>)
      modifies this
      ensures log.None? ==> lastPosition == old(lastPosition) && emitted.None?
      ensures log.Some? ==> lastPosition == Cursor(log.value, old(lastPosition))
      ensures log.Some? ==> emitted == Emitted(log.value, old(lastPosition))
    {
      emitted := None;
      if log.Some? {
        var changes := Unread(log.value, lastPosition);
        lastPosition := Cursor(log.value, lastPosition);
        if changes != "" {
          emitted := Some(set c | c in changes);
        }
      }
    }
  }

  /**
   * A poll emits exactly when the log grew past the cursor, and then
   * exactly the characters appended since.
   */
  lemma EmittedIff(log: string, last: nat)
    ensures Emitted(log, last).Some? <==> last < |log|
    ensures Emitted(log, last).Some? ==>
              forall c :: c in Emitted(log, last).value <==> exists i :: last <= i < |log| && log[i] == c
  {
    if last < |log| {
      var changes := log[last..];
      forall c
        ensures c in changes <==> exists i :: last <= i < |log| && log[i] == c
      {
        if c in changes {
          var k :| 0 <= k < |changes| && changes[k] == c;
          assert log[last + k] == c;
        }
        if exists i :: last <= i < |log| && log[i] == c {
          var i :| last <= i < |log| && log[i] == c;
          assert changes[i - last] == c;
        }
      }
    }
  }

  /** A second poll with nothing appended in between emits nothing and leaves the cursor where it was. */
  lemma PollAgain(log: string, last: nat)
    ensures Emitted(log, Cursor(log, last)).None?
    ensures Cursor(log, Cursor(log, last)) == Cursor(log, last)
  {
  }

  /**
   * After a writer appends the markers of a statement to a log the
   * notifier has read to the end, the next poll emits exactly those
   * markers.
   */
  lemma PollSeesLoggedMarkers(log: string, sql: string)
    ensures var tables := AffectedTables(sql);
            Emitted(log + Markers(tables), |log|) ==
              if Markers(tables) == "" then None else Some(set c | c in Markers(tables))
  {
    var appended := log + Markers(AffectedTables(sql));
    assert appended[|log|..] == Markers(AffectedTables(sql));
  }

  // update_data

  /** The three caches of record objects the window keeps. */
  datatype CacheKind = CasesCache | PersonsCache | DocumentsCache

  /** The cache a marker refreshes; any other character is ignored. */
  function CacheOf(marker: char): (r: Option<CacheKind>)
    ensures r == Some(CasesCache) <==> marker == '\t'
    ensures r == Some(PersonsCache) <==> marker == '\n'
    ensures r == Some(DocumentsCache) <==> marker == ' '
    ensures r.None? <==> marker !in {'\t', '\n', ' '}
  {
    match marker
    case '\t' => Some(CasesCache)
    case '\n' => Some(PersonsCache)
    case ' ' => Some(DocumentsCache)
    case _ => None
  }

  /** The caches a set of emitted markers refreshes. */
  function Refreshed(markers: set<char>): set<CacheKind> {
    set c | c in markers && CacheOf(c).Some? :: CacheOf(c).value
  }

  /** The kinds of record a write statement changes, as the log writer classifies its tables. */
  function KindsAffected(tables: set<string>): set<CacheKind> {
    (if tables * CaseTables != {} then {CasesCache} else {}) +
    (if "Persons" in tables then {PersonsCache} else {}) +
    (if "Documents" in tables then {DocumentsCache} else {})
  }

  /**
   * The reader's dispatch mirrors the writer's markers: the markers logged
   * for a set of tables refresh exactly the caches of the kinds of record
   * those tables hold.
   */
  lemma DispatchMirrorsMarkers(tables: set<string>)
    ensures Refreshed(set c | c in Markers(tables)) == KindsAffected(tables)
  {
    MarkersIff(tables);
    var ms := set c | c in Markers(tables);
    forall k | k in KindsAffected(tables)
      ensures k in Refreshed(ms)
    {
      var c := if k == CasesCache then '\t' else if k == PersonsCache then '\n' else ' ';
      assert CacheOf(c) == Some(k);
    }
  }

  /**
   * `update_dict_if_absent(original, new_data)`: the cache afterwards holds
   * the numbers the database now has; a number already cached keeps its
   * object, any other gets the newly built one.
   */
  function Reconciled<T>(cached: map<int, T>, current: map<int, T>): (r: map<int, T>)
    ensures r.Keys == current.Keys
  {
    map k | k in current :: if k in cached then cached[k] else current[k]
  }

  /** Reconciling keeps every cached object whose number is still there and adds every new one. */
  lemma ReconciledKeeps<T>(cached: map<int, T>, current: map<int, T>, k: int)
    requires k in current
    ensures k in cached ==> Reconciled(cached, current)[k] == cached[k]
    ensures k !in cached ==> Reconciled(cached, current)[k] == current[k]
  {
  }

  /** Reconciling again with the same records changes nothing. */
  lemma ReconciledTwice<T>(cached: map<int, T>, current: map<int, T>)
    ensures Reconciled(Reconciled(cached, current), current) == Reconciled(cached, current)
  {
    var once := Reconciled(cached, current);
    var twice := Reconciled(once, current);
    assert forall k :: k in twice ==> twice[k] == once[k];
  }

  /** One of the window's dictionaries from record number to record object. */
  class ObjectCache<T> {
    var objects: map<int, T>

    constructor (objects: map<int, T>)
      ensures this.objects == objects
    {
      this.objects := objects;
    }

    /**
     * `update_dict_if_absent`: drops the numbers the database no longer
     * has, then keeps each cached object (returning the numbers whose
     * object is asked to `update()`) and adds each new one.
     */
    method Reconcile(current: map<int, T>) returns (updated: set<int>)
      modifies this
      ensures objects == Reconciled(old(objects), current)
      ensures updated == old(objects).Keys * current.Keys
    {
      DropStale(current);
      updated := AddCurrent(current);
    }

    /** The first half: every number the database no longer has is deleted. */
    method DropStale(current: map<int, T>)
      modifies this
      ensures objects == old(objects) - (old(objects).Keys - current.Keys)
    {
      var stale := objects.Keys - current.Keys;
      var remaining := stale;
      while remaining != {}
        invariant remaining <= stale
        invariant objects == old(objects) - (stale - remaining)
        decreases remaining
      {
        if forall k :: k !in remaining {
          assert false;
        }
        var k :| k in remaining;
        objects := objects - {k};
        remaining := remaining - {k};
      }
    }

    /** The second half: each number of the database keeps its cached object or gets the new one. */
    method AddCurrent(current: map<int, T>) returns (updated: set<int>)
      requires objects.Keys <= current.Keys
      modifies this
      ensures objects == Reconciled(old(objects), current)
      ensures updated == old(objects).Keys
    {
      var todo := current.Keys;
      updated := {};
      while todo != {}
        invariant todo <= current.Keys
        invariant objects.Keys == old(objects).Keys + (current.Keys - todo)
        invariant forall k :: k in objects ==> objects[k] == Reconciled(old(objects), current)[k]
        invariant updated == old(objects).Keys * (current.Keys - todo)
        decreases todo
      {
        if forall k :: k !in todo {
          assert false;
        }
        var k :| k in todo;
        if k in objects {
          updated := updated + {k};
        } else {
          objects := objects[k := current[k]];
        }
        todo := todo - {k};
      }
      ghost var target := Reconciled(old(objects), current);
      assert objects.Keys == target.Keys;
      assert forall k :: k in objects ==> objects[k] == target[k];
    }
  }

  /** The caches of the main window. */
  class Caches<T> {
    const cases: ObjectCache<T>
    const persons: ObjectCache<T>
    const documents: ObjectCache<T>

    predicate Valid()
      reads this
    {
      cases != persons && cases != documents && persons != documents
    }

    constructor (cases: ObjectCache<T>, persons: ObjectCache<T>, documents: ObjectCache<T>)
      requires cases != persons && cases != documents && persons != documents
      ensures Valid()
      ensures this.cases == cases && this.persons == persons && this.documents == documents
    {
      this.cases := cases;
      this.persons := persons;
      this.documents := documents;
    }

    /**
     * `update_data(unique_changes)`: each cache whose marker is among the
     * changes is reconciled with the records the database now holds
     * (`allCases`, `allPersons`, `allDocuments`); the others are untouched.
     */
    method UpdateData(changes: seq<char>, allCases: map<int, T>, allPersons: map<int, T>, allDocuments: map<int, T>)
      requires Valid()
      modifies cases, persons, documents
      ensures cases.objects == if '\t' in changes then Reconciled(old(cases.objects), allCases) else old(cases.objects)
      ensures persons.objects == if '\n' in changes then Reconciled(old(persons.objects), allPersons) else old(persons.objects)
      ensures documents.objects ==
                if ' ' in changes then Reconciled(old(documents.objects), allDocuments) else old(documents.objects)
    {
      for i := 0 to |changes|
        invariant cases.objects ==
                    if '\t' in changes[..i] then Reconciled(old(cases.objects), allCases) else old(cases.objects)
        invariant persons.objects ==
                    if '\n' in changes[..i] then Reconciled(old(persons.objects), allPersons) else old(persons.objects)
        invariant documents.objects ==
                    if ' ' in changes[..i] then Reconciled(old(documents.objects), allDocuments) else old(documents.objects)
      {
        assert changes[..i + 1] == changes[..i] + [changes[i]];
        match CacheOf(changes[i])
        case Some(CasesCache) =>
          ReconciledTwice(old(cases.objects), allCases);
          var _ := cases.Reconcile(allCases);
        case Some(PersonsCache) =>
          ReconciledTwice(old(persons.objects), allPersons);
          var _ := persons.Reconcile(allPersons);
        case Some(DocumentsCache) =>
          ReconciledTwice(old(documents.objects), allDocuments);
          var _ := documents.Reconcile(allDocuments);
        case None =>
      }
      assert changes[..|changes|] == changes;
    }
  }

  // go_back

  /** The history after one step back: the last frame is dropped while more than one is left. */
  function Back<F>(history: seq<F>): (h: seq<F>)
    ensures h <= history && (history != [] ==> h != [])
    ensures |history| > 1 ==> |h| == |history| - 1
    ensures |history| <= 1 ==> h == history
  {
    if |history| > 1 then history[..|history| - 1] else history
  }

  /** `n` steps back. */
  function BackSteps<F>(history: seq<F>, n: nat): seq<F> {
    if n == 0 then history else BackSteps(Back(history), n - 1)
  }

  /**
   * Going back any number of times never empties a history that was not
   * empty: it drops the last `n` frames but always keeps the first.
   */
  lemma {:induction false} BackStepsKeepsFirst<F>(history: seq<F>, n: nat)
    requires history != []
    ensures BackSteps(history, n) == history[..if n < |history| then |history| - n else 1]
    decreases n
  {
    if n > 0 {
      BackStepsKeepsFirst(Back(history), n - 1);
      if |history| > 1 {
        assert Back(history)[..if n - 1 < |history| - 1 then |history| - n else 1] ==
               history[..if n < |history| then |history| - n else 1];
      }
    }
  }

  /** The frames the window has shown, the one it shows and the state of its back button. */
  class Navigator<F(==)> {
    const main: F
    var history: seq<F>
    var shown: F
    var backEnabled: bool

    /** The frame shown is the last in the history, and the back button is enabled only when there is a frame to go back to. */
    predicate Valid()
      reads this
    {
      (history != [] ==> shown == history[|history| - 1]) && (backEnabled ==> |history| > 1)
    }

    constructor (main: F)
      ensures Valid() && this.main == main && history == [] && shown == main && !backEnabled
    {
      this.main := main;
      history := [];
      shown := main;
      backEnabled := false;
    }

    /** `display_info` and `create_new_case_frame`: a frame opened from the main frame. */
    method Open(frame: F)
      modifies this
      ensures Valid() && history == [main, frame] && shown == frame && backEnabled
    {
      shown := frame;
      history := [main, frame];
      backEnabled := true;
    }

    /** `display_related_info`: a frame opened on top of the current one. */
    method OpenRelated(frame: F)
      requires Valid()
      modifies this
      ensures Valid() && history == old(history) + [frame] && shown == frame && backEnabled == old(backEnabled)
    {
      shown := frame;
      history := history + [frame];
    }

    /**
     * `go_back`: while more than one frame is in the history, the last is
     * dropped and the one before it shown, the back button being disabled
     * once only one is left; otherwise only the button is disabled.
     */
    method GoBack()
      requires Valid()
      modifies this
      ensures Valid()
      ensures history == Back(old(history))
      ensures |old(history)| > 1 ==> shown == history[|history| - 1]
      ensures |old(history)| <= 1 ==> shown == old(shown)
      ensures backEnabled == (old(backEnabled) && |history| > 1)
    {
      if |history| > 1 {
        history := history[..|history| - 1];
        shown := history[|history| - 1];
        if |history| == 1 {
          backEnabled := false;
        }
      } else {
        backEnabled := false;
      }
    }
  }
}

=== FILE: query_builder.dfy ===
/**
 * The two statement builders of the search engine: the single-column builder
 * (`_generate_query`), used when a clause names a column, and the relevance
 * builder (`_generate_full_query`), used when it does not. Each is a method
 * that assembles its statement step by step, proved equal to a function that
 * says what the statement is; the properties of the statements (one `?` per
 * parameter, the ranking weights) are lemmas about those functions.
 */
module QueryBuilder {
  import opened Wrappers
  import opened Text
  import opened Schema
  import opened QueryParse

  /** An ordered mapping from table name to the table's searchable columns. */
  type TableMap = seq<(string, seq<string>)>

  /** No table name and no column name of the map holds a `?`. */
  predicate NoMarks(tc: TableMap) {
    forall i :: 0 <= i < |tc| ==> Unmarked(tc[i].0) && AllUnmarked(tc[i].1)
  }

  predicate AllUnmarked(ss: seq<string>) {
    forall j :: 0 <= j < |ss| ==> Unmarked(ss[j])
  }

  lemma PersonsColumnsUnmarked()
    ensures AllUnmarked(["last_name", "first_name", "address", "birth_date", "contact_info", "gender",
                         "description", "notes", "can_be_lawyer"])
  {
  }

  lemma CasePeopleColumnsUnmarked()
    ensures AllUnmarked(["self_represented", "has_external_lawyer", "side"])
  {
  }

  /** No table or column name of the schema holds a `?`. */
  lemma SchemaNoMarks(g: Group)
    ensures NoMarks(TableColumns(g))
  {
    match g
    case User =>
      PersonsColumnsUnmarked();
      CasePeopleColumnsUnmarked();
      assert Unmarked("Persons") && Unmarked("CasePeople");
    case Case =>
      assert Unmarked("Cases") && AllUnmarked(["name", "description", "notes"]);
    case Docu =>
      assert Unmarked("Documents") && AllUnmarked(["name", "description", "notes", "path"]);
  }

  /** A resolved table name never holds a `?` when no table name of the map does. */
  lemma {:induction false} TableOfNoMarks(tc: TableMap, column: string)
    requires NoMarks(tc)
    ensures Unmarked(TableOf(tc, column))
  {
    if tc != [] && column !in tc[|tc| - 1].1 {
      TableOfNoMarks(tc[..|tc| - 1], column);
    }
  }


  // ---------------------------------------------------------------- FROM

  /** The join of a secondary table onto the main one, on `<main in lower case, without its s>_nb`. */
  function JoinOn(main: string, t: string): string {
    " LEFT JOIN " + t + " ON " + main + ".nb = " + t + "." + RemoveSuffix(Lower(main), "s") + "_nb"
  }

  lemma JoinOnUnmarked(main: string, t: string)
    requires Unmarked(main) && Unmarked(t)
    ensures Unmarked(JoinOn(main, t))
  {
    var low := Lower(main);
    LowerUnmarked(main);
    PrefixUnmarked(low, |RemoveSuffix(low, "s")|);
  }

  /** The FROM clause of a single-column statement: the main table, then a join for every table of `ts`. */
  function FromClause(main: string, ts: seq<string>): string {
    if |ts| == 0 then " FROM " + main else FromClause(main, ts[..|ts| - 1]) + JoinOn(main, ts[|ts| - 1])
  }

  /** The FROM clause of a relevance statement: the main table, then a join for every other table of the map. */
  function FromExceptClause(main: string, tc: TableMap): string {
    if |tc| == 0 then "FROM " + main
    else if tc[|tc| - 1].0 == main then FromExceptClause(main, tc[..|tc| - 1])
    else FromExceptClause(main, tc[..|tc| - 1]) + JoinOn(main, tc[|tc| - 1].0)
  }

  lemma {:induction false} FromClauseUnmarked(main: string, ts: seq<string>)
    requires Unmarked(main) && AllUnmarked(ts)
    ensures Unmarked(FromClause(main, ts))
  {
    if |ts| > 0 {
      FromClauseUnmarked(main, ts[..|ts| - 1]);
      JoinOnUnmarked(main, ts[|ts| - 1]);
    }
  }

  lemma {:induction false} FromExceptClauseUnmarked(main: string, tc: TableMap)
    requires Unmarked(main) && NoMarks(tc)
    ensures Unmarked(FromExceptClause(main, tc))
  {
    if |tc| > 0 {
      FromExceptClauseUnmarked(main, tc[..|tc| - 1]);
      JoinOnUnmarked(main, tc[|tc| - 1].0);
    }
  }

  // ---------------------------------------------------------------- single-column statements

  /** The comparison operator, followed by the value's placeholder. */
  function Operator(op: Op): string {
    (match op
     case Regex => " REGEXP "
     case Exact => " = ") + "?"
  }

  lemma OperatorPlaceholders(op: Op)
    ensures Placeholders(Operator(op)) == 1
  {
    match op
    case Regex => MarkedOnce(" REGEXP ");
    case Exact => MarkedOnce(" = ");
  }

  /** One comparison: the column, qualified by the table that declares it, against one `?`. */
  function Condition(tc: TableMap, column: string, op: Op): string {
    TableOf(tc, column) + "." + column + Operator(op)
  }

  lemma ConditionPlaceholders(tc: TableMap, column: string, op: Op)
    requires NoMarks(tc) && Unmarked(column)
    ensures Placeholders(Condition(tc, column, op)) == 1
  {
    TableOfNoMarks(tc, column);
    UnmarkedCount(TableOf(tc, column) + "." + column);
    OperatorPlaceholders(op);
    ConcatPlaceholders(TableOf(tc, column) + "." + column, Operator(op));
  }

  function Connective(c: Comb): string {
    match c
    case And => "AND "
    case Or => "OR "
  }

  lemma ConnectiveUnmarked(c: Comb)
    ensures Placeholders(Connective(c)) == 0
  {
    match c
    case And => assert Unmarked("AND ");
    case Or => assert Unmarked("OR ");
  }

  /** The sub-terms before the first bare combinator; the builder stops there. */
  function CondsUntilBare(terms: seq<Term>): (r: seq<Term>)
    ensures |r| <= |terms| && r == terms[..|r|]
    ensures forall i :: 0 <= i < |r| ==> r[i].Cond?
    ensures |r| < |terms| ==> terms[|r|].Bare?
  {
    if |terms| == 0 || terms[0].Bare? then []
    else [terms[0]] + CondsUntilBare(terms[1..])
  }

  predicate AllConds(ts: seq<Term>) {
    forall i :: 0 <= i < |ts| ==> ts[i].Cond?
  }

  /** The clause's own condition, then one per sub-term, prefixed by the sub-term's connective. */
  function Conditions(tc: TableMap, column: string, op: Op, ts: seq<Term>): seq<string> {
    if |ts| == 0 then [Condition(tc, column, op)]
    else
      var init := Conditions(tc, column, op, ts[..|ts| - 1]);
      match ts[|ts| - 1]
      case Bare(_) => init
      case Cond(comb, c, o, _) => init + [Connective(comb) + Condition(tc, c, o)]
  }

  /** The clause's value, then one per sub-term, each stripped of surrounding white space. */
  function Params(value: string, ts: seq<Term>): seq<string> {
    if |ts| == 0 then [Strip(value)]
    else
      var init := Params(value, ts[..|ts| - 1]);
      match ts[|ts| - 1]
      case Bare(_) => init
      case Cond(_, _, _, v) => init + [Strip(v)]
  }

  /** Without bare combinators, one parameter per condition: the clause's and one per sub-term. */
  lemma {:induction false} ParamsLength(tc: TableMap, column: string, op: Op, value: string, ts: seq<Term>)
    requires AllConds(ts)
    ensures |Params(value, ts)| == |Conditions(tc, column, op, ts)| == |ts| + 1
  {
    if |ts| > 0 {
      ParamsLength(tc, column, op, value, ts[..|ts| - 1]);
    }
  }

  /** Everything of the single-column statement before its conditions. */
  function Select(g: Group): string {
    "SELECT " + MainTable(g) + ".nb" + FromClause(MainTable(g), Tables(g)[1..]) + " WHERE "
  }

  function Query(g: Group, column: string, op: Op, value: string, terms: seq<Term>): (string, seq<string>) {
    var ts := CondsUntilBare(terms);
    (Select(g) + Join(" ", Conditions(TableColumns(g), column, op, ts)), Params(value, ts))
  }

  method GenerateQuery(g: Group, column: string, op: Op, value: string, terms: seq<Term>)
    returns (query: string, params: seq<string>)
    ensures (query, params) == Query(g, column, op, value, terms)
  {
    var tables := Tables(g);
    var fromClause := FromWithJoins(tables);
    query := "SELECT " + tables[0] + ".nb" + fromClause + " WHERE ";
    assert query == Select(g);
    var conditions;
    conditions, params := ConditionsUntilBare(TableColumns(g), column, op, value, terms);
    query := query + Join(" ", conditions);
  }

  /** The FROM clause: the first table, then a LEFT JOIN for every further one. */
  method FromWithJoins(tables: seq<string>) returns (fromClause: string)
    requires |tables| > 0
    ensures fromClause == FromClause(tables[0], tables[1..])
  {
    fromClause := " FROM " + tables[0];
    var i := 1;
    while i < |tables|
      invariant 1 <= i <= |tables|
      invariant fromClause == FromClause(tables[0], tables[1..i])
    {
      assert tables[1..i + 1][..i - 1] == tables[1..i];
      fromClause := fromClause + JoinOn(tables[0], tables[i]);
      i := i + 1;
    }
    assert tables[1..i] == tables[1..];
  }

  /** The conditions and parameters, stopping at the first bare combinator. */
  method ConditionsUntilBare(tc: TableMap, column: string, op: Op, value: string, terms: seq<Term>)
    returns (conditions: seq<string>, params: seq<string>)
    ensures conditions == Conditions(tc, column, op, CondsUntilBare(terms))
    ensures params == Params(value, CondsUntilBare(terms))
  {
    var table := FindTable(tc, column);
    conditions := [table + "." + column + Operator(op)];
    params := [Strip(value)];
    ghost var ts := CondsUntilBare(terms);
    assert forall i :: 0 <= i < |ts| ==> terms[i].Cond?;
    var k := 0;
    while k < |terms|
      invariant 0 <= k <= |ts|
      invariant conditions == Conditions(tc, column, op, ts[..k])
      invariant params == Params(value, ts[..k])
    {
      if terms[k].Bare? {
        break;
      }
      var t := terms[k];
      assert k < |ts| && ts[k] == t;
      ConditionsNext(tc, column, op, value, ts, k);
      var condition, param := SubTerm(tc, t);
      conditions := conditions + [condition];
      params := params + [param];
      k := k + 1;
    }
    assert k == |ts|;
    assert ts[..k] == ts;
  }

  lemma ConditionsNext(tc: TableMap, column: string, op: Op, value: string, ts: seq<Term>, k: nat)
    requires k < |ts| && ts[k].Cond?
    ensures Conditions(tc, column, op, ts[..k + 1]) ==
            Conditions(tc, column, op, ts[..k]) + [Connective(ts[k].comb) + Condition(tc, ts[k].column, ts[k].op)]
    ensures Params(value, ts[..k + 1]) == Params(value, ts[..k]) + [Strip(ts[k].value)]
  {
    assert ts[..k + 1][..k] == ts[..k];
  }

  /** One sub-term's condition, behind its connective, and its stripped value. */
  method SubTerm(tc: TableMap, t: Term) returns (condition: string, param: string)
    requires t.Cond?
    ensures condition == Connective(t.comb) + Condition(tc, t.column, t.op)
    ensures param == Strip(t.value)
  {
    var table := FindTable(tc, t.column);
    condition := Connective(t.comb) + (table + "." + t.column + Operator(t.op));
    param := Strip(t.value);
  }

  /** A sub-term after the first bare combinator has no effect on the statement. */
  lemma QueryIgnoresAfterBare(g: Group, column: string, op: Op, value: string,
                              terms: seq<Term>, c: Comb, rest: seq<Term>)
    ensures Query(g, column, op, value, terms + [Bare(c)] + rest) ==
            Query(g, column, op, value, terms + [Bare(c)])
  {
    CutAtBare(terms, c, rest);
    CutAtBare(terms, c, []);
    assert terms + [Bare(c)] + [] == terms + [Bare(c)];
  }

  lemma {:induction false} CutAtBare(terms: seq<Term>, c: Comb, rest: seq<Term>)
    ensures CondsUntilBare(terms + [Bare(c)] + rest) == CondsUntilBare(terms)
  {
    if |terms| > 0 {
      assert (terms + [Bare(c)] + rest)[1..] == terms[1..] + [Bare(c)] + rest;
      CutAtBare(terms[1..], c, rest);
    } else {
      assert terms + [Bare(c)] + rest == [Bare(c)] + rest;
    }
  }

  /** Every condition holds exactly one `?`. */
  lemma {:induction false} ConditionsPlaceholders(tc: TableMap, column: string, op: Op, ts: seq<Term>)
    requires AllConds(ts) && NoMarks(tc) && Unmarked(column)
    requires forall i :: 0 <= i < |ts| ==> Unmarked(ts[i].column)
    ensures TotalPlaceholders(Conditions(tc, column, op, ts)) == |ts| + 1
  {
    if |ts| == 0 {
      ConditionPlaceholders(tc, column, op);
    } else {
      var t := ts[|ts| - 1];
      ConditionsPlaceholders(tc, column, op, ts[..|ts| - 1]);
      SubTermPlaceholders(tc, t.comb, t.column, t.op);
      TotalPlaceholdersSingle(Connective(t.comb) + Condition(tc, t.column, t.op));
      TotalPlaceholdersAppend(Conditions(tc, column, op, ts[..|ts| - 1]),
                              [Connective(t.comb) + Condition(tc, t.column, t.op)]);
    }
  }

  /** A sub-term's condition, behind its connective, holds one `?`. */
  lemma SubTermPlaceholders(tc: TableMap, comb: Comb, column: string, op: Op)
    requires NoMarks(tc) && Unmarked(column)
    ensures Placeholders(Connective(comb) + Condition(tc, column, op)) == 1
  {
    ConditionPlaceholders(tc, column, op);
    ConnectiveUnmarked(comb);
    ConcatPlaceholders(Connective(comb), Condition(tc, column, op));
  }

  /**
   * The single-column statement has exactly one `?` per parameter: one for
   * the clause, then one per sub-term up to the first bare combinator.
   */
  lemma QueryPlaceholders(g: Group, column: string, op: Op, value: string, terms: seq<Term>)
    requires Unmarked(column)
    requires forall i :: 0 <= i < |terms| && terms[i].Cond? ==> Unmarked(terms[i].column)
    ensures Placeholders(Query(g, column, op, value, terms).0) == |Query(g, column, op, value, terms).1|
  {
    SchemaNoMarks(g);
    SelectUnmarked(g);
    QueryTextPlaceholders(g, column, op, value, terms);
    QueryParamsCount(g, column, op, value, terms);
  }

  lemma QueryTextPlaceholders(g: Group, column: string, op: Op, value: string, terms: seq<Term>)
    requires Unmarked(column)
    requires NoMarks(TableColumns(g)) && Unmarked(Select(g))
    requires forall i :: 0 <= i < |terms| && terms[i].Cond? ==> Unmarked(terms[i].column)
    ensures Placeholders(Query(g, column, op, value, terms).0) == 1 + |CondsUntilBare(terms)|
  {
    UntilBareUnmarked(terms);
    StatementPlaceholders(Select(g), TableColumns(g), column, op, CondsUntilBare(terms));
  }

  /** One parameter for the clause, then one per sub-term up to the first bare combinator. */
  lemma QueryParamsCount(g: Group, column: string, op: Op, value: string, terms: seq<Term>)
    ensures |Query(g, column, op, value, terms).1| == 1 + |CondsUntilBare(terms)|
  {
    ParamsLength(TableColumns(g), column, op, value, CondsUntilBare(terms));
  }

  lemma UntilBareUnmarked(terms: seq<Term>)
    requires forall i :: 0 <= i < |terms| && terms[i].Cond? ==> Unmarked(terms[i].column)
    ensures forall i :: 0 <= i < |CondsUntilBare(terms)| ==> Unmarked(CondsUntilBare(terms)[i].column)
  {
    var ts := CondsUntilBare(terms);
    assert forall i :: 0 <= i < |ts| ==> ts[i] == terms[i];
  }

  /** Text without a `?` followed by the conditions holds one `?` per condition. */
  lemma StatementPlaceholders(select: string, tc: TableMap, column: string, op: Op, ts: seq<Term>)
    requires Unmarked(select) && NoMarks(tc) && Unmarked(column) && AllConds(ts)
    requires forall i :: 0 <= i < |ts| ==> Unmarked(ts[i].column)
    ensures Placeholders(select + Join(" ", Conditions(tc, column, op, ts))) == |ts| + 1
  {
    var conditions := Conditions(tc, column, op, ts);
    ConditionsPlaceholders(tc, column, op, ts);
    assert Unmarked(" ");
    JoinPlaceholders(" ", conditions);
    UnmarkedCount(select);
    ConcatPlaceholders(select, Join(" ", conditions));
  }

  lemma SelectUnmarked(g: Group)
    ensures Unmarked(Select(g))
  {
    TablesUnmarked(g);
    SelectTextUnmarked(MainTable(g), Tables(g)[1..]);
  }

  lemma TablesUnmarked(g: Group)
    ensures Unmarked(MainTable(g)) && AllUnmarked(Tables(g)[1..])
  {
    match g
    case User =>
      assert Tables(g)[1..] == ["CasePeople"];
      assert Unmarked("Persons") && Unmarked("CasePeople");
    case Case =>
      assert Unmarked("Cases");
    case Docu =>
      assert Unmarked("Documents");
  }

  lemma SelectTextUnmarked(main: string, rest: seq<string>)
    requires Unmarked(main) && AllUnmarked(rest)
    ensures Unmarked("SELECT " + main + ".nb" + FromClause(main, rest) + " WHERE ")
  {
    FromClauseUnmarked(main, rest);
    assert Unmarked("SELECT ") && Unmarked(".nb") && Unmarked(" WHERE ");
  }

  // ---------------------------------------------------------------- additional terms

  /** The value of one additional term: its connective, whether it is a regex match, its value. */
  datatype Extra = Extra(logic: Comb, regex: bool, value: string)

  /** An insertion-ordered dictionary from column name to additional term. */
  type Extras = seq<(string, Extra)>

  function Keys(d: Extras): set<string> {
    set i | 0 <= i < |d| :: d[i].0
  }

  predicate DistinctKeys(d: Extras) {
    forall i, j :: 0 <= i < j < |d| ==> d[i].0 != d[j].0
  }

  function KeyIndex(d: Extras, k: string): (i: nat)
    ensures i <= |d|
    ensures i < |d| ==> d[i].0 == k
    ensures forall j :: 0 <= j < i ==> d[j].0 != k
  {
    if |d| == 0 then 0
    else if d[0].0 == k then 0
    else 1 + KeyIndex(d[1..], k)
  }

  lemma KeysAppend(d: Extras, k: string, v: Extra)
    ensures Keys(d + [(k, v)]) == Keys(d) + {k}
  {
    var r := d + [(k, v)];
    assert forall i :: 0 <= i < |d| ==> r[i] == d[i];
    assert r[|d|].0 == k;
  }

  lemma KeysReplace(d: Extras, i: nat, k: string, v: Extra)
    requires i < |d| && d[i].0 == k
    ensures Keys(d[i := (k, v)]) == Keys(d)
  {
    var r := d[i := (k, v)];
    assert forall j :: 0 <= j < |d| ==> r[j].0 == d[j].0;
  }

  /** `d[k] = v`: an existing key keeps its position and takes the new value; a new key goes last. */
  function Put(d: Extras, k: string, v: Extra): (r: Extras)
    ensures Keys(r) == Keys(d) + {k}
    ensures DistinctKeys(d) ==> DistinctKeys(r)
    ensures k in Keys(d) ==> |r| == |d|
    ensures k !in Keys(d) ==> r == d + [(k, v)]
    ensures DistinctKeys(d) ==>
              forall i :: 0 <= i < |r| ==> if r[i].0 == k then r[i].1 == v else i < |d| && r[i] == d[i]
  {
    var i := KeyIndex(d, k);
    if i < |d| then
      KeysReplace(d, i, k, v);
      d[i := (k, v)]
    else
      KeysAppend(d, k, v);
      d + [(k, v)]
  }

  /** The dictionary of additional terms built from the sub-terms: bare combinators are skipped, a later term for the same column wins. */
  function NormalizedExtra(terms: seq<Term>): Extras {
    if |terms| == 0 then []
    else
      var d := NormalizedExtra(terms[..|terms| - 1]);
      match terms[|terms| - 1]
      case Bare(_) => d
      case Cond(comb, column, op, value) => Put(d, column, Extra(comb, op == Regex, value))
  }

  /** The columns named by sub-terms that are not bare combinators. */
  function CondColumns(terms: seq<Term>): set<string> {
    set j | 0 <= j < |terms| && terms[j].Cond? :: terms[j].column
  }

  /** The dictionary's keys are the columns named by sub-terms, each exactly once. */
  lemma {:induction false} NormalizedExtraKeys(terms: seq<Term>)
    ensures DistinctKeys(NormalizedExtra(terms))
    ensures Keys(NormalizedExtra(terms)) == CondColumns(terms)
  {
    if |terms| > 0 {
      NormalizedExtraKeys(terms[..|terms| - 1]);
      CondColumnsStep(terms);
    }
  }

  lemma CondColumnsStep(terms: seq<Term>)
    requires |terms| > 0
    ensures var last := terms[|terms| - 1];
            CondColumns(terms) == CondColumns(terms[..|terms| - 1]) + if last.Cond? then {last.column} else {}
  {
    var init := terms[..|terms| - 1];
    assert forall j :: 0 <= j < |init| ==> init[j] == terms[j];
  }

  /** The dictionary has one entry per distinct column named by a sub-term. */
  lemma NormalizedExtraSize(terms: seq<Term>)
    ensures |NormalizedExtra(terms)| == |CondColumns(terms)|
  {
    NormalizedExtraKeys(terms);
    DistinctKeysCount(NormalizedExtra(terms));
  }

  lemma {:induction false} DistinctKeysCount(d: Extras)
    requires DistinctKeys(d)
    ensures |Keys(d)| == |d|
  {
    if |d| > 0 {
      var init := d[..|d| - 1];
      DistinctKeysCount(init);
      KeysAppend(init, d[|d| - 1].0, d[|d| - 1].1);
      assert init + [d[|d| - 1]] == d;
      assert d[|d| - 1].0 !in Keys(init);
    }
  }

  /** `terms[j]` is the last sub-term (not a bare combinator) that names column `c`. */
  ghost predicate LastFor(terms: seq<Term>, j: int, c: string) {
    && 0 <= j < |terms| && terms[j].Cond? && terms[j].column == c
    && forall j' :: j < j' < |terms| ==> !(terms[j'].Cond? && terms[j'].column == c)
  }

  /** The entry of each column is the last sub-term that names it. */
  lemma {:induction false} NormalizedExtraLast(terms: seq<Term>, i: nat)
    requires i < |NormalizedExtra(terms)|
    ensures exists j :: LastFor(terms, j, NormalizedExtra(terms)[i].0) &&
              NormalizedExtra(terms)[i].1 == Extra(terms[j].comb, terms[j].op == Regex, terms[j].value)
  {
    var init := terms[..|terms| - 1];
    var d := NormalizedExtra(terms);
    var last := terms[|terms| - 1];
    NormalizedExtraStep(terms, i);
    if last.Cond? && d[i].0 == last.column {
      assert LastFor(terms, |terms| - 1, d[i].0);
    } else {
      var d0 := NormalizedExtra(init);
      NormalizedExtraLast(init, i);
      var j :| LastFor(init, j, d0[i].0) &&
               d0[i].1 == Extra(init[j].comb, init[j].op == Regex, init[j].value);
      LastForExtend(terms, j, d[i].0);
    }
  }

  /** The last sub-term sets the entry of its own column and leaves every other entry as it was. */
  lemma NormalizedExtraStep(terms: seq<Term>, i: nat)
    requires i < |NormalizedExtra(terms)|
    ensures var d := NormalizedExtra(terms);
            var d0 := NormalizedExtra(terms[..|terms| - 1]);
            var last := terms[|terms| - 1];
            if last.Cond? && d[i].0 == last.column then d[i].1 == Extra(last.comb, last.op == Regex, last.value)
            else i < |d0| && d[i] == d0[i]
  {
    NormalizedExtraKeys(terms[..|terms| - 1]);
  }

  lemma LastForExtend(terms: seq<Term>, j: int, c: string)
    requires |terms| > 0 && LastFor(terms[..|terms| - 1], j, c)
    requires !(terms[|terms| - 1].Cond? && terms[|terms| - 1].column == c)
    ensures LastFor(terms, j, c)
  {
    assert terms[..|terms| - 1][j] == terms[j];
  }

  // ---------------------------------------------------------------- relevance statements

  /** The pairs (table, column) of one table, in column order. */
  function Pairs(t: string, cols: seq<string>): (r: seq<(string, string)>)
    ensures |r| == |cols|
    ensures forall j :: 0 <= j < |cols| ==> r[j] == (t, cols[j])
  {
    seq(|cols|, j requires 0 <= j < |cols| => (t, cols[j]))
  }

  /** Every (table, column) pair of the map, table by table. */
  function Flat(tc: TableMap): seq<(string, string)> {
    if |tc| == 0 then [] else Flat(tc[..|tc| - 1]) + Pairs(tc[|tc| - 1].0, tc[|tc| - 1].1)
  }

  lemma FlatNext(tc: TableMap, t: nat)
    requires t < |tc|
    ensures Flat(tc[..t + 1]) == Flat(tc[..t]) + Pairs(tc[t].0, tc[t].1)
  {
    assert tc[..t + 1][..t] == tc[..t];
  }

  lemma PairsNext(done: seq<(string, string)>, t: string, cols: seq<string>, c: nat)
    requires c < |cols|
    ensures done + Pairs(t, cols[..c + 1]) == (done + Pairs(t, cols[..c])) + [(t, cols[c])]
  {
  }

  /** The number of searchable columns of the map. */
  function ColumnCount(tc: TableMap): nat {
    if |tc| == 0 then 0 else ColumnCount(tc[..|tc| - 1]) + |tc[|tc| - 1].1|
  }

  lemma {:induction false} FlatLength(tc: TableMap)
    ensures |Flat(tc)| == ColumnCount(tc)
  {
    if |tc| > 0 {
      FlatLength(tc[..|tc| - 1]);
    }
  }

  /** One arm of the relevance CASE: a column, exact (`=`) or regex, and the weight it scores. */
  datatype Arm = Arm(table: string, column: string, exact: bool, weight: int)

  function ArmText(a: Arm): string {
    ("WHEN " + a.table + "." + a.column) + (if a.exact then " = ?" else " REGEXP ?") + (" THEN " + IntToString(a.weight))
  }

  /** Two arms per column, in column order: the `k`-th column scores `n + 2 - k` when equal, `n - k` when it matches. */
  function Arms(flat: seq<(string, string)>, n: int): (r: seq<Arm>)
    ensures |r| == 2 * |flat|
  {
    if |flat| == 0 then []
    else
      var k := |flat| - 1;
      Arms(flat[..k], n) + [Arm(flat[k].0, flat[k].1, true, n + 2 - k)] + [Arm(flat[k].0, flat[k].1, false, n - k)]
  }

  /** The arms of column `k` sit at positions `2k` and `2k + 1`. */
  lemma {:induction false} ArmsAt(flat: seq<(string, string)>, n: int, k: nat)
    requires k < |flat|
    ensures Arms(flat, n)[2 * k] == Arm(flat[k].0, flat[k].1, true, n + 2 - k)
    ensures Arms(flat, n)[2 * k + 1] == Arm(flat[k].0, flat[k].1, false, n - k)
  {
    if k < |flat| - 1 {
      ArmsAt(flat[..|flat| - 1], n, k);
    }
  }

  /**
   * With `n` columns, the weights of every column, the last included, are
   * positive, and its exact arm outweighs its regex arm by two.
   */
  lemma ArmWeight(flat: seq<(string, string)>, k: nat)
    requires k < |flat|
    ensures var arms := Arms(flat, |flat|);
            && arms[2 * k].weight > 0 && arms[2 * k + 1].weight > 0
            && arms[2 * k].weight == arms[2 * k + 1].weight + 2
  {
    ArmsAt(flat, |flat|, k);
  }

  /**
   * With `n` columns, every weight is positive, the exact arm of a column
   * outweighs its regex arm by two, and an earlier column outweighs a later
   * one in both kinds of arm.
   */
  lemma ArmWeights(flat: seq<(string, string)>, k: nat, l: nat)
    requires k < l < |flat|
    ensures var arms := Arms(flat, |flat|);
            && arms[2 * k].weight > 0 && arms[2 * k + 1].weight > 0
            && arms[2 * k].weight == arms[2 * k + 1].weight + 2
            && arms[2 * k].weight > arms[2 * l].weight
            && arms[2 * k + 1].weight > arms[2 * l + 1].weight
  {
    ArmsAt(flat, |flat|, k);
    ArmsAt(flat, |flat|, l);
  }

  /** The texts of the arms, in order. */
  function Texts(arms: seq<Arm>): (r: seq<string>)
    ensures |r| == |arms|
  {
    if |arms| == 0 then [] else Texts(arms[..|arms| - 1]) + [ArmText(arms[|arms| - 1])]
  }

  lemma TextsNext(arms: seq<Arm>, a: Arm)
    ensures Texts(arms + [a]) == Texts(arms) + [ArmText(a)]
  {
    assert (arms + [a])[..|arms|] == arms;
  }

  /** One more column adds its two arms' texts. */
  lemma CaseStep(before: seq<(string, string)>, p: (string, string), n: int)
    ensures Texts(Arms(before + [p], n)) ==
            Texts(Arms(before, n)) + [ArmText(Arm(p.0, p.1, true, n + 2 - |before|)),
                                      ArmText(Arm(p.0, p.1, false, n - |before|))]
  {
    var exact := Arm(p.0, p.1, true, n + 2 - |before|);
    assert (before + [p])[..|before|] == before;
    TextsNext(Arms(before, n), exact);
    TextsNext(Arms(before, n) + [exact], Arm(p.0, p.1, false, n - |before|));
  }

  lemma ColumnArmsNext(done: seq<(string, string)>, table: string, columns: seq<string>, c: nat, n: int)
    requires c < |columns|
    ensures Texts(Arms(done + Pairs(table, columns[..c + 1]), n)) ==
            Texts(Arms(done + Pairs(table, columns[..c]), n))
              + [ArmText(Arm(table, columns[c], true, n + 2 - (|done| + c))),
                 ArmText(Arm(table, columns[c], false, n - (|done| + c)))]
  {
    PairsNext(done, table, columns, c);
    CaseStep(done + Pairs(table, columns[..c]), (table, columns[c]), n);
  }

  /** The condition that some column matches the vague term. */
  function AnyCondition(p: (string, string)): string {
    p.0 + "." + p.1 + " REGEXP ?"
  }

  function WhereConditions(flat: seq<(string, string)>): (r: seq<string>)
    ensures |r| == |flat|
  {
    if |flat| == 0 then [] else WhereConditions(flat[..|flat| - 1]) + [AnyCondition(flat[|flat| - 1])]
  }

  /** The word joining an additional condition to the ones before it. */
  function LogicWord(c: Comb): string {
    if c == Or then "OR" else "AND"
  }

  /** The comparison of an additional condition with its value. */
  function Comparison(regex: bool): string {
    if regex then " REGEXP ?" else " = ?"
  }

  function ExtraCondition(tc: TableMap, column: string, e: Extra): string {
    LogicWord(e.logic) + " " + TableOf(tc, column) + "." + column + Comparison(e.regex)
  }

  function ExtraConditions(tc: TableMap, extras: Extras): (r: seq<string>)
    ensures |r| == |extras|
  {
    if |extras| == 0 then []
    else
      var e := extras[|extras| - 1];
      ExtraConditions(tc, extras[..|extras| - 1]) + [ExtraCondition(tc, e.0, e.1)]
  }

  function ExtraValues(extras: Extras): (r: seq<string>)
    ensures |r| == |extras|
    ensures forall i :: 0 <= i < |extras| ==> r[i] == extras[i].1.value
  {
    if |extras| == 0 then [] else ExtraValues(extras[..|extras| - 1]) + [extras[|extras| - 1].1.value]
  }

  function Repeat(s: string, n: nat): (r: seq<string>)
    ensures |r| == n
    ensures forall i :: 0 <= i < n ==> r[i] == s
  {
    seq(n, _ => s)
  }

  /** The CASE expression scoring a row, ending in `ELSE 0`. */
  function CaseStatement(tc: TableMap): string {
    Join(" ", Texts(Arms(Flat(tc), ColumnCount(tc)))) + " ELSE 0 END AS relevance"
  }

  /** The WHERE clause: any column matching the term, then the additional terms when there are any. */
  function WhereClause(tc: TableMap, extras: Extras): string {
    var additional := Join(" ", ExtraConditions(tc, extras));
    var any := Join(" OR ", WhereConditions(Flat(tc)));
    if additional != "" then "(" + any + ") " + additional else any
  }

  /** The parameters: the wrapped term once per `?` of the CASE and the WHERE, then the additional values. */
  function FullParams(tc: TableMap, term: string, extras: Extras): seq<string> {
    Repeat(".*" + term + ".*", 3 * ColumnCount(tc)) + ExtraValues(extras)
  }

  /** The head of the relevance statement, up to the CASE expression. */
  function RelevanceSelect(main: string): string {
    "SELECT " + main + ".nb, NULL AS relevance, CASE" + " "
  }

  /** The text between the CASE expression and the WHERE conditions. */
  function RelevanceFrom(tc: TableMap): string
    requires |tc| > 0
  {
    " " + FromExceptClause(tc[0].0, tc) + " WHERE "
  }

  const OrderByRelevance: string := " ORDER BY relevance DESC"

  /** The relevance statement: head, CASE expression, FROM, WHERE, and the ordering by relevance. */
  function FullStatement(tc: TableMap, extras: Extras): string
    requires |tc| > 0
  {
    RelevanceSelect(tc[0].0) + CaseStatement(tc) + RelevanceFrom(tc) + WhereClause(tc, extras) + OrderByRelevance
  }

  /** The statement and parameters of `_generate_full_query`. */
  function FullQuery(tc: TableMap, term: string, extras: Extras): (string, seq<string>)
    requires |tc| > 0
  {
    (FullStatement(tc, extras), FullParams(tc, term, extras))
  }

  method GenerateFullQuery(tc: TableMap, term: string, extras: Extras) returns (query: string, params: seq<string>)
    requires |tc| > 0
    ensures (query, params) == FullQuery(tc, term, extras)
  {
    var main := tc[0].0;
    var fromClause := FromExcept(tc);
    var length := ColumnCount(tc);
    var caseConditions := CaseConditions(tc, length);
    var caseStatement := Join(" ", caseConditions) + " ELSE 0 END AS relevance";
    assert caseStatement == CaseStatement(tc);
    var whereConditions := AnyColumnConditions(tc);
    var whereClause := Join(" OR ", whereConditions);
    var additionalConditions, additionalValues := AdditionalConditions(tc, extras);
    var additionalWhere := Join(" ", additionalConditions);
    if additionalWhere != "" {
      whereClause := "(" + whereClause + ") " + additionalWhere;
    }
    assert whereClause == WhereClause(tc, extras);
    query := "SELECT " + main + ".nb, NULL AS relevance, CASE" + " " + caseStatement
               + (" " + fromClause + " WHERE ") + whereClause + " ORDER BY relevance DESC";
    params := Repeat(".*" + term + ".*", length * 2 + length) + additionalValues;
  }

  /** The FROM clause: the first table, then a LEFT JOIN for every other table of the map. */
  method FromExcept(tc: TableMap) returns (fromClause: string)
    requires |tc| > 0
    ensures fromClause == FromExceptClause(tc[0].0, tc)
  {
    var main := tc[0].0;
    fromClause := "FROM " + main;
    var t := 0;
    while t < |tc|
      invariant 0 <= t <= |tc|
      invariant fromClause == FromExceptClause(main, tc[..t])
    {
      assert tc[..t + 1][..t] == tc[..t];
      if tc[t].0 != main {
        fromClause := fromClause + JoinOn(main, tc[t].0);
      }
      t := t + 1;
    }
    assert tc[..t] == tc;
  }

  /** The CASE arms, table by table and column by column, with a running column index. */
  method CaseConditions(tc: TableMap, length: int) returns (caseConditions: seq<string>)
    ensures caseConditions == Texts(Arms(Flat(tc), length))
  {
    caseConditions := [];
    var caseIndex := 0;
    var t := 0;
    while t < |tc|
      invariant 0 <= t <= |tc|
      invariant caseIndex == |Flat(tc[..t])|
      invariant caseConditions == Texts(Arms(Flat(tc[..t]), length))
    {
      caseConditions, caseIndex := TableArms(Flat(tc[..t]), tc[t].0, tc[t].1, length, caseIndex, caseConditions);
      FlatNext(tc, t);
      t := t + 1;
    }
    assert tc[..t] == tc;
  }

  /** The arms of one table's columns, appended to those of the tables before it. */
  method TableArms(ghost done: seq<(string, string)>, table: string, columns: seq<string>, length: int,
                   caseIndex: int, caseConditions: seq<string>)
    returns (conditions: seq<string>, nextIndex: int)
    requires caseIndex == |done|
    requires caseConditions == Texts(Arms(done, length))
    ensures nextIndex == |done| + |columns|
    ensures conditions == Texts(Arms(done + Pairs(table, columns), length))
  {
    conditions := caseConditions;
    nextIndex := caseIndex;
    assert done + Pairs(table, columns[..0]) == done;
    var c := 0;
    while c < |columns|
      invariant 0 <= c <= |columns|
      invariant nextIndex == |done| + c
      invariant conditions == Texts(Arms(done + Pairs(table, columns[..c]), length))
    {
      conditions, nextIndex := ColumnArms(done, table, columns, c, length, nextIndex, conditions);
      c := c + 1;
    }
    assert columns[..c] == columns;
  }

  /** The two arms of one column: exact, then regex, weighted by the running column index. */
  method ColumnArms(ghost done: seq<(string, string)>, table: string, columns: seq<string>, c: nat, length: int,
                    caseIndex: int, caseConditions: seq<string>)
    returns (conditions: seq<string>, nextIndex: int)
    requires c < |columns| && caseIndex == |done| + c
    requires caseConditions == Texts(Arms(done + Pairs(table, columns[..c]), length))
    ensures nextIndex == caseIndex + 1
    ensures conditions == Texts(Arms(done + Pairs(table, columns[..c + 1]), length))
  {
    ColumnArmsNext(done, table, columns, c, length);
    conditions := caseConditions + [ArmText(Arm(table, columns[c], true, length + 2 - caseIndex)),
                                    ArmText(Arm(table, columns[c], false, length - caseIndex))];
    nextIndex := caseIndex + 1;
  }

  /** The vague-term conditions: every column of every table against one regular expression. */
  method AnyColumnConditions(tc: TableMap) returns (conditions: seq<string>)
    ensures conditions == WhereConditions(Flat(tc))
  {
    conditions := [];
    var t := 0;
    while t < |tc|
      invariant 0 <= t <= |tc|
      invariant conditions == WhereConditions(Flat(tc[..t]))
    {
      var table := tc[t].0;
      var columns := tc[t].1;
      ghost var done := Flat(tc[..t]);
      assert done + Pairs(table, columns[..0]) == done;
      var c := 0;
      while c < |columns|
        invariant 0 <= c <= |columns|
        invariant conditions == WhereConditions(done + Pairs(table, columns[..c]))
      {
        ghost var before := done + Pairs(table, columns[..c]);
        PairsNext(done, table, columns, c);
        assert (before + [(table, columns[c])])[..|before|] == before;
        conditions := conditions + [table + "." + columns[c] + " REGEXP ?"];
        c := c + 1;
      }
      FlatNext(tc, t);
      assert columns[..c] == columns;
      t := t + 1;
    }
    assert tc[..t] == tc;
  }

  /** The additional conditions and their values, in the dictionary's order. */
  method AdditionalConditions(tc: TableMap, extras: Extras) returns (conditions: seq<string>, values: seq<string>)
    ensures conditions == ExtraConditions(tc, extras)
    ensures values == ExtraValues(extras)
  {
    conditions := [];
    values := [];
    var e := 0;
    while e < |extras|
      invariant 0 <= e <= |extras|
      invariant conditions == ExtraConditions(tc, extras[..e])
      invariant values == ExtraValues(extras[..e])
    {
      assert extras[..e + 1][..e] == extras[..e];
      var column := extras[e].0;
      var table := FindTable(tc, column);
      var logic := LogicWord(extras[e].1.logic);
      var operator := Comparison(extras[e].1.regex);
      conditions := conditions + [logic + " " + table + "." + column + operator];
      values := values + [extras[e].1.value];
      e := e + 1;
    }
    assert extras[..e] == extras;
  }
}

=== FILE: query_compiler.dfy ===
/**
 * The top level of the search engine: a search-box string becomes a list of
 * entries `(groups, statement, parameters, return specs)`.
 *
 * Clauses without a known group fan out over all three groups; a clause
 * ending in a bare `&` makes the next clause with a known group join onto the
 * last entry instead of adding one. The text surgery that performs such a
 * join is not modelled: a joined statement is kept as a `Joined` node that
 * records what is inserted (the join path) and what is appended (the
 * clause's conditions), which is all the bookkeeping depends on.
 */
module QueryCompiler {
  import opened Wrappers
  import opened Text
  import opened Schema
  import opened QueryParse
  import opened QueryBuilder
  import opened RelevanceMarks

  // ---------------------------------------------------------------- entries

  /**
   * The statement of an entry: text as generated, with the group its FROM
   * clause names (none for a statement without FROM), or an earlier statement
   * with a group joined onto it.
   */
  datatype Sql =
    | Statement(text: string, from: Option<Group>)
    | Joined(base: Sql, table: Group, path: seq<JoinStep>, conditions: seq<string>)

  /** One search: the groups whose ids it selects, its statement, parameters and return specs. */
  datatype Entry = Entry(groups: seq<Group>, sql: Sql, params: seq<string>, specs: seq<seq<string>>)

  /** The group of the table the statement's FROM clause names; a join keeps it. */
  function FromOf(q: Sql): Option<Group> {
    match q
    case Statement(_, from) => from
    case Joined(base, _, _, _) => FromOf(base)
  }

  /**
   * The number of `?` in the statement: a join inserts the join path and the
   * joined group's id column, neither holding a `?`, and appends the
   * conditions separated by spaces.
   */
  function Marks(q: Sql): nat {
    match q
    case Statement(text, _) => Placeholders(text)
    case Joined(base, _, _, conditions) => Marks(base) + Placeholders(Join(" ", conditions))
  }

  /** The names a join step mentions hold no `?`. */
  predicate StepNamesUnmarked(s: JoinStep) {
    Unmarked(s.table) && Unmarked(s.leftTable) && Unmarked(s.leftColumn) && Unmarked(s.rightColumn)
  }

  lemma StepTextUnmarked(s: JoinStep)
    requires StepNamesUnmarked(s)
    ensures Unmarked(StepText(s))
  {
    var keyword := if s.inner then "INNER JOIN " else "JOIN ";
    assert Unmarked(keyword) && Unmarked(" ON ") && Unmarked(".") && Unmarked(" = ");
  }

  lemma {:induction false} JoinTextUnmarked(steps: seq<JoinStep>)
    requires forall i :: 0 <= i < |steps| ==> StepNamesUnmarked(steps[i])
    ensures Unmarked(JoinText(steps))
  {
    if |steps| > 0 {
      StepTextUnmarked(steps[0]);
    }
    if |steps| > 1 {
      JoinTextUnmarked(steps[1..]);
      assert Unmarked(" ");
    }
  }

  /** The join paths are fixed table and column names: they never hold a `?`. */
  lemma JoinPathUnmarked(from: Group, to: Group)
    requires from != to
    ensures Unmarked(JoinText(JoinPath(from, to).value))
  {
    var steps := JoinPath(from, to).value;
    JoinNamesUnmarked();
    JoinTextUnmarked(steps);
  }

  /** The table and column names the join paths use. */
  lemma JoinNamesUnmarked()
    ensures Unmarked("CasePeople") && Unmarked("CaseDocuments") && Unmarked("Cases") && Unmarked("Persons")
    ensures Unmarked("Documents") && Unmarked("nb") && Unmarked("case_nb") && Unmarked("person_nb")
    ensures Unmarked("document_nb")
  {
    assert Unmarked("CasePeople") && Unmarked("CaseDocuments") && Unmarked("Cases") && Unmarked("Persons");
    assert Unmarked("Documents") && Unmarked("nb") && Unmarked("case_nb") && Unmarked("person_nb");
  }

  /** The statement returned for the empty search: every id of every group. */
  const SelectAll: string :=
    "SELECT Persons.nb, " + "Cases.nb, Documents.nb" + " FROM Persons" + " FULL OUTER JOIN Cases" + " FULL OUTER JOIN Documents"

  function EmptySearchEntry(): Entry {
    Entry(AllGroups, Statement(SelectAll, Some(User)), [],
          [DefaultReturns(User), DefaultReturns(Case), DefaultReturns(Docu)])
  }

  /** The entry returned for input that does not parse: no statement, no return specs. */
  function UnparsedEntry(): Entry {
    Entry(AllGroups, Statement("", None), [], [[], [], []])
  }

  // ---------------------------------------------------------------- one clause

  /** The group a clause names, when it names one the engine knows. */
  function Target(c: Clause): Option<Group> {
    match c.prefix
    case None => None
    case Some(pre) => GroupNamed(pre.group)
  }

  /** The column a clause names in braces, if any. */
  function ColumnOf(c: Clause): Option<string> {
    match c.prefix
    case None => None
    case Some(pre) => pre.column
  }

  /** The clause ends with a bare `&`: the next clause joins onto this one's entry. */
  predicate EndsWithAnd(terms: seq<Term>) {
    |terms| > 0 && terms[|terms| - 1] == Bare(And)
  }

  /** The return spec of a clause with a known group: the `;`-separated list in brackets, else the group's default. */
  function NamedReturns(c: Clause, g: Group): seq<string> {
    match c.prefix
    case Some(Prefix(_, Some(ret), _, _)) => Split(ret, ';')
    case _ => DefaultReturns(g)
  }

  /**
   * The return spec of a fan-out clause as written: when the brackets hold
   * something, it is the group name that is split, not the bracket list.
   */
  function FanOutReturnsAsWritten(c: Clause, g: Group): seq<string> {
    match c.prefix
    case Some(Prefix(group, Some(ret), _, _)) => if ret != "" then Split(group, ';') else DefaultReturns(g)
    case _ => DefaultReturns(g)
  }

  /** The return spec of a fan-out clause: the bracket list when it is not empty, else the group's default. */
  function FanOutReturns(c: Clause, g: Group): (r: seq<string>)
    ensures (c.prefix.Some? && c.prefix.value.ret.Some? && c.prefix.value.ret.value != "") ==>
              r == Split(c.prefix.value.ret.value, ';')
    ensures !(c.prefix.Some? && c.prefix.value.ret.Some? && c.prefix.value.ret.value != "") ==>
              r == DefaultReturns(g)
  {
    match c.prefix
    case Some(Prefix(_, Some(ret), _, _)) => if ret != "" then Split(ret, ';') else DefaultReturns(g)
    case _ => DefaultReturns(g)
  }

  /** The statement a clause generates for a group: single-column when it names a column, relevance otherwise. */
  function ClauseStatement(g: Group, p: Parsed): (string, seq<string>) {
    match p.clause.prefix
    case Some(Prefix(_, _, Some(column), op)) => Query(g, column, op, p.clause.value, p.terms)
    case _ => FullQuery(TableColumns(g), p.clause.value, NormalizedExtra(p.terms))
  }

  method GenerateClause(g: Group, p: Parsed) returns (query: string, params: seq<string>)
    ensures (query, params) == ClauseStatement(g, p)
  {
    if p.clause.prefix.Some? && p.clause.prefix.value.column.Some? {
      query, params := GenerateQuery(g, p.clause.prefix.value.column.value, p.clause.prefix.value.op,
                                     p.clause.value, p.terms);
    } else {
      query, params := GenerateFullQuery(TableColumns(g), p.clause.value, NormalizedExtra(p.terms));
    }
  }

  function NamedEntry(g: Group, p: Parsed): Entry {
    var q := ClauseStatement(g, p);
    Entry([g], Statement(q.0, Some(g)), q.1, [NamedReturns(p.clause, g)])
  }

  /** The entry a clause without a known group adds for group `g`: always a relevance statement. */
  function FanOutEntry(g: Group, p: Parsed): Entry {
    var q := FullQuery(TableColumns(g), p.clause.value, NormalizedExtra(p.terms));
    Entry([g], Statement(q.0, Some(g)), q.1, [FanOutReturns(p.clause, g)])
  }

  /** The entries of a clause without a known group for the first `k` groups, in order. */
  function FanOutEntries(p: Parsed, k: nat): (r: seq<Entry>)
    requires k <= |AllGroups|
    ensures |r| == k && forall i :: 0 <= i < k ==> r[i] == FanOutEntry(AllGroups[i], p)
  {
    seq(k, i requires 0 <= i < k => FanOutEntry(AllGroups[i], p))
  }

  lemma FanOutEntriesNext(p: Parsed, k: nat)
    requires k < |AllGroups|
    ensures FanOutEntries(p, k + 1) == FanOutEntries(p, k) + [FanOutEntry(AllGroups[k], p)]
  {
    var longer := FanOutEntries(p, k + 1);
    var shorter := FanOutEntries(p, k);
    forall i | 0 <= i < k + 1
      ensures longer[i] == (shorter + [FanOutEntry(AllGroups[k], p)])[i]
    {
      if i < k {
        assert longer[i] == shorter[i];
      }
    }
  }

  /**
   * A clause without a known group searches every group; naming a column
   * then fails, since the single-column builder looks the group up.
   */
  function FanOut(p: Parsed): Result<seq<Entry>> {
    if ColumnOf(p.clause).Some? then Err(KeyError) else Ok(FanOutEntries(p, 3))
  }

  /** The entry a clause adds for one group, with the given return spec. */
  method ClauseEntry(g: Group, p: Parsed, ret: seq<string>) returns (e: Entry)
    ensures e.groups == [g] && e.specs == [ret]
    ensures e.sql == Statement(ClauseStatement(g, p).0, Some(g)) && e.params == ClauseStatement(g, p).1
  {
    var query, params := GenerateClause(g, p);
    e := Entry([g], Statement(query, Some(g)), params, [ret]);
  }

  method FanOutEntryFor(g: Group, p: Parsed, ret: seq<string>) returns (e: Entry)
    requires ret == FanOutReturns(p.clause, g)
    ensures e == FanOutEntry(g, p)
  {
    var query, params := GenerateFullQuery(TableColumns(g), p.clause.value, NormalizedExtra(p.terms));
    e := Entry([g], Statement(query, Some(g)), params, [ret]);
  }

  method FanOutClause(p: Parsed) returns (r: Result<seq<Entry>>)
    ensures r == FanOut(p)
  {
    var added: seq<Entry> := [];
    var i := 0;
    while i < |AllGroups|
      invariant 0 <= i <= |AllGroups|
      invariant i > 0 ==> ColumnOf(p.clause).None?
      invariant added == FanOutEntries(p, i)
    {
      var g := AllGroups[i];
      var ret := FanOutReturns(p.clause, g);
      if p.clause.prefix.Some? && p.clause.prefix.value.column.Some? {
        assert ColumnOf(p.clause).Some?;
        return Err(KeyError);
      }
      var e := FanOutEntryFor(g, p, ret);
      FanOutEntriesNext(p, i);
      added := added + [e];
      i := i + 1;
    }
    r := Ok(added);
  }

  // ---------------------------------------------------------------- joining a clause onto the last entry

  /** One term of a joined clause: the clause's own term behind `&`, or a sub-term. */
  datatype JoinTerm = JoinTerm(comb: Comb, column: Option<string>, op: Op, value: string)

  /** The sub-terms that are not bare combinators; unlike the single-column builder, the walk does not stop at one. */
  function CondTerms(terms: seq<Term>): (r: seq<JoinTerm>)
    ensures |r| <= |terms|
  {
    if |terms| == 0 then []
    else
      var init := CondTerms(terms[..|terms| - 1]);
      match terms[|terms| - 1]
      case Bare(_) => init
      case Cond(comb, column, op, value) => init + [JoinTerm(comb, Some(column), op, value)]
  }

  function JoinTerms(pre: Prefix, value: string, terms: seq<Term>): seq<JoinTerm> {
    [JoinTerm(And, pre.column, pre.op, value)] + CondTerms(terms)
  }

  /** The name a missing column is rendered with. */
  function ColumnName(column: Option<string>): string {
    match column
    case None => "None"
    case Some(c) => c
  }

  /** The table a joined term's column resolves to; a missing column resolves to none. */
  function JoinTable(tc: TableMap, column: Option<string>): string {
    match column
    case None => ""
    case Some(c) => TableOf(tc, c)
  }

  /** A joined term's condition as written: the comparison is always a regex match. */
  function JoinConditionAsWritten(tc: TableMap, t: JoinTerm): string {
    Connective(t.comb) + JoinTable(tc, t.column) + "." + ColumnName(t.column) + " REGEXP ?"
  }

  /** A joined term's condition: a regex match for `:`, an equality for `=`. */
  function JoinCondition(tc: TableMap, t: JoinTerm): string {
    Connective(t.comb) + JoinTable(tc, t.column) + "." + ColumnName(t.column) + Comparison(t.op == Regex)
  }

  function JoinConditions(tc: TableMap, ts: seq<JoinTerm>): (r: seq<string>)
    ensures |r| == |ts| && forall i :: 0 <= i < |ts| ==> r[i] == JoinCondition(tc, ts[i])
  {
    seq(|ts|, i requires 0 <= i < |ts| => JoinCondition(tc, ts[i]))
  }

  function JoinValues(ts: seq<JoinTerm>): (r: seq<string>)
    ensures |r| == |ts| && forall i :: 0 <= i < |ts| ==> r[i] == ts[i].value
  {
    seq(|ts|, i requires 0 <= i < |ts| => ts[i].value)
  }

  lemma JoinListsNext(tc: TableMap, ts: seq<JoinTerm>, t: JoinTerm)
    ensures JoinConditions(tc, ts + [t]) == JoinConditions(tc, ts) + [JoinCondition(tc, t)]
    ensures JoinValues(ts + [t]) == JoinValues(ts) + [t.value]
  {
  }

  lemma CondTermsNext(terms: seq<Term>, k: nat)
    requires k < |terms|
    ensures CondTerms(terms[..k + 1]) ==
              if terms[k].Bare? then CondTerms(terms[..k])
              else CondTerms(terms[..k]) + [JoinTerm(terms[k].comb, Some(terms[k].column), terms[k].op, terms[k].value)]
  {
    assert terms[..k + 1][..k] == terms[..k];
  }

  /** The conditions and values of a joined clause, term by term, skipping bare combinators. */
  method JoinClauseTerms(tc: TableMap, pre: Prefix, value: string, terms: seq<Term>)
    returns (conditions: seq<string>, values: seq<string>)
    ensures conditions == JoinConditions(tc, JoinTerms(pre, value, terms))
    ensures values == JoinValues(JoinTerms(pre, value, terms))
  {
    var first := JoinTerm(And, pre.column, pre.op, value);
    conditions := [JoinCondition(tc, first)];
    values := [value];
    assert [first] + CondTerms(terms[..0]) == [first];
    var k := 0;
    while k < |terms|
      invariant 0 <= k <= |terms|
      invariant conditions == JoinConditions(tc, [first] + CondTerms(terms[..k]))
      invariant values == JoinValues([first] + CondTerms(terms[..k]))
    {
      CondTermsNext(terms, k);
      if terms[k].Cond? {
        var t := JoinTerm(terms[k].comb, Some(terms[k].column), terms[k].op, terms[k].value);
        JoinListsNext(tc, [first] + CondTerms(terms[..k]), t);
        assert [first] + CondTerms(terms[..k + 1]) == [first] + CondTerms(terms[..k]) + [t];
        var table := FindTable(tc, terms[k].column);
        conditions := conditions + [Connective(t.comb) + table + "." + t.column.value + Comparison(t.op == Regex)];
        values := values + [t.value];
      }
      k := k + 1;
    }
    assert terms[..k] == terms;
  }

  /** The last entry with a clause for group `g` joined onto it. */
  function Merged(last: Entry, g: Group, path: seq<JoinStep>, conditions: seq<string>, values: seq<string>): Entry {
    Entry(last.groups + [g], Joined(last.sql, g, path, conditions), last.params + values,
          last.specs + [DefaultReturns(g)])
  }

  // ---------------------------------------------------------------- the whole input

  /** The entries so far, and whether the next clause with a known group joins onto the last one. */
  datatype State = State(entries: seq<Entry>, chain: bool)

  function FanOutStep(s: State, p: Parsed): Result<State> {
    match FanOut(p)
    case Err(e) => Err(e)
    case Ok(added) => Ok(State(s.entries + added, s.chain || EndsWithAnd(p.terms)))
  }

  function ChainStep(s: State, g: Group, pre: Prefix, p: Parsed): Result<State> {
    if |s.entries| == 0 then Err(IndexError)
    else
      var last := s.entries[|s.entries| - 1];
      match FromOf(last.sql)
      case None => Err(ValueError)
      case Some(from) =>
        match JoinPath(from, g)
        case None => Err(KeyError)
        case Some(path) =>
          var ts := JoinTerms(pre, p.clause.value, p.terms);
          var joined := Merged(last, g, path, JoinConditions(TableColumns(g), ts), JoinValues(ts));
          Ok(State(s.entries[..|s.entries| - 1] + [joined], EndsWithAnd(p.terms)))
  }

  /** What one parsed clause does to the entries. */
  function Next(s: State, p: Parsed): Result<State> {
    match p.clause.prefix
    case None => FanOutStep(s, p)
    case Some(pre) =>
      match GroupNamed(pre.group)
      case None => FanOutStep(s, p)
      case Some(g) =>
        if s.chain then ChainStep(s, g, pre, p)
        else Ok(State(s.entries + [NamedEntry(g, p)], EndsWithAnd(p.terms)))
  }

  /** The clauses in order; the first failure ends the walk. */
  function Run(ps: seq<Parsed>): Result<State> {
    if |ps| == 0 then Ok(State([], false))
    else
      match Run(ps[..|ps| - 1])
      case Err(e) => Err(e)
      case Ok(s) => Next(s, ps[|ps| - 1])
  }

  /** `get_sql_query_from_user_input`. */
  function Compile(input: string, ms: seq<Match<Option<ClauseMatch>>>): Result<seq<Entry>> {
    match Parse(input, ms)
    case None => if input == "" then Ok([EmptySearchEntry()]) else Ok([UnparsedEntry()])
    case Some(ps) =>
      match Run(ps)
      case Err(e) => Err(e)
      case Ok(s) => Ok(s.entries)
  }

  /** A failure stays a failure whatever clauses follow. */
  lemma {:induction false} RunFailureSticks(ps: seq<Parsed>, i: nat)
    requires i < |ps| && Run(ps[..i + 1]).Err?
    ensures Run(ps) == Run(ps[..i + 1])
  {
    if i + 1 < |ps| {
      assert ps[..|ps| - 1][..i + 1] == ps[..i + 1];
      RunFailureSticks(ps[..|ps| - 1], i);
    } else {
      assert ps[..i + 1] == ps;
    }
  }

  method ClauseStep(s: State, p: Parsed) returns (r: Result<State>)
    ensures r == Next(s, p)
  {
    var chain := |p.terms| > 0 && p.terms[|p.terms| - 1] == Bare(And);
    var target := if p.clause.prefix.Some? then GroupNamed(p.clause.prefix.value.group) else None;
    if target.None? {
      var added := FanOutClause(p);
      if added.Err? {
        return Err(added.error);
      }
      return Ok(State(s.entries + added.value, s.chain || chain));
    }
    var g := target.value;
    var pre := p.clause.prefix.value;
    if !s.chain {
      var e := ClauseEntry(g, p, NamedReturns(p.clause, g));
      return Ok(State(s.entries + [e], chain));
    }
    r := JoinClause(s, g, pre, p);
  }

  method JoinClause(s: State, g: Group, pre: Prefix, p: Parsed) returns (r: Result<State>)
    ensures r == ChainStep(s, g, pre, p)
  {
    var conditions, values := JoinClauseTerms(TableColumns(g), pre, p.clause.value, p.terms);
    if |s.entries| == 0 {
      return Err(IndexError);
    }
    var last := s.entries[|s.entries| - 1];
    var from := FromOf(last.sql);
    if from.None? {
      return Err(ValueError);
    }
    var path := JoinPath(from.value, g);
    if path.None? {
      return Err(KeyError);
    }
    var joined := Entry(last.groups + [g], Joined(last.sql, g, path.value, conditions), last.params + values,
                        last.specs + [DefaultReturns(g)]);
    r := Ok(State(s.entries[..|s.entries| - 1] + [joined], EndsWithAnd(p.terms)));
  }

  method GetSqlQuery(input: string, ms: seq<Match<Option<ClauseMatch>>>) returns (r: Result<seq<Entry>>)
    ensures r == Compile(input, ms)
  {
    var parsed := ParseUserInput(input, ms);
    if parsed.None? {
      if input == "" {
        return Ok([EmptySearchEntry()]);
      }
      return Ok([UnparsedEntry()]);
    }
    var ps := parsed.value;
    var entries: seq<Entry> := [];
    var concatenate := false;
    var i := 0;
    while i < |ps|
      invariant 0 <= i <= |ps|
      invariant Run(ps[..i]) == Ok(State(entries, concatenate))
    {
      assert ps[..i + 1][..i] == ps[..i];
      var next := ClauseStep(State(entries, concatenate), ps[i]);
      if next.Err? {
        RunFailureSticks(ps, i);
        return Err(next.error);
      }
      entries, concatenate := next.value.entries, next.value.chain;
      i := i + 1;
    }
    assert ps[..i] == ps;
    r := Ok(entries);
  }

  // ---------------------------------------------------------------- one group only

  /** A search with one statement: its text, parameters and return spec. */
  type Search = (string, seq<string>, seq<string>)

  /** The answer for input that is rejected: no statement, no parameters, no return spec. */
  const NoSearch: Search := ("", [], [])

  /** The one clause of a restricted search, compiled for group `r`. */
  function RestrictedSearch(r: Group, p: Parsed): Search {
    var q := ClauseStatement(r, p);
    (q.0, q.1, NamedReturns(p.clause, r))
  }

  /**
   * `get_sql_query_from_user_input_restricted`: the input must be a single
   * clause for group `r` or for no group; an unknown group name fails.
   */
  function CompileRestricted(input: string, ms: seq<Match<Option<ClauseMatch>>>, r: Group): Result<Search> {
    match Parse(input, ms)
    case None => if input == "" then Ok(("SELECT nb FROM " + MainTable(r), [], DefaultReturns(r))) else Ok(NoSearch)
    case Some(ps) =>
      if |ps| > 1 then Ok(NoSearch)
      else if |ps| == 0 then Err(IndexError)
      else
        match ps[0].clause.prefix
        case None => Ok(RestrictedSearch(r, ps[0]))
        case Some(pre) =>
          match GroupNamed(pre.group)
          case None => Err(KeyError)
          case Some(h) => if h == r then Ok(RestrictedSearch(r, ps[0])) else Ok(NoSearch)
  }
}

=== FILE: query_parse.dfy ===
/**
 * The search box grammar, downstream of the regular-expression engine.
 *
 * The engine itself is not modelled: every `finditer` result is an input,
 * a sequence of `Match` records (start, end, captured groups). What is
 * modelled is everything the search engine does with those records: the
 * check that the matches consume the whole input, and the assembly of the
 * parsed clauses with their sub-terms.
 */
module QueryParse {
  import opened Wrappers

  /** The match operator: `:` asks for a regular-expression match, `=` for equality. */
  datatype Op = Regex | Exact

  /** The combinator in front of a sub-term or at the end of a clause: `&` or `|`. */
  datatype Comb = And | Or

  /**
   * One match of the sub-term grammar: either `comb {column} op value`, or
   * a bare combinator with nothing after it (the fifth regex group).
   */
  datatype Term =
    | Cond(comb: Comb, column: string, op: Op, value: string)
    | Bare(comb: Comb)

  /** The optional head of a clause: `group[returns]{column}op`. */
  datatype Prefix = Prefix(group: string, ret: Option<string>, column: Option<string>, op: Op)

  /** One top-level clause without its sub-terms: the optional head and the value. */
  datatype Clause = Clause(prefix: Option<Prefix>, value: string)

  /** One result of `finditer`: the span and the captured groups. */
  datatype Match<G> = Match(start: int, end: int, groups: G)

  /**
   * The groups of re-matching one main match's text: the clause, the text of
   * its trailing sub-term section, and `finditer`'s matches on that text.
   */
  datatype ClauseMatch = ClauseMatch(clause: Clause, sub: string, terms: seq<Match<Term>>)

  /** A parsed clause: its head and value, and its sub-terms in order. */
  datatype Parsed = Parsed(clause: Clause, terms: seq<Term>)

  /** The matches, starting at `pos`, follow each other without gaps and end at `n`. */
  predicate ContiguousFrom<G>(ms: seq<Match<G>>, pos: int, n: int) {
    if |ms| == 0 then pos == n
    else ms[0].start == pos && ContiguousFrom(ms[1..], ms[0].end, n)
  }

  /** Each match starts where the previous one ended. */
  ghost predicate Linked<G>(ms: seq<Match<G>>) {
    forall i :: 0 < i < |ms| ==> ms[i - 1].end == ms[i].start
  }

  /** The recursive check agrees with the direct description of a gap-free tiling. */
  lemma {:induction false} ContiguousIffTiling<G>(ms: seq<Match<G>>, pos: int, n: int)
    ensures ContiguousFrom(ms, pos, n) <==>
              if |ms| == 0 then pos == n
              else ms[0].start == pos && Linked(ms) && ms[|ms| - 1].end == n
  {
    if |ms| > 0 {
      ContiguousIffTiling(ms[1..], ms[0].end, n);
      if |ms| > 1 && Linked(ms[1..]) && ms[0].end == ms[1].start {
        assert Linked(ms) by {
          forall i | 0 < i < |ms| ensures ms[i - 1].end == ms[i].start {
            if i > 1 {
              assert ms[1..][i - 2] == ms[i - 1] && ms[1..][i - 1] == ms[i];
            }
          }
        }
      }
      if Linked(ms) {
        assert Linked(ms[1..]) by {
          forall i | 0 < i < |ms[1..]| ensures ms[1..][i - 1].end == ms[1..][i].start {
            assert ms[1..][i - 1] == ms[i] && ms[1..][i] == ms[i + 1];
          }
        }
      }
    }
  }

  /** `_check_consumed_string`'s verdict: at least one match, and no gap up to the end. */
  predicate ConsumedString<G>(input: string, ms: seq<Match<G>>) {
    |ms| > 0 && ContiguousFrom(ms, 0, |input|)
  }

  /** `_check_consumed_substring`'s verdict: no gap up to the end, so no match only for "". */
  predicate ConsumedSubstring<G>(input: string, ms: seq<Match<G>>) {
    if |ms| == 0 then input == "" else ContiguousFrom(ms, 0, |input|)
  }

  function GroupsOf<G>(ms: seq<Match<G>>): (gs: seq<G>)
    ensures |gs| == |ms| && forall i :: 0 <= i < |ms| ==> gs[i] == ms[i].groups
  {
    seq(|ms|, i requires 0 <= i < |ms| => ms[i].groups)
  }

  /** The walk shared by both consumption checks: follow the spans from 0 while they touch. */
  method SpansConsumed<G>(n: int, ms: seq<Match<G>>) returns (consumed: bool)
    ensures consumed == ContiguousFrom(ms, 0, n)
  {
    var lastEnd := 0;
    var i := 0;
    while i < |ms|
      invariant 0 <= i <= |ms|
      invariant ContiguousFrom(ms, 0, n) == ContiguousFrom(ms[i..], lastEnd, n)
    {
      assert ms[i..][1..] == ms[i + 1..];
      if ms[i].start != lastEnd {
        return false;
      }
      lastEnd := ms[i].end;
      i := i + 1;
    }
    consumed := lastEnd == n;
  }

  /** Whether the main matches consume the whole input; no match at all is a failure. */
  method CheckConsumedString<G>(input: string, ms: seq<Match<G>>) returns (all: seq<G>, consumed: bool)
    ensures all == GroupsOf(ms)
    ensures consumed == ConsumedString(input, ms)
    ensures |ms| == 0 ==> !consumed
  {
    all := GroupsOf(ms);
    if |ms| == 0 {
      return all, false;
    }
    consumed := SpansConsumed(|input|, ms);
  }

  /** Whether the sub-term matches consume a clause's sub-term text; "" needs no match. */
  method CheckConsumedSubstring<G>(input: string, ms: seq<Match<G>>) returns (all: seq<G>, consumed: bool)
    ensures all == GroupsOf(ms)
    ensures consumed == ConsumedSubstring(input, ms)
    ensures |ms| == 0 ==> (consumed <==> input == "")
  {
    all := GroupsOf(ms);
    if |ms| == 0 && input == "" {
      return all, true;
    } else if |ms| == 0 {
      return all, false;
    }
    consumed := SpansConsumed(|input|, ms);
  }

  /** A sub-term section of at most three characters holding `|` has no sub-terms. */
  predicate ShortPipe(sub: string) {
    |sub| <= 3 && '|' in sub
  }

  /** What one main match contributes: nothing, a rejection of the whole input, or a clause. */
  datatype Step = Skip | Reject | Keep(p: Parsed)

  function ParseClause(m: Option<ClauseMatch>): Step {
    match m
    case None => Skip
    case Some(cm) =>
      if ShortPipe(cm.sub) then Keep(Parsed(cm.clause, []))
      else if ConsumedSubstring(cm.sub, cm.terms) then Keep(Parsed(cm.clause, GroupsOf(cm.terms)))
      else Reject
  }

  /** The clauses of the main matches in order; `None` as soon as one is rejected. */
  function ParseClauses(gs: seq<Option<ClauseMatch>>): Option<seq<Parsed>> {
    if |gs| == 0 then Some([])
    else
      match ParseClauses(gs[..|gs| - 1])
      case None => None
      case Some(ps) =>
        match ParseClause(gs[|gs| - 1])
        case Skip => Some(ps)
        case Reject => None
        case Keep(p) => Some(ps + [p])
  }

  /** `_parse_user_input`: the parsed clauses, or `None` when the input is not fully consumed. */
  function Parse(input: string, ms: seq<Match<Option<ClauseMatch>>>): Option<seq<Parsed>> {
    if !ConsumedString(input, ms) then None else ParseClauses(GroupsOf(ms))
  }

  method ParseUserInput(input: string, ms: seq<Match<Option<ClauseMatch>>>)
    returns (r: Option<seq<Parsed>>)
    ensures r == Parse(input, ms)
  {
    var mainMatches, consumed := CheckConsumedString(input, ms);
    if !consumed {
      return None;
    }
    var parsed: seq<Parsed> := [];
    var i := 0;
    while i < |mainMatches|
      invariant 0 <= i <= |mainMatches|
      invariant ParseClauses(mainMatches[..i]) == Some(parsed)
    {
      assert mainMatches[..i + 1][..i] == mainMatches[..i];
      match mainMatches[i] {
        case None =>
        case Some(cm) =>
          var terms: seq<Term>;
          if !ShortPipe(cm.sub) {
            var found, subConsumed := CheckConsumedSubstring(cm.sub, cm.terms);
            if !subConsumed {
              ParseClausesRejects(mainMatches, i);
              return None;
            }
            terms := found;
          } else {
            terms := [];
          }
          parsed := parsed + [Parsed(cm.clause, terms)];
      }
      i := i + 1;
    }
    assert mainMatches[..i] == mainMatches;
    r := Some(parsed);
  }

  /** One rejected clause rejects the whole input, whatever follows it. */
  lemma {:induction false} ParseClausesRejects(gs: seq<Option<ClauseMatch>>, i: nat)
    requires i < |gs| && ParseClause(gs[i]) == Reject
    ensures ParseClauses(gs) == None
  {
    if i < |gs| - 1 {
      assert gs[..|gs| - 1][i] == gs[i];
      ParseClausesRejects(gs[..|gs| - 1], i);
    }
  }

  /** Clauses are accepted exactly when none of them is rejected. */
  lemma {:induction false} ParseClausesAccepts(gs: seq<Option<ClauseMatch>>)
    ensures ParseClauses(gs).Some? <==> forall i :: 0 <= i < |gs| ==> ParseClause(gs[i]) != Reject
  {
    if |gs| > 0 {
      var init := gs[..|gs| - 1];
      ParseClausesAccepts(init);
      if ParseClause(gs[|gs| - 1]) == Reject {
        ParseClausesRejects(gs, |gs| - 1);
      }
      assert forall i :: 0 <= i < |init| ==> init[i] == gs[i];
    }
  }

  /**
   * The input parses exactly when the main matches consume all of it and
   * every clause's sub-term text is either a short `|` section or consumed
   * by its own sub-term matches.
   */
  lemma ParseSucceedsIff(input: string, ms: seq<Match<Option<ClauseMatch>>>)
    ensures Parse(input, ms).Some? <==>
              && ConsumedString(input, ms)
              && forall i :: 0 <= i < |ms| ==> ParseClause(ms[i].groups) != Reject
  {
    ParseClausesAccepts(GroupsOf(ms));
  }

  /** No main match at all, as for the empty input, never parses. */
  lemma ParseNeedsMatches(input: string, ms: seq<Match<Option<ClauseMatch>>>)
    requires |ms| == 0
    ensures Parse(input, ms) == None
  {
  }

  /** A main match whose text does not re-match adds nothing; a short `|` section adds a clause without sub-terms. */
  lemma {:induction false} ParseClausesKept(gs: seq<Option<ClauseMatch>>)
    requires ParseClauses(gs).Some?
    ensures |ParseClauses(gs).value| == |set i | 0 <= i < |gs| && gs[i].Some?|
    ensures forall i :: 0 <= i < |gs| && gs[i].Some? && ShortPipe(gs[i].value.sub) ==>
              Parsed(gs[i].value.clause, []) in ParseClauses(gs).value
  {
    if |gs| > 0 {
      var init := gs[..|gs| - 1];
      ParseClausesKept(init);
      var s := set i | 0 <= i < |init| && init[i].Some?;
      var t := set i | 0 <= i < |gs| && gs[i].Some?;
      assert forall i :: 0 <= i < |init| ==> init[i] == gs[i];
      if gs[|gs| - 1].Some? {
        assert t == s + {|gs| - 1};
      } else {
        assert t == s;
      }
    }
  }
}

=== FILE: records.dfy ===
/**
 * The record objects `Document`, `Case` and `Person`: a snapshot of a row's
 * attributes, refreshed from the database and written back through the
 * `update_*` methods, with an edit mode that must be engaged before any
 * attribute changes. The three classes differ only in their table, their
 * initial snapshot and the keys they leave out when writing back, so one
 * class parameterised by the record's kind models them.
 */
module Records {
  import opened Wrappers
  import opened Text
  import opened Values
  import opened DbUpdates
  import DbReads

  // The snapshot

  /** The attributes a record starts with, in order, each with its placeholder value. */
  function InitialSnapshot(kind: Kind): seq<(string, Value)> {
    match kind
    case DocumentKind =>
      [("name", Str("")), ("description", Str("")), ("notes", List([Str("")])), ("path", Str("")),
       ("cases", List([]))]
    case CaseKind =>
      [("name", Str("")), ("description", Str("")), ("notes", List([Str("")])), ("persons", List([])),
       ("documents", List([]))]
    case PersonKind =>
      [("first_name", Str("")), ("last_name", Str("")), ("address", Str("")), ("birth_date", Str("")),
       ("contact_info", Str("")), ("gender", Str("")), ("description", Str("")), ("notes", List([])),
       ("can_be_lawyer", Int(0)), ("cases", List([]))]
  }

  /** The keys `finalize_edit` deletes from the copy it writes back. */
  function Excludes(kind: Kind): seq<string> {
    if kind == CaseKind then [] else ["cases"]
  }

  function KeysOf(ps: seq<(string, Value)>): (ks: seq<string>)
    ensures |ks| == |ps| && forall i :: 0 <= i < |ps| ==> ks[i] == ps[i].0
  {
    seq(|ps|, i requires 0 <= i < |ps| => ps[i].0)
  }

  predicate Distinct(ks: seq<string>) {
    forall i, j :: 0 <= i < j < |ks| ==> ks[i] != ks[j]
  }

  /** The keys of a dictionary in insertion order, and its entries. */
  predicate Snapshot(keys: seq<string>, values: map<string, Value>) {
    Distinct(keys) && (forall k :: k in values ==> k in keys) && (forall k :: k in keys ==> k in values)
  }

  lemma InitialDistinct(kind: Kind)
    ensures Distinct(KeysOf(InitialSnapshot(kind)))
  {
    var ks := KeysOf(InitialSnapshot(kind));
    forall i, j | 0 <= i < j < |ks|
      ensures ks[i] != ks[j]
    {
      assert ks[i][..2] != ks[j][..2] || ks[i][2..] != ks[j][2..];
    }
  }

  /** The dictionary built from distinct keys paired with their values. */
  function MapOf(ps: seq<(string, Value)>): (m: map<string, Value>)
    requires Distinct(KeysOf(ps))
    ensures forall k :: k in m <==> k in KeysOf(ps)
    ensures forall i :: 0 <= i < |ps| ==> ps[i].0 in m && m[ps[i].0] == ps[i].1
  {
    var ks := KeysOf(ps);
    var m := map i | 0 <= i < |ps| :: ps[i].0 := ps[i].1;
    assert forall k :: k in ks ==> k in m by {
      forall k | k in ks ensures k in m {
        var i :| 0 <= i < |ks| && ks[i] == k;
        assert ps[i].0 in m;
      }
    }
    m
  }

  /** The entries of a dictionary in insertion order. */
  function Items(keys: seq<string>, values: map<string, Value>): (ps: seq<(string, Value)>)
    requires forall i :: 0 <= i < |keys| ==> keys[i] in values
    ensures |ps| == |keys| && forall i :: 0 <= i < |keys| ==> ps[i] == (keys[i], values[keys[i]])
  {
    seq(|keys|, i requires 0 <= i < |keys| => (keys[i], values[keys[i]]))
  }

  // update

  /**
   * `v[0] if len(v) == 1 else v`, as `update` applies it to every fetched
   * value: `len` fails on a number or `None`, and a one-character string is
   * its own first item.
   */
  function UnwrapAsWritten(v: Value): Result<Value> {
    match v
    case List(items) => Ok(if |items| == 1 then items[0] else v)
    case Str(_) => Ok(v)
    case _ => Err(TypeError)
  }

  /** The unwrapping the rest of the model uses: the persons of a case stay a tuple of `(person, lawyer, side)` triples. */
  function Unwrap(kind: Kind, key: string, v: Value): (r: Result<Value>)
    ensures kind == CaseKind && key == "persons" ==> r == Ok(v)
    ensures !(kind == CaseKind && key == "persons") ==> r == UnwrapAsWritten(v)
  {
    if kind == CaseKind && key == "persons" then Ok(v) else UnwrapAsWritten(v)
  }

  /** The `get_*` method of the record's kind, asked for the given keys. */
  function Fetch(kind: Kind, read: DbReads.Reader, nb: int, keys: seq<string>): Result<seq<Value>> {
    match kind
    case PersonKind => DbReads.GetPersons(read, nb, keys)
    case CaseKind => DbReads.GetCases(read, nb, keys)
    case DocumentKind => DbReads.GetDocuments(read, nb, keys)
  }

  function Min(a: nat, b: nat): nat {
    if a <= b then a else b
  }

  /** The first `n` keys, each mapped to its unwrapped value. */
  function UnwrappedMap(kind: Kind, keys: seq<string>, vals: seq<Value>, n: nat): (m: map<string, Value>)
    requires Distinct(keys) && n <= |keys| && n <= |vals|
    requires forall i :: 0 <= i < n ==> Unwrap(kind, keys[i], vals[i]).Ok?
    ensures forall k :: k in m <==> k in keys[..n]
    ensures forall i :: 0 <= i < n ==> Unwrap(kind, keys[i], vals[i]) == Ok(m[keys[i]])
  {
    var m := map i | 0 <= i < n :: keys[i] := Unwrap(kind, keys[i], vals[i]).value;
    assert forall k :: k in keys[..n] ==> k in m by {
      forall k | k in keys[..n] ensures k in m {
        var i :| 0 <= i < n && keys[..n][i] == k;
        assert keys[i] in m;
      }
    }
    m
  }

  /**
   * The snapshot `update` builds from the values fetched for its keys: the
   * keys paired with the values in order as far as both go, each value
   * unwrapped; `TypeError` when a value cannot be.
   */
  function Refreshed(kind: Kind, keys: seq<string>, vals: seq<Value>): (r: Result<(seq<string>, map<string, Value>)>)
    requires Distinct(keys)
    ensures r.Ok? <==> forall i :: 0 <= i < Min(|keys|, |vals|) ==> Unwrap(kind, keys[i], vals[i]).Ok?
    ensures r.Err? ==> r.error == TypeError
    ensures r.Ok? ==> r.value.0 == keys[..Min(|keys|, |vals|)] && Snapshot(r.value.0, r.value.1)
    ensures r.Ok? ==> forall i :: 0 <= i < |r.value.0| ==> Unwrap(kind, keys[i], vals[i]) == Ok(r.value.1[keys[i]])
  {
    var n := Min(|keys|, |vals|);
    if forall i :: 0 <= i < n ==> Unwrap(kind, keys[i], vals[i]).Ok? then
      Ok((keys[..n], UnwrappedMap(kind, keys, vals, n)))
    else Err(TypeError)
  }

  /** What `update` makes of the snapshot: the exception of the `get_*` method, or the refreshed snapshot. */
  function RefreshPlan(kind: Kind, read: DbReads.Reader, nb: int, keys: seq<string>): Result<(seq<string>, map<string, Value>)>
    requires Distinct(keys)
  {
    match Fetch(kind, read, nb, keys)
    case Err(e) => Err(e)
    case Ok(vals) => Refreshed(kind, keys, vals)
  }

  // finalize_edit

  /** The keys not in `excl`, in order: what is left of an ordered dictionary's keys after deleting those in `excl`. */
  function Filter(keys: seq<string>, excl: seq<string>): seq<string> {
    if keys == [] then []
    else
      var last := keys[|keys| - 1];
      Filter(keys[..|keys| - 1], excl) + (if last in excl then [] else [last])
  }

  /** Deleting the keys of `excl` one after another, as the `for exc in self._excludes` loop does; a missing key raises `KeyError`. */
  function Exclude(keys: seq<string>, values: map<string, Value>, excl: seq<string>): (r: Result<(seq<string>, map<string, Value>)>)
    ensures r.Err? ==> r.error == KeyError
    decreases |excl|
  {
    if excl == [] then Ok((keys, values))
    else if excl[0] !in values then Err(KeyError)
    else Exclude(Filter(keys, [excl[0]]), values - {excl[0]}, excl[1..])
  }

  /** `'\n'.join(notes)`: every item must be a string, and the items of a string are its characters. */
  function JoinNotesAsWritten(v: Value): (r: Result<Value>)
    ensures r.Err? ==> r.error == TypeError
    ensures r.Ok? ==> r.value.Str?
  {
    match Iterate(v)
    case None => Err(TypeError)
    case Some(items) =>
      if forall i :: 0 <= i < |items| ==> items[i].Str? then Ok(Str(Join("\n", Texts(items))))
      else Err(TypeError)
  }

  /** The texts of a list of strings. */
  function Texts(items: seq<Value>): (texts: seq<string>)
    requires forall i :: 0 <= i < |items| ==> items[i].Str?
    ensures |texts| == |items| && forall i :: 0 <= i < |items| ==> texts[i] == items[i].s
  {
    seq(|items|, i requires 0 <= i < |items| => items[i].s)
  }

  /** The join the rest of the model uses: notes already held as one text are written back unchanged. */
  function JoinNotes(v: Value): (r: Result<Value>)
    ensures v.Str? ==> r == Ok(v)
    ensures !v.Str? ==> r == JoinNotesAsWritten(v)
  {
    if v.Str? then Ok(v) else JoinNotesAsWritten(v)
  }

  /**
   * The keyword arguments `finalize_edit` passes to the `update_*` method: a
   * copy of the snapshot without the excluded keys, with the notes joined
   * into one text.
   */
  function Shipped(kind: Kind, keys: seq<string>, values: map<string, Value>): (r: Result<seq<(string, Value)>>)
    requires Snapshot(keys, values)
    ensures r.Err? ==> r.error == KeyError || r.error == TypeError
  {
    match Exclude(keys, values, Excludes(kind))
    case Err(e) => Err(e)
    case Ok(copy) =>
      if "notes" !in copy.1 then Err(KeyError)
      else
        match JoinNotes(copy.1["notes"])
        case Err(e) => Err(e)
        case Ok(notes) =>
          var written := copy.1["notes" := notes];
          if forall i :: 0 <= i < |copy.0| ==> copy.0[i] in written then Ok(Items(copy.0, written))
          else Err(KeyError)
  }

  /** The statements `finalize_edit` has executed, and the exception it raised, if any. */
  function Finalized(kind: Kind, nb: int, keys: seq<string>, values: map<string, Value>): Outcome
    requires Snapshot(keys, values)
  {
    match Shipped(kind, keys, values)
    case Err(e) => Outcome([], Some(e))
    case Ok(args) => UpdatePlan(kind, nb, args)
  }

  // can_be_lawyer

  /** The stored form of the `can_be_lawyer` flag. */
  function LawyerFlag(b: bool): Value {
    Int(if b then 1 else 0)
  }

  /** The flag as the getter reads it back. */
  predicate IsLawyer(v: Value) {
    v == Int(1)
  }

  /** A record: its number, its kind, the snapshot of its attributes and the two edit flags. */
  class Record {
    const nb: int
    const kind: Kind
    var keys: seq<string>
    var values: map<string, Value>
    var editMode: bool
    var lockAcquired: bool

    predicate Valid()
      reads this
    {
      Snapshot(keys, values)
    }

    constructor (nb: int, kind: Kind)
      ensures this.nb == nb && this.kind == kind
      ensures Valid() && !editMode && !lockAcquired
      ensures keys == KeysOf(InitialSnapshot(kind))
      ensures forall i :: 0 <= i < |InitialSnapshot(kind)| ==> values[keys[i]] == InitialSnapshot(kind)[i].1
    {
      var init := InitialSnapshot(kind);
      InitialDistinct(kind);
      this.nb := nb;
      this.kind := kind;
      keys := KeysOf(init);
      values := MapOf(init);
      editMode := false;
      lockAcquired := false;
    }

    /** `_edit_value(key, value)`: refused outside edit mode; otherwise sets that one key and nothing else. */
    method EditValue(key: string, value: Value) returns (err: Option<Error>)
      requires Valid()
      modifies this
      ensures Valid()
      ensures err == if old(editMode) then None else Some(ValueError)
      ensures old(editMode) ==> values == old(values)[key := value] &&
                                keys == if key in old(values) then old(keys) else old(keys) + [key]
      ensures !old(editMode) ==> values == old(values) && keys == old(keys)
      ensures editMode == old(editMode) && lockAcquired == old(lockAcquired)
    {
      if !editMode {
        return Some(ValueError);
      }
      if key !in values {
        keys := keys + [key];
      }
      values := values[key := value];
      return None;
    }

    /** `update`: rebuilds the snapshot from the values the `get_*` method returns for its keys. */
    method Refresh(read: DbReads.Reader) returns (err: Option<Error>)
      requires Valid()
      modifies this
      ensures Valid()
      ensures var plan := RefreshPlan(kind, read, nb, old(keys));
              (plan.Err? ==> err == Some(plan.error) && keys == old(keys) && values == old(values)) &&
              (plan.Ok? ==> err == None && keys == plan.value.0 && values == plan.value.1)
      ensures editMode == old(editMode) && lockAcquired == old(lockAcquired)
    {
      var fetched: Result<seq<Value>>;
      match kind {
        case PersonKind => fetched := DbReads.FetchPersons(read, nb, keys);
        case CaseKind => fetched := DbReads.FetchCases(read, nb, keys);
        case DocumentKind => fetched := DbReads.FetchDocuments(read, nb, keys);
      }
      if fetched.Err? {
        return Some(fetched.error);
      }
      var snapshot := Refreshed(kind, keys, fetched.value);
      if snapshot.Err? {
        return Some(snapshot.error);
      }
      keys, values := snapshot.value.0, snapshot.value.1;
      return None;
    }

    /**
     * `_get_value(key)`: the stored value, after refreshing the snapshot when
     * the stored value is the empty string; `KeyError` for a key the
     * snapshot lacks.
     */
    method GetValue(key: string, read: DbReads.Reader) returns (r: Result<Value>)
      requires Valid()
      modifies this
      ensures Valid()
      ensures key !in old(values) ==> r == Err(KeyError) && keys == old(keys) && values == old(values)
      ensures key in old(values) && old(values)[key] != Str("") ==>
                r == Ok(old(values)[key]) && keys == old(keys) && values == old(values)
      ensures key in old(values) && old(values)[key] == Str("") ==>
                var plan := RefreshPlan(kind, read, nb, old(keys));
                (plan.Err? ==> r == Err(plan.error) && keys == old(keys) && values == old(values)) &&
                (plan.Ok? ==> keys == plan.value.0 && values == plan.value.1 &&
                              r == if key in values then Ok(values[key]) else Err(KeyError))
      ensures editMode == old(editMode) && lockAcquired == old(lockAcquired)
    {
      if key !in values {
        return Err(KeyError);
      }
      if values[key] == Str("") {
        var err := Refresh(read);
        if err.Some? {
          return Err(err.value);
        }
        if key !in values {
          return Err(KeyError);
        }
      }
      return Ok(values[key]);
    }

    /** `_callback`: the edit lock manager reports the lock as acquired. */
    method Callback()
      modifies this
      ensures lockAcquired
      ensures editMode == old(editMode) && keys == old(keys) && values == old(values)
    {
      lockAcquired := true;
    }

    /**
     * `edit`: engages edit mode, then asks for the row's edit lock and waits
     * until the lock manager calls back; the lock manager is modelled by
     * that call.
     */
    method Edit()
      modifies this
      ensures editMode && lockAcquired
      ensures keys == old(keys) && values == old(values)
    {
      editMode := true;
      Callback();
    }

    /**
     * `finalize_edit`: leaves edit mode, writes back a copy of the snapshot
     * without the excluded keys and with the notes joined, and clears the
     * lock flag unless an exception stopped it. The snapshot itself does not
     * change.
     */
    method FinalizeEdit() returns (o: Outcome)
      requires Valid()
      modifies this
      ensures Valid()
      ensures keys == old(keys) && values == old(values)
      ensures o == Finalized(kind, nb, keys, values)
      ensures !editMode
      ensures lockAcquired == (old(lockAcquired) && o.error.Some?)
    {
      editMode := false;
      var copyKeys, copyValues := keys, values;
      var excludes := Excludes(kind);
      for i := 0 to |excludes|
        invariant Exclude(keys, values, excludes) == Exclude(copyKeys, copyValues, excludes[i..])
      {
        var exc := excludes[i];
        assert excludes[i..][1..] == excludes[i + 1..];
        if exc !in copyValues {
          return Outcome([], Some(KeyError));
        }
        copyKeys := Filter(copyKeys, [exc]);
        copyValues := copyValues - {exc};
      }
      assert excludes[|excludes|..] == [];
      if "notes" !in copyValues {
        return Outcome([], Some(KeyError));
      }
      var notes := JoinNotes(copyValues["notes"]);
      if notes.Err? {
        return Outcome([], Some(notes.error));
      }
      copyValues := copyValues["notes" := notes.value];
      if exists i :: 0 <= i < |copyKeys| && copyKeys[i] !in copyValues {
        return Outcome([], Some(KeyError));
      }
      o := UpdateRecord(kind, nb, Items(copyKeys, copyValues));
      if o.error.None? {
        lockAcquired := false;
      }
    }

    /** The `can_be_lawyer` getter: whether the stored flag is 1. */
    method CanBeLawyer(read: DbReads.Reader) returns (r: Result<bool>)
      requires Valid()
      modifies this
      ensures Valid()
      ensures "can_be_lawyer" !in old(values) ==> r == Err(KeyError) && keys == old(keys) && values == old(values)
      ensures "can_be_lawyer" in old(values) && old(values)["can_be_lawyer"] != Str("") ==>
                r == Ok(IsLawyer(old(values)["can_be_lawyer"])) && keys == old(keys) && values == old(values)
      ensures "can_be_lawyer" in old(values) && old(values)["can_be_lawyer"] == Str("") ==>
                var plan := RefreshPlan(kind, read, nb, old(keys));
                (plan.Err? ==> r == Err(plan.error) && keys == old(keys) && values == old(values)) &&
                (plan.Ok? ==> keys == plan.value.0 && values == plan.value.1 &&
                              r == if "can_be_lawyer" in values then Ok(IsLawyer(values["can_be_lawyer"])) else Err(KeyError))
      ensures editMode == old(editMode) && lockAcquired == old(lockAcquired)
    {
      var v := GetValue("can_be_lawyer", read);
      if v.Err? {
        return Err(v.error);
      }
      return Ok(IsLawyer(v.value));
    }

    /** The `can_be_lawyer` setter: stores 1 for true and 0 for false, which the getter reads back unchanged. */
    method SetCanBeLawyer(value: bool) returns (err: Option<Error>)
      requires Valid()
      modifies this
      ensures Valid()
      ensures err == if old(editMode) then None else Some(ValueError)
      ensures old(editMode) ==> values == old(values)["can_be_lawyer" := LawyerFlag(value)] &&
                                keys == if "can_be_lawyer" in old(values) then old(keys) else old(keys) + ["can_be_lawyer"]
      ensures old(editMode) ==> values["can_be_lawyer"] != Str("") && IsLawyer(values["can_be_lawyer"]) == value
      ensures !old(editMode) ==> values == old(values) && keys == old(keys)
      ensures editMode == old(editMode) && lockAcquired == old(lockAcquired)
    {
      err := EditValue("can_be_lawyer", LawyerFlag(value));
    }
  }

  // Properties of finalize_edit

  /** The keys left are those not deleted. */
  lemma {:induction false} FilterMembers(keys: seq<string>, excl: seq<string>)
    ensures forall k :: k in Filter(keys, excl) <==> k in keys && k !in excl
  {
    if keys != [] {
      var init := keys[..|keys| - 1];
      FilterMembers(init, excl);
      assert keys == init + [keys[|keys| - 1]];
    }
  }

  lemma {:induction false} FilterDistinct(keys: seq<string>, excl: seq<string>)
    requires Distinct(keys)
    ensures Distinct(Filter(keys, excl))
  {
    if keys != [] {
      var init := keys[..|keys| - 1];
      var last := keys[|keys| - 1];
      FilterDistinct(init, excl);
      FilterMembers(init, excl);
      assert last !in init;
      assert last !in Filter(init, excl);
    }
  }

  /** Deleting the keys of `a` and then those of `b` leaves what deleting both at once does, in the same order. */
  lemma {:induction false} FilterTwice(keys: seq<string>, a: seq<string>, b: seq<string>)
    ensures Filter(Filter(keys, a), b) == Filter(keys, a + b)
  {
    if keys != [] {
      var init := keys[..|keys| - 1];
      var last := keys[|keys| - 1];
      FilterTwice(init, a, b);
      var f := Filter(init, a);
      assert last in a + b <==> last in a || last in b;
      if last !in a {
        assert Filter(keys, a) == f + [last];
        assert (f + [last])[..|f|] == f;
        assert Filter(f + [last], b) == Filter(f, b) + (if last in b then [] else [last]);
      } else {
        assert Filter(keys, a) == f;
      }
    }
  }

  /** Deleting one present key keeps the copy a well-formed dictionary. */
  lemma ExcludeOne(keys: seq<string>, values: map<string, Value>, e: string)
    requires Snapshot(keys, values) && e in values
    ensures Snapshot(Filter(keys, [e]), values - {e})
  {
    FilterDistinct(keys, [e]);
    FilterMembers(keys, [e]);
  }

  /** Deleting distinct keys that are all present succeeds. */
  lemma {:induction false} ExcludeSucceeds(keys: seq<string>, values: map<string, Value>, excl: seq<string>)
    requires Snapshot(keys, values)
    requires Distinct(excl) && forall j :: 0 <= j < |excl| ==> excl[j] in values
    ensures Exclude(keys, values, excl).Ok?
    decreases |excl|
  {
    if excl != [] {
      var e := excl[0];
      ExcludeOne(keys, values, e);
      forall j | 0 <= j < |excl[1..]|
        ensures excl[1..][j] in values - {e}
      {
        assert excl[1..][j] == excl[j + 1];
      }
      ExcludeSucceeds(Filter(keys, [e]), values - {e}, excl[1..]);
    }
  }

  /** Deleting keys leaves the other keys in their order, each with its value. */
  lemma {:induction false} ExcludeResult(keys: seq<string>, values: map<string, Value>, excl: seq<string>)
    requires Snapshot(keys, values) && Exclude(keys, values, excl).Ok?
    ensures var copy := Exclude(keys, values, excl).value;
            copy.0 == Filter(keys, excl) && Snapshot(copy.0, copy.1) &&
            forall k :: k in copy.1 ==> k in values && copy.1[k] == values[k]
    decreases |excl|
  {
    if excl == [] {
      FilterNone(keys);
    } else {
      var e := excl[0];
      ExcludeOne(keys, values, e);
      ExcludeResult(Filter(keys, [e]), values - {e}, excl[1..]);
      FilterTwice(keys, [e], excl[1..]);
      assert [e] + excl[1..] == excl;
    }
  }

  lemma {:induction false} FilterNone(keys: seq<string>)
    ensures Filter(keys, []) == keys
  {
    if keys != [] {
      FilterNone(keys[..|keys| - 1]);
    }
  }

  /**
   * `finalize_edit` fails only when an excluded key or the notes are
   * missing, or the notes cannot be joined.
   */
  lemma ShippedWhen(kind: Kind, keys: seq<string>, values: map<string, Value>)
    requires Snapshot(keys, values)
    ensures Shipped(kind, keys, values).Ok? <==>
              (forall j :: 0 <= j < |Excludes(kind)| ==> Excludes(kind)[j] in values) &&
              "notes" in values && JoinNotes(values["notes"]).Ok?
  {
    var excl := Excludes(kind);
    if (forall j :: 0 <= j < |excl| ==> excl[j] in values) && "notes" in values && JoinNotes(values["notes"]).Ok? {
      ShippedSucceeds(kind, keys, values);
    } else if !(forall j :: 0 <= j < |excl| ==> excl[j] in values) {
      ExcludeFails(keys, values, excl);
    } else {
      ExcludeSucceeds(keys, values, excl);
      ExcludeResult(keys, values, excl);
    }
  }

  lemma ShippedSucceeds(kind: Kind, keys: seq<string>, values: map<string, Value>)
    requires Snapshot(keys, values)
    requires forall j :: 0 <= j < |Excludes(kind)| ==> Excludes(kind)[j] in values
    requires "notes" in values && JoinNotes(values["notes"]).Ok?
    ensures Shipped(kind, keys, values).Ok?
  {
    var excl := Excludes(kind);
    ExcludeSucceeds(keys, values, excl);
    ExcludeResult(keys, values, excl);
    var copy := Exclude(keys, values, excl).value;
    FilterMembers(keys, excl);
    assert "notes" !in excl;
    assert "notes" in copy.0;
    assert "notes" in copy.1 && copy.1["notes"] == values["notes"];
    var written := copy.1["notes" := JoinNotes(values["notes"]).value];
    assert forall i :: 0 <= i < |copy.0| ==> copy.0[i] in written;
  }

  /** Deleting a key that is missing raises `KeyError`. */
  lemma {:induction false} ExcludeFails(keys: seq<string>, values: map<string, Value>, excl: seq<string>)
    requires Snapshot(keys, values)
    requires exists j :: 0 <= j < |excl| && excl[j] !in values
    ensures Exclude(keys, values, excl).Err?
    decreases |excl|
  {
    if excl[0] in values {
      var e := excl[0];
      ExcludeOne(keys, values, e);
      var j :| 0 <= j < |excl| && excl[j] !in values;
      assert excl[1..][j - 1] !in values - {e};
      ExcludeFails(Filter(keys, [e]), values - {e}, excl[1..]);
    }
  }

  /**
   * `finalize_edit` writes back exactly the snapshot's keys that are not
   * excluded, in snapshot order, each with its stored value except the
   * notes, which are joined.
   */
  lemma ShippedShape(kind: Kind, keys: seq<string>, values: map<string, Value>)
    requires Snapshot(keys, values) && Shipped(kind, keys, values).Ok?
    ensures "notes" in values && JoinNotes(values["notes"]).Ok?
    ensures var args := Shipped(kind, keys, values).value;
            KeysOf(args) == Filter(keys, Excludes(kind)) &&
            forall i :: 0 <= i < |args| ==>
              args[i].0 in values &&
              args[i].1 == if args[i].0 == "notes" then JoinNotes(values["notes"]).value else values[args[i].0]
  {
    var excl := Excludes(kind);
    var r := Exclude(keys, values, excl);
    ExcludeResult(keys, values, excl);
    var written := r.value.1["notes" := JoinNotes(r.value.1["notes"]).value];
    var args := Items(r.value.0, written);
    assert Shipped(kind, keys, values) == Ok(args);
  }

  /** Every key a record starts with, except the excluded ones, is one its `update_*` method accepts. */
  lemma InitialKnown(kind: Kind, key: string)
    requires key in KeysOf(InitialSnapshot(kind)) && key !in Excludes(kind)
    ensures Known(kind, key)
  {
    var ks := KeysOf(InitialSnapshot(kind));
    var i :| 0 <= i < |ks| && ks[i] == key;
  }

  /**
   * A record whose keys are ones it started with never has `finalize_edit`
   * stopped by `ValueError`: every key it writes back is accepted.
   */
  lemma FinalizeAccepted(kind: Kind, nb: int, keys: seq<string>, values: map<string, Value>)
    requires Snapshot(keys, values)
    requires forall k :: k in keys ==> k in KeysOf(InitialSnapshot(kind))
    ensures Finalized(kind, nb, keys, values).error != Some(ValueError)
  {
    var r := Shipped(kind, keys, values);
    if r.Ok? {
      ShippedShape(kind, keys, values);
      FilterMembers(keys, Excludes(kind));
      var args := r.value;
      forall i | 0 <= i < |args|
        ensures Known(kind, args[i].0)
      {
        assert KeysOf(args)[i] in Filter(keys, Excludes(kind));
        InitialKnown(kind, args[i].0);
      }
      KnownKeysAccepted(kind, nb, args);
    }
  }

  // Findings

  /** As written, notes already held as one text are joined again, character by character. */
  lemma NotesJoinedTwice()
    ensures JoinNotesAsWritten(Str("ab")) == Ok(Str("a\nb"))
    ensures JoinNotesAsWritten(UnwrapAsWritten(List([Str("ab")])).value) != Ok(Str("ab"))
  {
    var items := Iterate(Str("ab")).value;
    assert |items| == 2 && items[0] == Str(["ab"[0]]) && items[1] == Str(["ab"[1]]);
    var texts := Texts(items);
    assert texts == ["a", "b"];
    assert Join("\n", texts) == "a" + "\n" + Join("\n", texts[1..]);
    assert texts[1..] == ["b"];
    assert Join("\n", texts) == "a\nb";
    assert Iterate(Str("ab")) == Some(items);
    assert forall i :: 0 <= i < |items| ==> items[i].Str?;
  }

  /**
   * The corrected join writes back the notes text a refresh read, and the
   * text of any list of lines joins back to the text they were split from.
   */
  lemma NotesRoundTrip(text: string)
    ensures JoinNotes(UnwrapAsWritten(List([Str(text)])).value) == Ok(Str(text))
    ensures var lines := Split(text, '\n');
            JoinNotes(List(seq(|lines|, i requires 0 <= i < |lines| => Str(lines[i])))) == Ok(Str(text))
  {
    var lines := Split(text, '\n');
    var items := seq(|lines|, i requires 0 <= i < |lines| => Str(lines[i]));
    assert Texts(items) == lines;
    SplitJoin(text, '\n');
  }

  /**
   * As written, a case with exactly one person has its persons unwrapped to
   * the bare `(person, lawyer, side)` triple, and writing that back fails
   * with `TypeError` right after the existing links were deleted.
   */
  lemma SinglePartyAsWritten(nb: int, person: int, lawyer: int, side: int)
    ensures UnwrapAsWritten(List([List([Int(person), Int(lawyer), Int(side)])])) ==
            Ok(List([Int(person), Int(lawyer), Int(side)]))
    ensures RelationRows(CasePersons, nb, List([Int(person), Int(lawyer), Int(side)])) ==
            Outcome([Exec(DeleteStatement(CasePersons), [Int(nb)])], Some(TypeError))
  {
    var items := [Int(person), Int(lawyer), Int(side)];
    assert InsertParams(CasePersons, nb, items[0]).None?;
    assert items[..1][..0] == [];
    assert InsertRows(CasePersons, nb, items[..1]) == Outcome([], Some(TypeError));
    InsertRowsStuck(CasePersons, nb, items, 1);
  }

  /**
   * With the correction, the persons a case reads back are kept as read, and
   * writing them back re-inserts one link per person without error.
   */
  lemma PartiesReinserted(read: DbReads.Reader, nb: int)
    requires DbReads.CaseAttribute(read, nb, "persons").Ok?
    ensures var v := DbReads.CaseAttribute(read, nb, "persons").value;
            Unwrap(CaseKind, "persons", v) == Ok(v) &&
            v.List? &&
            RelationRows(CasePersons, nb, v).error.None? &&
            |RelationRows(CasePersons, nb, v).executed| == 1 + |v.items|
  {
    var v := DbReads.CaseAttribute(read, nb, "persons").value;
    assert DbReads.CaseFieldOf("persons") == Some(DbReads.PersonsField);
    assert v.List?;
    forall i | 0 <= i < |v.items|
      ensures InsertParams(CasePersons, nb, v.items[i]).Some?
    {
      assert v.items[i].List?;
    }
    InsertRowsComplete(CasePersons, nb, v.items);
  }
}

=== FILE: regexp.dfy ===
/**
 * The `REGEXP` function the database layer registers with SQLite
 * (`_regexp`): how the pattern a statement passes selects the kind of
 * match. The regular-expression engine itself is a parameter.
 */
module RegexpFunction {
  import opened Wrappers
  import opened Text
  import opened QueryBuilder

  /** A value SQLite hands to the function: `NULL`, an integer or a text. */
  datatype Cell = NullCell | IntCell(i: int) | TextCell(t: string)

  /** The three kinds of match. */
  datatype Mode =
    | FullMatch(pattern: string)           // `re.fullmatch`
    | SearchIgnoringCase(pattern: string)  // `re.search` with `re.IGNORECASE`
    | Search(pattern: string)              // `re.search`

  /**
   * The regular-expression engine: the outcome of matching a text in a
   * mode, or `None` when the engine raises (an invalid pattern).
   */
  type Engine = (Mode, string) -> Option<bool>

  predicate Quoted(p: string) {
    StartsWith(p, "'") && EndsWith(p, "'")
  }

  predicate Wrapped(p: string) {
    StartsWith(p, ".*") && EndsWith(p, ".*")
  }

  function Unquoted(p: string): string {
    RemoveSuffix(RemovePrefix(p, "'"), "'")
  }

  /**
   * A pattern wrapped in `.*` is unwrapped and then matched whole when
   * quoted, or searched for ignoring case otherwise; a quoted pattern is
   * matched whole; any other is searched for.
   */
  function ModeOf(pattern: string): Mode {
    if Wrapped(pattern) then
      var inner := RemoveSuffix(RemovePrefix(pattern, ".*"), ".*");
      if Quoted(inner) then FullMatch(Unquoted(inner)) else SearchIgnoringCase(inner)
    else if Quoted(pattern) then FullMatch(Unquoted(pattern))
    else Search(pattern)
  }

  /** `str(value)` for a value that is not `NULL`. */
  function CellText(c: Cell): string
    requires !c.NullCell?
  {
    if c.IntCell? then IntToString(c.i) else c.t
  }

  /** `_regexp(pattern, value)`: whether the value matches; `NULL` and an engine error give false. */
  function Regexp(engine: Engine, pattern: string, value: Cell): (r: bool)
    ensures value.NullCell? ==> !r
    ensures !value.NullCell? && engine(ModeOf(pattern), CellText(value)) == None ==> !r
    ensures r <==> !value.NullCell? && engine(ModeOf(pattern), CellText(value)) == Some(true)
  {
    if value.NullCell? then false
    else
      match engine(ModeOf(pattern), CellText(value))
      case None => false
      case Some(found) => found
  }

  lemma UnquotedOf(x: string)
    ensures Unquoted("'" + x + "'") == x
  {
    assert StartsWith("'" + x + "'", "'");
    assert RemovePrefix("'" + x + "'", "'") == x + "'";
    assert EndsWith(x + "'", "'");
  }

  /** A term the relevance statement wraps in `.*` is searched for ignoring case, or matched whole when quoted. */
  lemma WrappedMode(x: string)
    ensures ModeOf(".*" + x + ".*") == if Quoted(x) then FullMatch(Unquoted(x)) else SearchIgnoringCase(x)
  {
    var p := ".*" + x + ".*";
    assert p[..2] == ".*" && p[|p| - 2..] == ".*";
    assert RemovePrefix(p, ".*") == x + ".*";
    assert EndsWith(x + ".*", ".*");
    assert RemoveSuffix(x + ".*", ".*") == x;
  }

  /** A quoted pattern is matched whole, without its quotes. */
  lemma QuotedMode(x: string)
    ensures ModeOf("'" + x + "'") == FullMatch(x)
  {
    var p := "'" + x + "'";
    assert p[0] == '\'';
    assert !StartsWith(p, ".*") by {
      assert p[..1] != ".*"[..1];
    }
    assert Quoted(p) by {
      assert p[..1] == "'";
      assert p[|p| - 1..] == "'";
    }
    UnquotedOf(x);
  }

  /**
   * Every parameter of the relevance statement that stands for the vague
   * search term selects a case-insensitive search for that term, or a
   * whole match of it when the user quoted it.
   */
  lemma RelevanceParamsMode(tc: TableMap, term: string, extras: Extras, i: nat)
    requires i < 3 * ColumnCount(tc)
    ensures i < |FullParams(tc, term, extras)|
    ensures ModeOf(FullParams(tc, term, extras)[i]) ==
            if Quoted(term) then FullMatch(Unquoted(term)) else SearchIgnoringCase(term)
  {
    var ps := FullParams(tc, term, extras);
    assert ps[i] == Repeat(".*" + term + ".*", 3 * ColumnCount(tc))[i];
    WrappedMode(term);
  }
}

=== FILE: relevance_marks.dfy ===
/**
 * The parameter accounting of the relevance statement: every `?` of the CASE
 * expression, of the vague-term WHERE conditions and of the additional terms
 * is matched by exactly one parameter, so the statement has `3N + k`
 * placeholders for `N` searchable columns and `k` additional terms.
 */
module RelevanceMarks {
  import opened Text
  import opened Schema
  import opened QueryParse
  import opened QueryBuilder

  // ---------------------------------------------------------------- pieces of text

  /** A piece with one `?` between two pieces without any. */
  lemma OneBetween(pre: string, mark: string, post: string)
    requires Unmarked(pre) && Placeholders(mark) == 1 && Unmarked(post)
    ensures Placeholders(pre + mark + post) == 1
  {
    UnmarkedCount(pre);
    UnmarkedCount(post);
    ConcatPlaceholders(pre, mark);
    ConcatPlaceholders(pre + mark, post);
  }

  /** Text without any `?` around a middle piece adds no placeholder. */
  lemma Around(pre: string, middle: string, post: string)
    requires Unmarked(pre) && Unmarked(post)
    ensures Placeholders(pre + middle + post) == Placeholders(middle)
  {
    UnmarkedCount(pre);
    UnmarkedCount(post);
    ConcatPlaceholders(pre, middle);
    ConcatPlaceholders(pre + middle, post);
  }

  /** The comparison of an arm or of an additional condition holds one `?`. */
  lemma MarkOnce(exact: bool)
    ensures Placeholders(if exact then " = ?" else " REGEXP ?") == 1
  {
    if exact {
      assert " = ?" == " = " + "?";
      MarkedOnce(" = ");
    } else {
      assert " REGEXP ?" == " REGEXP " + "?";
      MarkedOnce(" REGEXP ");
    }
  }

  lemma SpaceUnmarked()
    ensures Unmarked(" ") && Unmarked(" OR ") && Unmarked("(") && Unmarked(") ")
  {
  }

  lemma ElseUnmarked()
    ensures Unmarked(" ELSE 0 END AS relevance")
  {
  }

  lemma OrderUnmarked()
    ensures Unmarked(OrderByRelevance)
  {
  }

  // ---------------------------------------------------------------- the (table, column) pairs

  /** No table or column name of the pairs holds a `?`. */
  predicate PairsUnmarked(flat: seq<(string, string)>) {
    forall i :: 0 <= i < |flat| ==> Unmarked(flat[i].0) && Unmarked(flat[i].1)
  }

  lemma PairsUnmarkedInit(flat: seq<(string, string)>)
    requires |flat| > 0 && PairsUnmarked(flat)
    ensures PairsUnmarked(flat[..|flat| - 1])
    ensures Unmarked(flat[|flat| - 1].0) && Unmarked(flat[|flat| - 1].1)
  {
    assert forall i :: 0 <= i < |flat| - 1 ==> flat[..|flat| - 1][i] == flat[i];
  }

  lemma PairsUnmarkedConcat(a: seq<(string, string)>, b: seq<(string, string)>)
    requires PairsUnmarked(a) && PairsUnmarked(b)
    ensures PairsUnmarked(a + b)
  {
    assert forall i :: |a| <= i < |a + b| ==> (a + b)[i] == b[i - |a|];
  }

  lemma {:induction false} FlatUnmarked(tc: TableMap)
    requires NoMarks(tc)
    ensures PairsUnmarked(Flat(tc))
  {
    if |tc| > 0 {
      var init := tc[..|tc| - 1];
      assert NoMarks(init) by {
        assert forall i :: 0 <= i < |init| ==> init[i] == tc[i];
      }
      FlatUnmarked(init);
      var last := Pairs(tc[|tc| - 1].0, tc[|tc| - 1].1);
      assert PairsUnmarked(last) by {
        assert AllUnmarked(tc[|tc| - 1].1);
      }
      PairsUnmarkedConcat(Flat(init), last);
    }
  }

  lemma TotalPlaceholdersSnoc(parts: seq<string>, s: string)
    ensures TotalPlaceholders(parts + [s]) == TotalPlaceholders(parts) + Placeholders(s)
  {
    TotalPlaceholdersAppend(parts, [s]);
    TotalPlaceholdersSingle(s);
  }

  // ---------------------------------------------------------------- CASE

  lemma ArmHeadUnmarked(table: string, column: string)
    requires Unmarked(table) && Unmarked(column)
    ensures Unmarked("WHEN " + table + "." + column)
  {
    assert Unmarked("WHEN ") && Unmarked(".");
  }

  lemma ArmWeightUnmarked(weight: int)
    ensures Unmarked(" THEN " + IntToString(weight))
  {
    IntToStringUnmarked(weight);
    assert Unmarked(" THEN ");
  }

  /** Each arm compares its column with one `?`. */
  lemma ArmTextPlaceholders(a: Arm)
    requires Unmarked(a.table) && Unmarked(a.column)
    ensures Placeholders(ArmText(a)) == 1
  {
    ArmHeadUnmarked(a.table, a.column);
    ArmWeightUnmarked(a.weight);
    MarkOnce(a.exact);
    OneBetween("WHEN " + a.table + "." + a.column, if a.exact then " = ?" else " REGEXP ?",
               " THEN " + IntToString(a.weight));
  }

  /** Each column contributes two arms, each with one `?`. */
  lemma {:induction false} ArmsPlaceholders(flat: seq<(string, string)>, n: int)
    requires PairsUnmarked(flat)
    ensures TotalPlaceholders(Texts(Arms(flat, n))) == 2 * |flat|
  {
    if |flat| > 0 {
      var k := |flat| - 1;
      PairsUnmarkedInit(flat);
      ArmsPlaceholders(flat[..k], n);
      var exact := Arm(flat[k].0, flat[k].1, true, n + 2 - k);
      var regex := Arm(flat[k].0, flat[k].1, false, n - k);
      var before := Arms(flat[..k], n);
      TextsNext(before, exact);
      TextsNext(before + [exact], regex);
      ArmTextPlaceholders(exact);
      ArmTextPlaceholders(regex);
      TotalPlaceholdersSnoc(Texts(before), ArmText(exact));
      TotalPlaceholdersSnoc(Texts(before) + [ArmText(exact)], ArmText(regex));
    }
  }

  lemma ArmsTextPlaceholders(tc: TableMap)
    requires NoMarks(tc)
    ensures Placeholders(Join(" ", Texts(Arms(Flat(tc), ColumnCount(tc))))) == 2 * ColumnCount(tc)
  {
    FlatUnmarked(tc);
    FlatLength(tc);
    ArmsPlaceholders(Flat(tc), ColumnCount(tc));
    SpaceUnmarked();
    JoinPlaceholders(" ", Texts(Arms(Flat(tc), ColumnCount(tc))));
  }

  /** The CASE expression holds two `?` per column. */
  lemma CaseStatementPlaceholders(tc: TableMap)
    requires NoMarks(tc)
    ensures Placeholders(CaseStatement(tc)) == 2 * ColumnCount(tc)
  {
    var arms := Join(" ", Texts(Arms(Flat(tc), ColumnCount(tc))));
    ArmsTextPlaceholders(tc);
    ElseUnmarked();
    UnmarkedCount(" ELSE 0 END AS relevance");
    ConcatPlaceholders(arms, " ELSE 0 END AS relevance");
  }

  // ---------------------------------------------------------------- WHERE

  lemma AnyConditionPlaceholders(p: (string, string))
    requires Unmarked(p.0) && Unmarked(p.1)
    ensures Placeholders(AnyCondition(p)) == 1
  {
    var head := p.0 + "." + p.1;
    assert Unmarked(head) by {
      assert Unmarked(".");
    }
    MarkOnce(false);
    UnmarkedCount(head);
    ConcatPlaceholders(head, " REGEXP ?");
  }

  lemma {:induction false} WhereConditionsPlaceholders(flat: seq<(string, string)>)
    requires PairsUnmarked(flat)
    ensures TotalPlaceholders(WhereConditions(flat)) == |flat|
  {
    if |flat| > 0 {
      PairsUnmarkedInit(flat);
      WhereConditionsPlaceholders(flat[..|flat| - 1]);
      AnyConditionPlaceholders(flat[|flat| - 1]);
      TotalPlaceholdersSnoc(WhereConditions(flat[..|flat| - 1]), AnyCondition(flat[|flat| - 1]));
    }
  }

  /** The vague-term conditions hold one `?` per column. */
  lemma AnyPlaceholders(tc: TableMap)
    requires NoMarks(tc)
    ensures Placeholders(Join(" OR ", WhereConditions(Flat(tc)))) == ColumnCount(tc)
  {
    FlatUnmarked(tc);
    FlatLength(tc);
    WhereConditionsPlaceholders(Flat(tc));
    SpaceUnmarked();
    JoinPlaceholders(" OR ", WhereConditions(Flat(tc)));
  }

  /** The column names of the additional terms hold no `?`. */
  predicate KeysUnmarked(extras: Extras) {
    forall i :: 0 <= i < |extras| ==> Unmarked(extras[i].0)
  }

  lemma ExtraHeadUnmarked(logic: Comb, table: string, column: string)
    requires Unmarked(table) && Unmarked(column)
    ensures Unmarked(LogicWord(logic) + " " + table + "." + column)
  {
    assert Unmarked(LogicWord(logic)) && Unmarked(" ") && Unmarked(".");
  }

  lemma ComparisonOnce(regex: bool)
    ensures Placeholders(Comparison(regex)) == 1
  {
    MarkOnce(!regex);
  }

  lemma ExtraConditionPlaceholders(tc: TableMap, column: string, e: Extra)
    requires NoMarks(tc) && Unmarked(column)
    ensures Placeholders(ExtraCondition(tc, column, e)) == 1
  {
    var head := LogicWord(e.logic) + " " + TableOf(tc, column) + "." + column;
    TableOfNoMarks(tc, column);
    ExtraHeadUnmarked(e.logic, TableOf(tc, column), column);
    ComparisonOnce(e.regex);
    UnmarkedCount(head);
    ConcatPlaceholders(head, Comparison(e.regex));
  }

  lemma {:induction false} ExtraConditionsPlaceholders(tc: TableMap, extras: Extras)
    requires NoMarks(tc) && KeysUnmarked(extras)
    ensures TotalPlaceholders(ExtraConditions(tc, extras)) == |extras|
  {
    if |extras| > 0 {
      var init := extras[..|extras| - 1];
      var e := extras[|extras| - 1];
      assert KeysUnmarked(init) by {
        assert forall i :: 0 <= i < |init| ==> init[i] == extras[i];
      }
      ExtraConditionsPlaceholders(tc, init);
      ExtraConditionPlaceholders(tc, e.0, e.1);
      TotalPlaceholdersSnoc(ExtraConditions(tc, init), ExtraCondition(tc, e.0, e.1));
    }
  }

  /** The additional conditions hold one `?` per additional term. */
  lemma AdditionalPlaceholders(tc: TableMap, extras: Extras)
    requires NoMarks(tc) && KeysUnmarked(extras)
    ensures Placeholders(Join(" ", ExtraConditions(tc, extras))) == |extras|
  {
    ExtraConditionsPlaceholders(tc, extras);
    SpaceUnmarked();
    JoinPlaceholders(" ", ExtraConditions(tc, extras));
  }

  lemma Parenthesised(any: string, additional: string)
    ensures Placeholders("(" + any + ") " + additional) == Placeholders(any) + Placeholders(additional)
  {
    SpaceUnmarked();
    Around("(", any, ") ");
    ConcatPlaceholders("(" + any + ") ", additional);
  }

  /** The WHERE clause holds one `?` per column and one per additional term. */
  lemma WhereClausePlaceholders(tc: TableMap, extras: Extras)
    requires NoMarks(tc) && KeysUnmarked(extras)
    ensures Placeholders(WhereClause(tc, extras)) == ColumnCount(tc) + |extras|
  {
    AnyPlaceholders(tc);
    AdditionalPlaceholders(tc, extras);
    Parenthesised(Join(" OR ", WhereConditions(Flat(tc))), Join(" ", ExtraConditions(tc, extras)));
  }

  // ---------------------------------------------------------------- the statement

  lemma HeadUnmarked(main: string)
    requires Unmarked(main)
    ensures Unmarked(RelevanceSelect(main))
  {
    assert Unmarked("SELECT ") && Unmarked(".nb, NULL AS relevance, CASE") && Unmarked(" ");
  }

  lemma FromUnmarked(tc: TableMap)
    requires |tc| > 0 && NoMarks(tc)
    ensures Unmarked(RelevanceFrom(tc))
  {
    FromExceptClauseUnmarked(tc[0].0, tc);
    assert Unmarked(" ") && Unmarked(" WHERE ");
  }

  lemma StatementSum(a: string, b: string, c: string, d: string, e: string)
    requires Unmarked(a) && Unmarked(c) && Unmarked(e)
    ensures Placeholders(a + b + c + d + e) == Placeholders(b) + Placeholders(d)
  {
    UnmarkedCount(a);
    UnmarkedCount(c);
    UnmarkedCount(e);
    ConcatPlaceholders(a, b);
    ConcatPlaceholders(a + b, c);
    ConcatPlaceholders(a + b + c, d);
    ConcatPlaceholders(a + b + c + d, e);
  }

  /** The relevance statement has exactly one `?` per parameter: `3N + k` of each. */
  lemma FullQueryPlaceholders(tc: TableMap, term: string, extras: Extras)
    requires |tc| > 0 && NoMarks(tc) && KeysUnmarked(extras)
    ensures Placeholders(FullQuery(tc, term, extras).0) == |FullQuery(tc, term, extras).1|
    ensures |FullQuery(tc, term, extras).1| == 3 * ColumnCount(tc) + |extras|
  {
    assert Unmarked(tc[0].0);
    HeadUnmarked(tc[0].0);
    FromUnmarked(tc);
    OrderUnmarked();
    CaseStatementPlaceholders(tc);
    WhereClausePlaceholders(tc, extras);
    StatementSum(RelevanceSelect(tc[0].0), CaseStatement(tc), RelevanceFrom(tc), WhereClause(tc, extras),
                 OrderByRelevance);
  }

  /**
   * The first `3N` parameters are the wrapped vague term, bound to the CASE
   * arms and the vague-term conditions; the rest are the values of the
   * additional terms, in order.
   */
  lemma FullParamsShape(tc: TableMap, term: string, extras: Extras)
    ensures var ps := FullParams(tc, term, extras);
            && (forall i :: 0 <= i < 3 * ColumnCount(tc) ==> ps[i] == ".*" + term + ".*")
            && (forall j :: 0 <= j < |extras| ==> ps[3 * ColumnCount(tc) + j] == extras[j].1.value)
  {
    var n := 3 * ColumnCount(tc);
    var w := ".*" + term + ".*";
    var ps := FullParams(tc, term, extras);
    var wrapped := Repeat(w, n);
    var values := ExtraValues(extras);
    assert ps == wrapped + values;
    forall i | 0 <= i < n
      ensures ps[i] == w
    {
      assert ps[i] == wrapped[i];
    }
    forall j | 0 <= j < |extras|
      ensures ps[n + j] == extras[j].1.value
    {
      assert ps[n + j] == values[j];
    }
  }

  /** Every relevance statement of the schema: `3N + k` placeholders and parameters. */
  lemma SchemaFullQueryPlaceholders(g: Group, term: string, extras: Extras)
    requires KeysUnmarked(extras)
    ensures Placeholders(FullQuery(TableColumns(g), term, extras).0) == |FullQuery(TableColumns(g), term, extras).1|
  {
    SchemaNoMarks(g);
    FullQueryPlaceholders(TableColumns(g), term, extras);
  }
}

=== FILE: schema.dfy ===
/**
 * The fixed schema the search engine compiles against: the three logical
 * groups a query may name, the physical tables behind each, their searchable
 * columns, the default attributes a search returns, and the join paths used
 * when two clauses are chained with `&`.
 */
module Schema {
  import opened Wrappers

  /** The group names a query may start with: `user`, `case`, `docu`. */
  datatype Group = User | Case | Docu

  /** The groups in the order a fan-out search visits them. */
  const AllGroups: seq<Group> := [User, Case, Docu]

  /** A group name as typed by the user, resolved; `None` for an unknown name. */
  function GroupNamed(name: string): (r: Option<Group>)
    ensures r == Some(User) <==> name == "user"
    ensures r == Some(Case) <==> name == "case"
    ensures r == Some(Docu) <==> name == "docu"
  {
    if name == "user" then Some(User)
    else if name == "case" then Some(Case)
    else if name == "docu" then Some(Docu)
    else None
  }

  /** The physical tables behind a group; the first one is the group's main table. */
  function Tables(g: Group): seq<string> {
    match g
    case User => ["Persons", "CasePeople"]
    case Case => ["Cases"]
    case Docu => ["Documents"]
  }

  /** The searchable columns of each table of a group, aligned with `Tables(g)`. */
  function Columns(g: Group): seq<seq<string>> {
    match g
    case User => [["last_name", "first_name", "address", "birth_date", "contact_info", "gender",
                   "description", "notes", "can_be_lawyer"],
                  ["self_represented", "has_external_lawyer", "side"]]
    case Case => [["name", "description", "notes"]]
    case Docu => [["name", "description", "notes", "path"]]
  }

  /** The attributes a search returns for a group when the query names none. */
  function DefaultReturns(g: Group): seq<string> {
    match g
    case User => ["first_name", "last_name", "can_be_lawyer"]
    case Case => ["name"]
    case Docu => ["name"]
  }

  /** The group's tables paired with their columns, in table order. */
  function TableColumns(g: Group): (tc: seq<(string, seq<string>)>)
    ensures |tc| == |Tables(g)| > 0
    ensures forall i :: 0 <= i < |tc| ==> tc[i] == (Tables(g)[i], Columns(g)[i])
  {
    match g
    case User => [(Tables(g)[0], Columns(g)[0]), (Tables(g)[1], Columns(g)[1])]
    case Case => [(Tables(g)[0], Columns(g)[0])]
    case Docu => [(Tables(g)[0], Columns(g)[0])]
  }

  /** The main table of a group: the one every statement for the group selects FROM. */
  function MainTable(g: Group): string {
    Tables(g)[0]
  }

  /** No column is declared by two different tables. */
  ghost predicate ColumnsDisjoint(tc: seq<(string, seq<string>)>) {
    forall i, j, c :: 0 <= i < j < |tc| && c in tc[i].1 ==> c !in tc[j].1
  }

  lemma SchemaColumnsDisjoint(g: Group)
    ensures ColumnsDisjoint(TableColumns(g))
  {
  }

  /**
   * The table a column is resolved to: the last table of `tc` that declares
   * it, or the empty string when none does.
   */
  function TableOf(tc: seq<(string, seq<string>)>, column: string): string {
    if tc == [] then ""
    else if column in tc[|tc| - 1].1 then tc[|tc| - 1].0
    else TableOf(tc[..|tc| - 1], column)
  }

  /** Resolves a column by scanning every table, the last match winning. */
  method FindTable(tc: seq<(string, seq<string>)>, column: string) returns (table: string)
    ensures table == TableOf(tc, column)
  {
    table := "";
    var i := 0;
    while i < |tc|
      invariant 0 <= i <= |tc|
      invariant table == TableOf(tc[..i], column)
    {
      assert tc[..i + 1][..i] == tc[..i];
      if column in tc[i].1 {
        table := tc[i].0;
      }
      i := i + 1;
    }
    assert tc[..i] == tc;
  }

  /** With disjoint column sets, a column resolves to the table that declares it. */
  lemma {:induction false} TableOfDeclaring(tc: seq<(string, seq<string>)>, i: nat, column: string)
    requires ColumnsDisjoint(tc)
    requires i < |tc| && column in tc[i].1
    ensures TableOf(tc, column) == tc[i].0
  {
    if i < |tc| - 1 {
      assert column !in tc[|tc| - 1].1;
      var init := tc[..|tc| - 1];
      assert ColumnsDisjoint(init) by {
        forall a, b, c | 0 <= a < b < |init| && c in init[a].1 ensures c !in init[b].1 {
          assert init[a] == tc[a] && init[b] == tc[b];
        }
      }
      assert init[i] == tc[i];
      TableOfDeclaring(init, i, column);
    }
  }

  /** A column no table declares resolves to the empty table name. */
  lemma {:induction false} TableOfUndeclared(tc: seq<(string, seq<string>)>, column: string)
    requires forall i :: 0 <= i < |tc| ==> column !in tc[i].1
    ensures TableOf(tc, column) == ""
  {
    if tc != [] {
      TableOfUndeclared(tc[..|tc| - 1], column);
    }
  }

  /**
   * One step of a join path:
   * `[INNER ]JOIN <table> ON <leftTable>.<leftColumn> = <table>.<rightColumn>`.
   */
  datatype JoinStep = JoinStep(inner: bool, table: string, leftTable: string, leftColumn: string, rightColumn: string)

  function StepText(s: JoinStep): string {
    (if s.inner then "INNER JOIN " else "JOIN ") + s.table + " ON " + s.leftTable + "." + s.leftColumn
      + " = " + s.table + "." + s.rightColumn
  }

  /** The SQL text of a join path: its steps separated by single spaces. */
  function JoinText(steps: seq<JoinStep>): string {
    if |steps| == 0 then ""
    else if |steps| == 1 then StepText(steps[0])
    else StepText(steps[0]) + " " + JoinText(steps[1..])
  }

  /**
   * The static join path used when a clause for group `to` is chained onto a
   * statement whose main table is that of group `from`; `None` for a pair
   * with no path.
   */
  function JoinPath(from: Group, to: Group): Option<seq<JoinStep>> {
    match (from, to)
    case (Case, User) =>
      Some([JoinStep(true, "CasePeople", "Cases", "nb", "case_nb"),
            JoinStep(true, "Persons", "CasePeople", "person_nb", "nb")])
    case (Case, Docu) =>
      Some([JoinStep(true, "CaseDocuments", "Cases", "nb", "case_nb"),
            JoinStep(true, "Documents", "CaseDocuments", "document_nb", "nb")])
    case (User, Case) =>
      Some([JoinStep(true, "Cases", "CasePeople", "case_nb", "nb")])
    case (User, Docu) =>
      Some([JoinStep(true, "CaseDocuments", "CasePeople", "case_nb", "case_nb"),
            JoinStep(false, "Documents", "CaseDocuments", "document_nb", "nb")])
    case (Docu, Case) =>
      Some([JoinStep(true, "CaseDocuments", "Documents", "nb", "document_nb"),
            JoinStep(true, "Cases", "CaseDocuments", "case_nb", "nb")])
    case (Docu, User) =>
      Some([JoinStep(true, "CaseDocuments", "Documents", "nb", "document_nb"),
            JoinStep(true, "CasePeople", "CaseDocuments", "case_nb", "case_nb"),
            JoinStep(false, "Persons", "CasePeople", "person_nb", "nb")])
    case _ => None
  }

  /**
   * The steps form a chain out of the tables of `from` that ends at the main
   * table of `to`: each step joins on a table already present.
   */
  ghost predicate Chains(steps: seq<JoinStep>, from: Group, to: Group) {
    && |steps| > 0
    && steps[0].leftTable in Tables(from)
    && (forall i :: 0 < i < |steps| ==> steps[i].leftTable == steps[i - 1].table)
    && steps[|steps| - 1].table == MainTable(to)
  }

  /** Two different groups always have a join path, and it is a chain; a group has none onto itself. */
  lemma JoinPathChains(from: Group, to: Group)
    ensures from == to <==> JoinPath(from, to) == None
    ensures from != to ==> Chains(JoinPath(from, to).value, from, to)
  {
  }
}

=== FILE: search_properties.dfy ===
/**
 * What the search engine's top level guarantees about the entries it
 * returns: their shape, which clauses can make it fail, how a join changes
 * the last entry, and that every statement has one `?` per parameter.
 */
module SearchProperties {
  import opened Wrappers
  import opened Text
  import opened Schema
  import opened QueryParse
  import opened QueryBuilder
  import opened RelevanceMarks
  import opened QueryCompiler

  // ---------------------------------------------------------------- fan-out

  /** A clause without a known group gives one entry per group, in order, unless it names a column. */
  lemma FanOutShape(p: Parsed)
    ensures FanOut(p).Ok? <==> ColumnOf(p.clause).None?
    ensures FanOut(p).Err? ==> FanOut(p).error == KeyError
    ensures FanOut(p).Ok? ==>
              && |FanOut(p).value| == |AllGroups|
              && forall i :: 0 <= i < |AllGroups| ==>
                   && FanOut(p).value[i].groups == [AllGroups[i]]
                   && FromOf(FanOut(p).value[i].sql) == Some(AllGroups[i])
                   && FanOut(p).value[i].specs == [FanOutReturns(p.clause, AllGroups[i])]
  {
  }

  // ---------------------------------------------------------------- the shape of the entries

  /** An entry names one return spec per group and selects from a table. */
  predicate WellFormed(e: Entry) {
    |e.groups| == |e.specs| > 0 && FromOf(e.sql).Some?
  }

  /** Every entry is well formed, and a pending join has an entry to join onto. */
  predicate Consistent(s: State) {
    && (forall i :: 0 <= i < |s.entries| ==> WellFormed(s.entries[i]))
    && (s.chain ==> |s.entries| > 0)
  }

  /** How many entries a clause adds, and when the next clause joins onto the last one. */
  lemma StepCount(s: State, p: Parsed)
    requires Next(s, p).Ok?
    ensures |Next(s, p).value.entries| ==
              |s.entries| + if Target(p.clause).None? then |AllGroups| else if s.chain then 0 else 1
    ensures Next(s, p).value.chain == (EndsWithAnd(p.terms) || (Target(p.clause).None? && s.chain))
    ensures Next(s, p).value.entries[..|s.entries| - if Target(p.clause).Some? && s.chain then 1 else 0] ==
              s.entries[..|s.entries| - if Target(p.clause).Some? && s.chain then 1 else 0]
  {
    if Target(p.clause).None? {
      FanOutShape(p);
    }
  }

  lemma AppendWellFormed(a: seq<Entry>, b: seq<Entry>)
    requires forall i :: 0 <= i < |a| ==> WellFormed(a[i])
    requires forall i :: 0 <= i < |b| ==> WellFormed(b[i])
    ensures forall i :: 0 <= i < |a + b| ==> WellFormed((a + b)[i])
  {
    forall i | 0 <= i < |a + b| ensures WellFormed((a + b)[i]) {
      if i >= |a| {
        assert (a + b)[i] == b[i - |a|];
      }
    }
  }

  lemma FanOutConsistent(s: State, p: Parsed)
    requires Consistent(s) && FanOutStep(s, p).Ok?
    ensures Consistent(FanOutStep(s, p).value)
  {
    FanOutShape(p);
    AppendWellFormed(s.entries, FanOut(p).value);
  }

  lemma NamedConsistent(s: State, g: Group, p: Parsed)
    requires Consistent(s)
    ensures Consistent(State(s.entries + [NamedEntry(g, p)], EndsWithAnd(p.terms)))
  {
    AppendWellFormed(s.entries, [NamedEntry(g, p)]);
  }

  lemma ChainConsistent(s: State, g: Group, pre: Prefix, p: Parsed)
    requires Consistent(s) && ChainStep(s, g, pre, p).Ok?
    ensures Consistent(ChainStep(s, g, pre, p).value)
  {
    var n := |s.entries|;
    var init := s.entries[..n - 1];
    assert forall i :: 0 <= i < |init| ==> init[i] == s.entries[i];
    assert WellFormed(s.entries[n - 1]);
    var joined := ChainStep(s, g, pre, p).value.entries[n - 1];
    assert ChainStep(s, g, pre, p).value.entries == init + [joined];
    AppendWellFormed(init, [joined]);
  }

  lemma StepConsistent(s: State, p: Parsed)
    requires Consistent(s) && Next(s, p).Ok?
    ensures Consistent(Next(s, p).value)
  {
    match p.clause.prefix
    case None => FanOutConsistent(s, p);
    case Some(pre) =>
      match GroupNamed(pre.group)
      case None => FanOutConsistent(s, p);
      case Some(g) =>
        if s.chain {
          ChainConsistent(s, g, pre, p);
        } else {
          NamedConsistent(s, g, p);
        }
  }

  /** Every entry the walk builds is well formed. */
  lemma {:induction false} RunConsistent(ps: seq<Parsed>)
    requires Run(ps).Ok?
    ensures Consistent(Run(ps).value)
  {
    if |ps| > 0 {
      RunConsistent(ps[..|ps| - 1]);
      StepConsistent(Run(ps[..|ps| - 1]).value, ps[|ps| - 1]);
    }
  }

  // ---------------------------------------------------------------- failures

  /**
   * The clauses that fail: one without a known group that names a column,
   * and one joined onto a statement that already selects from its group.
   */
  predicate FailsOn(s: State, p: Parsed) {
    match Target(p.clause)
    case None => ColumnOf(p.clause).Some?
    case Some(g) => s.chain && |s.entries| > 0 && FromOf(s.entries[|s.entries| - 1].sql) == Some(g)
  }

  lemma StepFailure(s: State, p: Parsed)
    requires Consistent(s)
    ensures Next(s, p).Err? <==> FailsOn(s, p)
    ensures Next(s, p).Err? ==> Next(s, p).error == KeyError
  {
    match Target(p.clause)
    case None => FanOutShape(p);
    case Some(g) =>
      if s.chain {
        var last := s.entries[|s.entries| - 1];
        assert WellFormed(last);
        JoinPathChains(FromOf(last.sql).value, g);
      }
  }

  /** The walk can only fail on a missing key: an index or value error never happens. */
  lemma {:induction false} RunFailsOnKeysOnly(ps: seq<Parsed>)
    ensures Run(ps).Err? ==> Run(ps).error == KeyError
  {
    if |ps| > 0 {
      RunFailsOnKeysOnly(ps[..|ps| - 1]);
      if Run(ps[..|ps| - 1]).Ok? {
        RunConsistent(ps[..|ps| - 1]);
        StepFailure(Run(ps[..|ps| - 1]).value, ps[|ps| - 1]);
      }
    }
  }

  lemma CompileFailsOnKeysOnly(input: string, ms: seq<Match<Option<ClauseMatch>>>)
    ensures Compile(input, ms).Err? ==> Compile(input, ms).error == KeyError
  {
    if Parse(input, ms).Some? {
      RunFailsOnKeysOnly(Parse(input, ms).value);
    }
  }

  /** Input that does not parse gives one entry: every id for the empty string, nothing otherwise. */
  lemma CompileUnparsed(input: string, ms: seq<Match<Option<ClauseMatch>>>)
    requires Parse(input, ms).None?
    ensures input == "" ==> Compile(input, ms) == Ok([EmptySearchEntry()])
    ensures input != "" ==> Compile(input, ms) == Ok([UnparsedEntry()])
    ensures WellFormed(EmptySearchEntry()) && EmptySearchEntry().groups == AllGroups
    ensures !WellFormed(UnparsedEntry()) && UnparsedEntry().specs == [[], [], []]
  {
  }

  // ---------------------------------------------------------------- joining

  /** The joined terms are the clause's sub-terms that are not bare combinators, in both directions. */
  lemma {:induction false} CondTermsMembers(terms: seq<Term>)
    ensures forall j :: 0 <= j < |terms| && terms[j].Cond? ==>
              JoinTerm(terms[j].comb, Some(terms[j].column), terms[j].op, terms[j].value) in CondTerms(terms)
    ensures forall t :: t in CondTerms(terms) ==>
              t.column.Some? && Cond(t.comb, t.column.value, t.op, t.value) in terms
  {
    if |terms| > 0 {
      var init := terms[..|terms| - 1];
      CondTermsMembers(init);
      assert forall j :: 0 <= j < |init| ==> init[j] == terms[j];
      assert forall x :: x in init ==> x in terms;
    }
  }

  /** A clause with a known group, while a join is pending, is joined onto the last entry. */
  lemma NextChain(s: State, p: Parsed, pre: Prefix, g: Group)
    requires p.clause.prefix == Some(pre) && GroupNamed(pre.group) == Some(g) && s.chain
    ensures Next(s, p) == ChainStep(s, g, pre, p)
  {
  }

  /**
   * Joining a clause for group `g` replaces the last entry: it gains `g`,
   * `g`'s default return spec, and the clause's values after its own.
   */
  lemma JoinShape(s: State, g: Group, pre: Prefix, p: Parsed)
    requires p.clause.prefix == Some(pre) && ChainStep(s, g, pre, p).Ok?
    ensures |s.entries| > 0 && |ChainStep(s, g, pre, p).value.entries| == |s.entries|
    ensures ChainStep(s, g, pre, p).value.entries[..|s.entries| - 1] == s.entries[..|s.entries| - 1]
    ensures var last := s.entries[|s.entries| - 1];
            var joined := ChainStep(s, g, pre, p).value.entries[|s.entries| - 1];
            && joined.groups == last.groups + [g]
            && joined.specs == last.specs + [DefaultReturns(g)]
            && joined.params == last.params + [p.clause.value] + JoinValues(CondTerms(p.terms))
            && joined.sql.Joined? && joined.sql.base == last.sql && joined.sql.table == g
            && |joined.sql.conditions| == 1 + |CondTerms(p.terms)|
  {
    var ts := JoinTerms(pre, p.clause.value, p.terms);
    assert JoinValues(ts) == [p.clause.value] + JoinValues(CondTerms(p.terms));
  }

  /** The condition a joined term would have under the single-column builder. */
  lemma JoinConditionAgrees(tc: TableMap, t: JoinTerm)
    requires t.column.Some?
    ensures JoinCondition(tc, t) == Connective(t.comb) + Condition(tc, t.column.value, t.op)
  {
    var head := Connective(t.comb) + TableOf(tc, t.column.value) + "." + t.column.value;
    assert JoinCondition(tc, t) == head + Comparison(t.op == Regex);
    assert Connective(t.comb) + Condition(tc, t.column.value, t.op) == head + Operator(t.op);
    match t.op
    case Regex => assert Comparison(true) == " REGEXP " + "?";
    case Exact => assert Comparison(false) == " = " + "?";
  }

  /** As written, a joined `=` term is compared as a regex: the condition differs from the intended one. */
  lemma JoinConditionAsWrittenIgnoresEquality(tc: TableMap, t: JoinTerm)
    ensures EndsWith(JoinConditionAsWritten(tc, t), " REGEXP ?")
    ensures t.op == Exact ==> JoinConditionAsWritten(tc, t) != JoinCondition(tc, t)
    ensures t.op == Regex ==> JoinConditionAsWritten(tc, t) == JoinCondition(tc, t)
  {
    var head := Connective(t.comb) + JoinTable(tc, t.column) + "." + ColumnName(t.column);
    assert JoinConditionAsWritten(tc, t) == head + " REGEXP ?";
    assert JoinCondition(tc, t) == head + Comparison(t.op == Regex);
    if t.op == Exact {
      assert |JoinCondition(tc, t)| == |head| + 4;
    }
  }

  // ---------------------------------------------------------------- return specs of a fan-out

  /** As written, `x[name]:smith` returns the attribute list `["x"]`, the group name, instead of `["name"]`. */
  lemma FanOutReturnsAsWrittenSplitsGroup()
    ensures var c := Clause(Some(Prefix("x", Some("name"), None, Regex)), "smith");
            && Target(c).None?
            && FanOutReturnsAsWritten(c, User) == ["x"]
            && FanOutReturns(c, User) == ["name"]
  {
    var c := Clause(Some(Prefix("x", Some("name"), None, Regex)), "smith");
    assert FirstIndex("x", ';') == 1;
    assert FirstIndex("name", ';') == 4;
    assert GroupNamed("x").None?;
  }

  /** A fan-out clause with a non-empty bracket list returns that list, as a clause with a known group does. */
  lemma FanOutReturnsAgree(c: Clause, g: Group)
    requires c.prefix.Some? && c.prefix.value.ret.Some? && c.prefix.value.ret.value != ""
    ensures FanOutReturns(c, g) == NamedReturns(c, g)
  {
  }

  // ---------------------------------------------------------------- one placeholder per parameter

  /** Column names come from word characters in the grammar, so none holds a `?`. */
  predicate ColumnsUnmarked(p: Parsed) {
    && (ColumnOf(p.clause).Some? ==> Unmarked(ColumnOf(p.clause).value))
    && forall i :: 0 <= i < |p.terms| && p.terms[i].Cond? ==> Unmarked(p.terms[i].column)
  }

  /** The statement of an entry has one `?` per parameter. */
  predicate Balanced(e: Entry) {
    Marks(e.sql) == |e.params|
  }

  lemma ExtrasUnmarked(terms: seq<Term>)
    requires forall i :: 0 <= i < |terms| && terms[i].Cond? ==> Unmarked(terms[i].column)
    ensures KeysUnmarked(NormalizedExtra(terms))
  {
    NormalizedExtraKeys(terms);
    var d := NormalizedExtra(terms);
    forall i | 0 <= i < |d| ensures Unmarked(d[i].0) {
      assert d[i].0 in Keys(d);
    }
  }

  lemma ClauseStatementBalanced(g: Group, p: Parsed)
    requires ColumnsUnmarked(p)
    ensures Placeholders(ClauseStatement(g, p).0) == |ClauseStatement(g, p).1|
  {
    match p.clause.prefix
    case Some(Prefix(_, _, Some(column), op)) =>
      QueryPlaceholders(g, column, op, p.clause.value, p.terms);
    case _ =>
      ExtrasUnmarked(p.terms);
      SchemaFullQueryPlaceholders(g, p.clause.value, NormalizedExtra(p.terms));
  }

  lemma FanOutEntryBalanced(g: Group, p: Parsed)
    requires ColumnsUnmarked(p)
    ensures Balanced(FanOutEntry(g, p))
  {
    ExtrasUnmarked(p.terms);
    SchemaFullQueryPlaceholders(g, p.clause.value, NormalizedExtra(p.terms));
  }

  lemma ConnectiveNoMark(c: Comb)
    ensures Unmarked(Connective(c))
  {
    match c
    case And => assert Unmarked("AND ");
    case Or => assert Unmarked("OR ");
  }

  lemma JoinConditionPlaceholders(tc: TableMap, t: JoinTerm)
    requires NoMarks(tc) && (t.column.Some? ==> Unmarked(t.column.value))
    ensures Placeholders(JoinCondition(tc, t)) == 1
  {
    if t.column.Some? {
      TableOfNoMarks(tc, t.column.value);
    } else {
      assert Unmarked("") && Unmarked("None");
    }
    var head := Connective(t.comb) + JoinTable(tc, t.column) + "." + ColumnName(t.column);
    assert Unmarked(head) by {
      ConnectiveNoMark(t.comb);
      assert Unmarked(".");
    }
    ComparisonOnce(t.op == Regex);
    OneBetween(head, Comparison(t.op == Regex), "");
    assert head + Comparison(t.op == Regex) + "" == JoinCondition(tc, t);
  }

  /** The joined conditions, separated by spaces, hold one `?` per term. */
  lemma JoinConditionsPlaceholders(tc: TableMap, ts: seq<JoinTerm>)
    requires NoMarks(tc)
    requires forall i :: 0 <= i < |ts| && ts[i].column.Some? ==> Unmarked(ts[i].column.value)
    ensures Placeholders(Join(" ", JoinConditions(tc, ts))) == |ts|
  {
    var cs := JoinConditions(tc, ts);
    forall i | 0 <= i < |cs| ensures Placeholders(cs[i]) == 1 {
      JoinConditionPlaceholders(tc, ts[i]);
    }
    TotalPlaceholdersOnes(cs);
    assert Unmarked(" ");
    JoinPlaceholders(" ", cs);
  }

  lemma JoinTermsUnmarked(p: Parsed)
    requires ColumnsUnmarked(p) && p.clause.prefix.Some?
    ensures var ts := JoinTerms(p.clause.prefix.value, p.clause.value, p.terms);
            forall i :: 0 <= i < |ts| && ts[i].column.Some? ==> Unmarked(ts[i].column.value)
  {
    CondTermsMembers(p.terms);
    var ts := JoinTerms(p.clause.prefix.value, p.clause.value, p.terms);
    forall i | 0 <= i < |ts| && ts[i].column.Some? ensures Unmarked(ts[i].column.value) {
      if i > 0 {
        var t := ts[i];
        assert t in CondTerms(p.terms);
        var j :| 0 <= j < |p.terms| && p.terms[j] == Cond(t.comb, t.column.value, t.op, t.value);
      }
    }
  }

  /** Every entry of a state has one `?` per parameter. */
  predicate AllBalanced(entries: seq<Entry>) {
    forall i :: 0 <= i < |entries| ==> Balanced(entries[i])
  }

  lemma AppendBalanced(a: seq<Entry>, b: seq<Entry>)
    requires AllBalanced(a) && AllBalanced(b)
    ensures AllBalanced(a + b)
  {
    forall i | 0 <= i < |a + b| ensures Balanced((a + b)[i]) {
      if i >= |a| {
        assert (a + b)[i] == b[i - |a|];
      }
    }
  }

  lemma FanOutBalanced(p: Parsed)
    requires ColumnsUnmarked(p) && FanOut(p).Ok?
    ensures AllBalanced(FanOut(p).value)
  {
    forall i | 0 <= i < |AllGroups| ensures Balanced(FanOutEntries(p, 3)[i]) {
      FanOutEntryBalanced(AllGroups[i], p);
    }
  }

  lemma NamedEntryBalanced(g: Group, p: Parsed)
    requires ColumnsUnmarked(p)
    ensures Balanced(NamedEntry(g, p))
  {
    ClauseStatementBalanced(g, p);
  }

  lemma ChainBalanced(s: State, g: Group, pre: Prefix, p: Parsed)
    requires AllBalanced(s.entries) && ColumnsUnmarked(p) && p.clause.prefix == Some(pre)
    requires ChainStep(s, g, pre, p).Ok?
    ensures AllBalanced(ChainStep(s, g, pre, p).value.entries)
  {
    var n := |s.entries|;
    var ts := JoinTerms(pre, p.clause.value, p.terms);
    SchemaNoMarks(g);
    JoinTermsUnmarked(p);
    JoinConditionsPlaceholders(TableColumns(g), ts);
    var joined := ChainStep(s, g, pre, p).value.entries[n - 1];
    assert Balanced(joined);
    var init := s.entries[..n - 1];
    assert forall i :: 0 <= i < |init| ==> init[i] == s.entries[i];
    assert ChainStep(s, g, pre, p).value.entries == init + [joined];
    AppendBalanced(init, [joined]);
  }

  lemma FanOutStepBalanced(s: State, p: Parsed)
    requires AllBalanced(s.entries) && ColumnsUnmarked(p) && FanOutStep(s, p).Ok?
    ensures AllBalanced(FanOutStep(s, p).value.entries)
  {
    FanOutBalanced(p);
    AppendBalanced(s.entries, FanOut(p).value);
  }

  lemma NamedStepBalanced(s: State, g: Group, p: Parsed)
    requires AllBalanced(s.entries) && ColumnsUnmarked(p)
    ensures AllBalanced(s.entries + [NamedEntry(g, p)])
  {
    NamedEntryBalanced(g, p);
    AppendBalanced(s.entries, [NamedEntry(g, p)]);
  }

  lemma StepBalanced(s: State, p: Parsed)
    requires AllBalanced(s.entries) && ColumnsUnmarked(p) && Next(s, p).Ok?
    ensures AllBalanced(Next(s, p).value.entries)
  {
    match p.clause.prefix
    case None => FanOutStepBalanced(s, p);
    case Some(pre) =>
      match GroupNamed(pre.group)
      case None => FanOutStepBalanced(s, p);
      case Some(g) =>
        if s.chain {
          ChainBalanced(s, g, pre, p);
        } else {
          NamedStepBalanced(s, g, p);
        }
  }

  /** When no column name holds a `?`, every entry's statement has one `?` per parameter. */
  lemma {:induction false} RunBalanced(ps: seq<Parsed>)
    requires forall i :: 0 <= i < |ps| ==> ColumnsUnmarked(ps[i])
    requires Run(ps).Ok?
    ensures AllBalanced(Run(ps).value.entries)
  {
    if |ps| > 0 {
      var init := ps[..|ps| - 1];
      assert forall i :: 0 <= i < |init| ==> init[i] == ps[i];
      RunBalanced(init);
      StepBalanced(Run(init).value, ps[|ps| - 1]);
    }
  }

  lemma FixedEntriesBalanced()
    ensures Balanced(EmptySearchEntry()) && Balanced(UnparsedEntry())
  {
    var a, b, c, d, e := "SELECT Persons.nb, ", "Cases.nb, Documents.nb", " FROM Persons", " FULL OUTER JOIN Cases",
                         " FULL OUTER JOIN Documents";
    assert Unmarked(a) && Unmarked(b) && Unmarked(c) && Unmarked(d) && Unmarked(e);
    UnmarkedConcat(a, b);
    UnmarkedConcat(a + b, c);
    UnmarkedConcat(a + b + c, d);
    UnmarkedConcat(a + b + c + d, e);
    UnmarkedCount(SelectAll);
  }

  /**
   * Every entry the search returns, parsed or not, has one `?` per
   * parameter, as long as no column name holds a `?`.
   */
  lemma CompileBalanced(input: string, ms: seq<Match<Option<ClauseMatch>>>)
    requires Parse(input, ms).Some? ==> forall i :: 0 <= i < |Parse(input, ms).value| ==> ColumnsUnmarked(Parse(input, ms).value[i])
    requires Compile(input, ms).Ok?
    ensures AllBalanced(Compile(input, ms).value)
  {
    if Parse(input, ms).Some? {
      RunBalanced(Parse(input, ms).value);
    } else {
      FixedEntriesBalanced();
    }
  }

  // ---------------------------------------------------------------- one group only

  /** A restricted search answers nothing for several clauses or for a clause naming another known group. */
  lemma RestrictedRejects(input: string, ms: seq<Match<Option<ClauseMatch>>>, r: Group)
    ensures Parse(input, ms).Some? && |Parse(input, ms).value| > 1 ==> CompileRestricted(input, ms, r) == Ok(NoSearch)
    ensures Parse(input, ms).Some? && |Parse(input, ms).value| == 1 &&
            Target(Parse(input, ms).value[0].clause).Some? && Target(Parse(input, ms).value[0].clause) != Some(r) ==>
              CompileRestricted(input, ms, r) == Ok(NoSearch)
    ensures Parse(input, ms).None? ==>
              CompileRestricted(input, ms, r) ==
                if input == "" then Ok(("SELECT nb FROM " + MainTable(r), [], DefaultReturns(r))) else Ok(NoSearch)
  {
  }

  /** A restricted search fails exactly on no clause at all or on an unknown group name. */
  lemma RestrictedFailures(input: string, ms: seq<Match<Option<ClauseMatch>>>, r: Group)
    ensures CompileRestricted(input, ms, r).Err? <==>
              Parse(input, ms).Some? &&
              (|Parse(input, ms).value| == 0 ||
               (|Parse(input, ms).value| == 1 && Parse(input, ms).value[0].clause.prefix.Some? &&
                Target(Parse(input, ms).value[0].clause).None?))
  {
  }

  /** For a single clause naming group `r`, the restricted search compiles that clause for `r`. */
  lemma RestrictedSingle(input: string, ms: seq<Match<Option<ClauseMatch>>>, r: Group)
    requires Parse(input, ms).Some? && |Parse(input, ms).value| == 1
    requires Target(Parse(input, ms).value[0].clause) == Some(r)
    ensures CompileRestricted(input, ms, r) == Ok(RestrictedSearch(r, Parse(input, ms).value[0]))
  {
  }

  /** A single clause naming group `r` gives one entry: the clause compiled for `r`. */
  lemma CompileSingle(input: string, ms: seq<Match<Option<ClauseMatch>>>, r: Group)
    requires Parse(input, ms).Some? && |Parse(input, ms).value| == 1
    requires Target(Parse(input, ms).value[0].clause) == Some(r)
    ensures Compile(input, ms) == Ok([NamedEntry(r, Parse(input, ms).value[0])])
  {
    var ps := Parse(input, ms).value;
    RunSingle(ps);
    NextNamed(State([], false), ps[0], r);
    assert [] + [NamedEntry(r, ps[0])] == [NamedEntry(r, ps[0])];
  }

  lemma RunSingle(ps: seq<Parsed>)
    requires |ps| == 1
    ensures Run(ps) == Next(State([], false), ps[0])
  {
    assert ps[..0] == [];
  }

  lemma NextNamed(s: State, p: Parsed, g: Group)
    requires Target(p.clause) == Some(g) && !s.chain
    ensures Next(s, p) == Ok(State(s.entries + [NamedEntry(g, p)], EndsWithAnd(p.terms)))
  {
  }

  /**
   * The restricted search and the unrestricted one produce the same
   * statement, parameters and return spec for such a clause.
   */
  lemma RestrictedAgrees(r: Group, p: Parsed)
    ensures var e := NamedEntry(r, p);
            RestrictedSearch(r, p) == (e.sql.text, e.params, e.specs[0])
  {
  }
}

=== FILE: text.dfy ===
/** The few Python `str` operations the modelled code uses, on `seq<char>`. */
module Text {

  /** Python's `str.isspace` for one character. */
  predicate IsSpace(c: char) {
    || '\t' <= c <= '\r' || '\U{1C}' <= c <= ' ' || c == '\U{85}' || c == '\U{A0}' || c == '\U{1680}'
    || '\U{2000}' <= c <= '\U{200A}' || c == '\U{2028}' || c == '\U{2029}' || c == '\U{202F}'
    || c == '\U{205F}' || c == '\U{3000}'
  }

  /** `s.lstrip()`. */
  function TrimStart(s: string): string {
    if s != [] && IsSpace(s[0]) then TrimStart(s[1..]) else s
  }

  /** `s.rstrip()`. */
  function TrimEnd(s: string): string {
    if s != [] && IsSpace(s[|s| - 1]) then TrimEnd(s[..|s| - 1]) else s
  }

  /** Left stripping keeps a suffix that starts with a non-space, after nothing but white space. */
  lemma {:induction false} TrimStartSpec(s: string)
    ensures |TrimStart(s)| <= |s| && TrimStart(s) == s[|s| - |TrimStart(s)|..]
    ensures TrimStart(s) == [] || !IsSpace(TrimStart(s)[0])
    ensures forall i :: 0 <= i < |s| - |TrimStart(s)| ==> IsSpace(s[i])
  {
    if s != [] && IsSpace(s[0]) {
      TrimStartSpec(s[1..]);
    }
  }

  /** Right stripping keeps a prefix that ends with a non-space, before nothing but white space. */
  lemma {:induction false} TrimEndSpec(s: string)
    ensures |TrimEnd(s)| <= |s| && TrimEnd(s) == s[..|TrimEnd(s)|]
    ensures TrimEnd(s) == [] || !IsSpace(TrimEnd(s)[|TrimEnd(s)| - 1])
    ensures forall i :: |TrimEnd(s)| <= i < |s| ==> IsSpace(s[i])
  {
    if s != [] && IsSpace(s[|s| - 1]) {
      TrimEndSpec(s[..|s| - 1]);
    }
  }

  /** `s.strip()`. */
  function Strip(s: string): string {
    TrimEnd(TrimStart(s))
  }

  predicate StartsWith(s: string, p: string) {
    |p| <= |s| && s[..|p|] == p
  }

  predicate EndsWith(s: string, p: string) {
    |p| <= |s| && s[|s| - |p|..] == p
  }

  /** `s.removeprefix(p)`. */
  function RemovePrefix(s: string, p: string): (r: string)
    ensures StartsWith(s, p) ==> p + r == s
    ensures !StartsWith(s, p) ==> r == s
  {
    if StartsWith(s, p) then s[|p|..] else s
  }

  /** `s.removesuffix(p)`. */
  function RemoveSuffix(s: string, p: string): (r: string)
    ensures EndsWith(s, p) ==> r + p == s
    ensures !EndsWith(s, p) ==> r == s
  {
    if EndsWith(s, p) then s[..|s| - |p|] else s
  }

  /** `s.lower()` on ASCII letters; every other character is kept. */
  function Lower(s: string): (r: string)
    ensures |r| == |s|
  {
    if s == [] then []
    else [if 'A' <= s[0] <= 'Z' then (s[0] as int + 32) as char else s[0]] + Lower(s[1..])
  }

  /** `sep.join(parts)`. */
  function Join(sep: string, parts: seq<string>): string {
    if |parts| == 0 then ""
    else if |parts| == 1 then parts[0]
    else parts[0] + sep + Join(sep, parts[1..])
  }

  /** The position of the first `d` in `s`, or `|s|` when there is none. */
  function FirstIndex(s: string, d: char): (i: nat)
    ensures i <= |s| && d !in s[..i]
    ensures i < |s| ==> s[i] == d
  {
    if s == [] then 0
    else if s[0] == d then 0
    else
      var k := FirstIndex(s[1..], d);
      assert s[..k + 1] == [s[0]] + s[1..][..k];
      k + 1
  }

  /** `s.split(d)` for a one-character separator. */
  function Split(s: string, d: char): (r: seq<string>)
    ensures |r| >= 1
    ensures forall i :: 0 <= i < |r| ==> d !in r[i]
    decreases |s|
  {
    var i := FirstIndex(s, d);
    if i == |s| then [s] else [s[..i]] + Split(s[i + 1..], d)
  }

  /** Joining the pieces of a split with the separator gives the text back. */
  lemma {:induction false} SplitJoin(s: string, d: char)
    ensures Join([d], Split(s, d)) == s
    decreases |s|
  {
    var i := FirstIndex(s, d);
    if i < |s| {
      var rest := Split(s[i + 1..], d);
      var parts := Split(s, d);
      assert parts == [s[..i]] + rest;
      assert parts[0] == s[..i] && parts[1..] == rest;
      assert Join([d], parts) == s[..i] + [d] + Join([d], rest);
      SplitJoin(s[i + 1..], d);
      assert s == s[..i] + [d] + s[i + 1..];
    }
  }

  function Digit(n: nat): char
    requires n < 10
  {
    "0123456789"[n]
  }

  /** `str(n)` for a non-negative integer. */
  function NatToString(n: nat): string {
    if n < 10 then [Digit(n)] else NatToString(n / 10) + [Digit(n % 10)]
  }

  /** `str(n)` is a non-empty string of decimal digits. */
  lemma {:induction false} NatToStringDigits(n: nat)
    ensures |NatToString(n)| >= 1
    ensures forall i :: 0 <= i < |NatToString(n)| ==> '0' <= NatToString(n)[i] <= '9'
  {
    if n >= 10 {
      NatToStringDigits(n / 10);
    }
  }

  /** `str(i)` for any integer. */
  function IntToString(i: int): string {
    if i < 0 then "-" + NatToString(-i) else NatToString(i)
  }

  /** Reads a string of decimal digits back; the inverse of NatToString. */
  function DecimalValue(s: string): int {
    if s == [] then 0 else 10 * DecimalValue(s[..|s| - 1]) + (s[|s| - 1] as int - '0' as int)
  }

  lemma DigitValue(k: nat)
    requires k < 10
    ensures Digit(k) as int - '0' as int == k
  {
    if k < 5 {
      assert k == 0 || k == 1 || k == 2 || k == 3 || k == 4;
    } else {
      assert k == 5 || k == 6 || k == 7 || k == 8 || k == 9;
    }
  }

  lemma {:induction false} DecimalRoundTrip(n: nat)
    ensures DecimalValue(NatToString(n)) == n
  {
    var s := NatToString(n);
    if n < 10 {
      DigitValue(n);
      assert s[..|s| - 1] == [];
    } else {
      DecimalRoundTrip(n / 10);
      DigitValue(n % 10);
      assert s == NatToString(n / 10) + [Digit(n % 10)];
      assert s[..|s| - 1] == NatToString(n / 10);
    }
  }

  /** The number of positional `?` placeholders in a piece of SQL text. */
  function Placeholders(s: string): nat {
    if s == [] then 0 else (if s[0] == '?' then 1 else 0) + Placeholders(s[1..])
  }

  /** A piece of SQL text without any placeholder. */
  predicate Unmarked(s: string) {
    '?' !in s
  }

  lemma UnmarkedConcat(a: string, b: string)
    requires Unmarked(a) && Unmarked(b)
    ensures Unmarked(a + b)
  {
  }

  lemma {:induction false} UnmarkedCount(s: string)
    requires Unmarked(s)
    ensures Placeholders(s) == 0
  {
    if s != [] {
      assert s == [s[0]] + s[1..];
      UnmarkedCount(s[1..]);
    }
  }

  /** The placeholders of two pieces of text put together. */
  lemma {:induction false} ConcatPlaceholders(a: string, b: string)
    ensures Placeholders(a + b) == Placeholders(a) + Placeholders(b)
  {
    if a == [] {
      assert a + b == b;
    } else {
      assert (a + b)[1..] == a[1..] + b;
      ConcatPlaceholders(a[1..], b);
    }
  }

  /** Text without a placeholder followed by one `?`. */
  lemma MarkedOnce(pre: string)
    requires Unmarked(pre)
    ensures Placeholders(pre + "?") == 1
  {
    UnmarkedCount(pre);
    assert "?"[1..] == [];
    ConcatPlaceholders(pre, "?");
  }

  /** The placeholders of several pieces of text together. */
  function TotalPlaceholders(parts: seq<string>): nat {
    if parts == [] then 0 else Placeholders(parts[0]) + TotalPlaceholders(parts[1..])
  }

  lemma TotalPlaceholdersSingle(s: string)
    ensures TotalPlaceholders([s]) == Placeholders(s)
  {
    assert [s][1..] == [];
  }

  lemma {:induction false} JoinPlaceholders(sep: string, parts: seq<string>)
    requires Unmarked(sep)
    ensures Placeholders(Join(sep, parts)) == TotalPlaceholders(parts)
  {
    if |parts| > 1 {
      UnmarkedCount(sep);
      JoinPlaceholders(sep, parts[1..]);
      ConcatPlaceholders(parts[0], sep);
      ConcatPlaceholders(parts[0] + sep, Join(sep, parts[1..]));
    }
  }

  lemma {:induction false} TotalPlaceholdersAppend(a: seq<string>, b: seq<string>)
    ensures TotalPlaceholders(a + b) == TotalPlaceholders(a) + TotalPlaceholders(b)
  {
    if a == [] {
      assert a + b == b;
    } else {
      assert (a + b)[1..] == a[1..] + b;
      TotalPlaceholdersAppend(a[1..], b);
    }
  }

  /** Every piece holding exactly one placeholder makes as many placeholders as pieces. */
  lemma {:induction false} TotalPlaceholdersOnes(parts: seq<string>)
    requires forall i :: 0 <= i < |parts| ==> Placeholders(parts[i]) == 1
    ensures TotalPlaceholders(parts) == |parts|
  {
    if parts != [] {
      TotalPlaceholdersOnes(parts[1..]);
    }
  }

  lemma IntToStringUnmarked(i: int)
    ensures Unmarked(IntToString(i))
  {
    NatToStringDigits(if i < 0 then -i else i);
  }

  lemma {:induction false} LowerUnmarked(s: string)
    requires Unmarked(s)
    ensures Unmarked(Lower(s))
  {
    if s != [] {
      assert s[0] in s && Unmarked(s[1..]) by {
        assert s == [s[0]] + s[1..];
      }
      LowerUnmarked(s[1..]);
    }
  }

  lemma PrefixUnmarked(s: string, k: nat)
    requires Unmarked(s) && k <= |s|
    ensures Unmarked(s[..k])
  {
    assert s == s[..k] + s[k..];
  }
}

=== FILE: values.dfy ===
/** The Python values that flow between the database layer and the record objects. */
module Values {
  import opened Wrappers

  /** `None`, an integer, a string, or a list or tuple of values. */
  datatype Value = Null | Int(i: int) | Str(s: string) | List(items: seq<Value>)

  /** Python truthiness. */
  predicate Truthy(v: Value) {
    match v
    case Null => false
    case Int(i) => i != 0
    case Str(s) => s != ""
    case List(items) => items != []
  }

  /** The values a `for` loop visits: the items of a list, the one-character strings of a string, none otherwise. */
  function Iterate(v: Value): (r: Option<seq<Value>>)
    ensures v.List? ==> r == Some(v.items)
    ensures v.Str? ==> r.Some? && |r.value| == |v.s| && forall i :: 0 <= i < |v.s| ==> r.value[i] == Str([v.s[i]])
    ensures (v.Null? || v.Int?) <==> r.None?
  {
    match v
    case List(items) => Some(items)
    case Str(s) => Some(seq(|s|, i requires 0 <= i < |s| => Str([s[i]])))
    case _ => None
  }
}

=== FILE: wrappers.dfy ===
/** Option and Result, used wherever the Python code returns None or raises. */
module Wrappers {

  datatype Option<+T> = None | Some(value: T)

  /** The exceptions the modelled code can raise. */
  datatype Error =
    | KeyError        // a dictionary lookup of an absent key
    | ValueError      // an explicit `raise ValueError(...)`
    | TypeError       // iterating or joining a value of the wrong type
    | IndexError      // `[0]` on an empty result list

  datatype Result<+T> = Ok(value: T) | Err(error: Error)
}
